=== FILE: README.md ===
# Warehouse utilities in Dafny

This project models the reusable core of the Warehouse collection of web and
Android utilities:

- the canvas **clock** of `clock/clock.js`:
  - the `_math` helpers;
  - the swiss and colour-circle faces;
  - the `tick`/`stop` clock object;
  - the `build` factory.
- the Android camera helpers:
  - `PhotoCamera`: choosing the optimal size, the orientation enum, screen-orientation arithmetic;
  - `Camerality`;
  - `Photographer`.
- the string and DOM helpers of the two `std.js` files:
  - `formaStr`;
  - `hasClass`, `addClass` and `removeClass`;
  - the debug-flag objects.
- the three `browserCompat.js` files:
  - `getIEVersion`, `isHTMLElem`, the two `normalizeEvt` variants;
  - the `Array.prototype.indexOf` and `String.prototype.trim` polyfills.
- `utilities/cookies.js` and `utilities/intervalProxy.js`.
- the report builder of `stocks.js`: the agency maps, the monthly and weekly reports, and the ratio cells.

JavaScript values are a small `JsVal` datatype with `typeof`, truthiness, `||`
and `===` (module `JsValues`). JavaScript numbers are `JsNum`: a finite real,
one of the two infinities, or NaN. The string operations the utilities share
are in `JsStrings`:

- white space and `trim`;
- literal-substring search;
- `split` and `join`;
- global and first-match replacement.

Anything the programs obtain from their environment is an explicit parameter:

- the browser's timers;
- the current `Date`;
- `Camera.open`;
- `encodeURIComponent`;
- `Math.cos` and `Math.sin`;
- identities of newly created objects.

The files, one module each unless noted:

| file | module(s) | models |
|---|---|---|
| wrappers.dfy | Wrappers | `Option` and `Result` |
| js_values.dfy | JsValues | JavaScript values, `typeof`, truthiness, `===` |
| js_strings.dfy | JsStrings | shared string operations |
| clock_math.dfy | ClockMath | `_math` of clock/clock.js |
| clock_faces.dfy | ClockFaces | the drawer and both faces |
| clock_controller.dfy | ClockController | the clock object and `build` |
| photo_camera.dfy | PhotoCamera | android_libs/PhotoCamera.java |
| camerality.dfy | CameraDevice, Camerality, Photographer | the two camera holders |
| interval_proxy.dfy | IntervalProxy | utilities/intervalProxy.js |
| cookies.dfy | Cookies | utilities/cookies.js |
| class_list.dfy | ClassList | `hasClass`/`addClass`/`removeClass` |
| std_utils.dfy | StdUtils | `formaStr` and the debug objects |
| browser_compat.dfy | BrowserCompat | the browser-compatibility files |
| stocks.dfy | Stocks | stocks.js |

## Model

| member | source | states |
|---|---|---|
| ClockMath.DegreeRadianRoundTrip | clock/clock.js:45-56 | `d2r` and `r2d` undo each other for any positive value of π |
| ClockMath.T2D | clock/clock.js:65-92 | `t2d` gives an angle exactly for an hour 0..11 or a minute/second 0..59, else null; the angle is measured clockwise from 3 o'clock (0 exactly at hour 3 or minute 15), in 30° or 6° steps |
| ClockMath.HourDialBijective | clock/clock.js:69-77 | each of the twelve hour positions is the angle of exactly one hour |
| ClockMath.CoordOnCircle | clock/clock.js:100-105 | `getCoordByRadians` yields a point at distance `radius` from the centre whenever cos and sin satisfy the Pythagorean identity |
| ClockFaces.SwissGeometryFits | clock/clock.js:243-270 | the swiss face's radius is half the width; every tick mark runs from the rim inwards; minor marks are 0.4 of a major one; every hand is shorter than the radius; the hour hand is shorter than the minute hand |
| ClockFaces.ColorGeometryFits | clock/clock.js:462-494 | the colour face's hour circles touch the canvas edge from inside; the hands grow from hour to second and stay inside the dial; there are twelve numerals |
| ClockFaces.RotateByTimeFrame | clock/clock.js:157-185 | `rotateByTime` translates to the canvas centre. It rotates only for the units hour/minute/second, compared after lower-casing. The rotation stays within one turn starting at -90° |
| ClockFaces.HourRotationMatchesDial | clock/clock.js:157-185 | the hour hand's rotated x axis points at the angle `t2d` gives the same hour, up to whole turns, creeping half a degree per minute |
| ClockFaces.MinuteRotationMatchesDial | clock/clock.js:157-185 | the minute hand's rotated x axis points at the angle `t2d` gives the same minute, up to whole turns |
| ClockFaces.SecondRotationMatchesDial | clock/clock.js:157-185 | the second hand's rotated x axis points at the angle `t2d` gives the same second, up to whole turns |
| ClockFaces.SwissMarksFrom | clock/clock.js:287-309 | the swiss `drawTimeMarks` loop draws one line per dial position, in order |
| ClockFaces.SwissMarksMajorMinor | clock/clock.js:287-309 | of the 60 swiss marks exactly those at multiples of 5 get the major line width |
| ClockFaces.ColorMarksLayout | clock/clock.js:508-555 | the colour face draws one circle and one numeral per multiple of 5, in dial order, and nothing at the other positions |
| ClockFaces.MajorThenSkip | clock/clock.js:508-555 | a major position draws its pair and the four minor positions after it draw nothing |
| ClockFaces.LabelsNameDialHours | clock/clock.js:463-465 | numeral k sits at 30·k degrees, which is the angle `t2d` gives the hour the numeral names |
| ClockFaces.HandRow | clock/clock.js:577-582 | a hand's colour-table row is its dial angle over 6: always one of the 60 rows, and a multiple of 5 for the hour hand |
| ClockFaces.SwissHandsLayout | clock/clock.js:314-382 | each swiss hand lies on the x axis of its own reading's rotated frame, crosses the centre and ends inside the dial; the hour hand is shorter than the minute hand; the dot sits on the second hand's tip; only the second-hand parts wear the accent colour |
| ClockFaces.ColorHands | clock/clock.js:560-688 | the hour hand takes row 5·((h+9) mod 12) of the colour table. The minute hand and its centre pip take row (m+45) mod 60. The second hand, its tip and its centre pip take row (s+45) mod 60, the second being looked up as a minute. The tip's inner dot is white |
| ClockController.SetInterval | clock/clock.js:216-221 | `setInterval` gives a positive handle that was not active and adds it |
| ClockController.ClearInterval | clock/clock.js:226-230 | `clearInterval` deactivates that handle and no other |
| ClockController.Build | clock/clock.js:702-725 | `build` makes the canvas square at its height. "swiss" and "color_circles" give a fresh clock with the matching face; anything else gives null |
| ClockController.Tick | clock/clock.js:212-222 | `tick` sets the time to the given date or the ambient one; it sets a new interval and clears none |
| ClockController.Stop | clock/clock.js:226-230 | `stop` clears only the latest `tick`'s interval, and does nothing before any `tick` |
| ClockController.Fire | clock/clock.js:216-221 | a firing advances the time by 1000 ms, then clears, draws the face's time marks, and draws the hands the face computes for the new time |
| ClockController.FireAdvancesSecond | clock/clock.js:217-220 | each firing moves the stored time on by exactly 1000 ms, and so the seconds reading on by one, wrapping at 60 |
| ClockController.TicksAdvanceTime | clock/clock.js:216-221 | after n firings, each moving the time on by 1000 ms, the clock reads exactly n seconds past its start |
| ClockController.TickTwiceLeaksInterval | clock/clock.js:212-230 | as written, `tick`, `tick`, `stop` leaves the first interval active, and it still redraws |
| ClockController.TickRestart | clock/clock.js:212-230 | the corrected `tick` clears the running interval before setting its own |
| ClockController.RestartKeepsOneInterval | clock/clock.js:212-230 | with the corrected `tick` a clock owns exactly one interval while ticking and none after `stop` |
| PhotoCamera.Quotient | android_libs/PhotoCamera.java:92-102 | Java float division of ints: exact for a non-zero divisor, NaN exactly for 0/0, otherwise an infinity of the dividend's sign |
| PhotoCamera.RatioSkippedOnReals | android_libs/PhotoCamera.java:92-102 | with positive heights, a size is skipped exactly when its aspect ratio differs from the request's by more than 0.05 |
| PhotoCamera.ZeroRequestKeepsEverySize | android_libs/PhotoCamera.java:92-102 | a 0×0 request has a NaN ratio, so the filter skips no size |
| PhotoCamera.FirstNearestUnique | android_libs/PhotoCamera.java:92-118 | the reference choice (least distance, lowest index on ties) is unique |
| PhotoCamera.GetOptimalSize | android_libs/PhotoCamera.java:74-121 | a negative dimension and an empty list are errors. Otherwise the result is the nearest size that passes the ratio filter; when none passes, the nearest of all sizes. Ties go to the earliest size |
| PhotoCamera.NearestPass | android_libs/PhotoCamera.java:92-118 | one scan keeps the first index whose distance is strictly below every earlier candidate's; it returns -1 exactly when no size is eligible |
| PhotoCamera.FromInt | android_libs/PhotoCamera.java:195-203 | `fromInt` is defined exactly on 0, 90, 180 and 270 |
| PhotoCamera.ToInt | android_libs/PhotoCamera.java:211-219 | `toInt` yields one of the four right angles |
| PhotoCamera.OrientationRoundTrip | android_libs/PhotoCamera.java:195-219 | `fromInt` and `toInt` are inverse to each other |
| PhotoCamera.JavaRem360 | android_libs/PhotoCamera.java:515-531 | Java's `% 360`: the remainder takes the dividend's sign and is congruent to it |
| PhotoCamera.DisplayDegrees | android_libs/PhotoCamera.java:508-513 | the rotation constants 0..3 become 0°, 90°, 180°, 270°; any other value is kept |
| PhotoCamera.AdjustedAnglesRightAngles | android_libs/PhotoCamera.java:515-531 | right angles in give right angles out. A back camera gets orientation minus display for both angles. A front camera's two angles are mirror images, its picture rotation being orientation plus display |
| PhotoCamera.SetOrientationAsScreen | android_libs/PhotoCamera.java:505-545 | fails exactly when `getOrientation` is null (at 313-326). Otherwise it writes the computed rotation and returns the camera orientation. It updates the display orientation only when `fromInt` accepts the angle |
| PhotoCamera.OrientationAngles | android_libs/PhotoCamera.java:505-545 | for the four display rotations the call succeeds and always updates the display orientation to a right angle consistent with the camera orientation |
| CameraDevice.FirstFacing | android_libs/Camerality.java:26-38 | the least camera id with the given facing, or `Integer.MIN_VALUE` when none has it |
| Camerality.ScanIds | android_libs/Camerality.java:20-38 | the downward scan leaves the lowest back-facing and lowest front-facing ids |
| Camerality.CheckCamerasExistence | android_libs/Camerality.java:16-39 | once both ids are known it does nothing; otherwise both ids come from a fresh scan and held cameras are untouched |
| Camerality.New | android_libs/Camerality.java:7-9 | the constructor scans and holds no camera |
| Camerality.ScanRunsOnce | android_libs/Camerality.java:16-18 | a second check changes nothing, whatever the cameras now report |
| Camerality.HasCameraAfterScan | android_libs/Camerality.java:41-47 | after construction `hasBackCamera`/`hasFrontCamera` hold exactly when some camera has that facing; the back id then names such a camera |
| Camerality.ReleaseCameras | android_libs/Camerality.java:83-94 | `releaseCameras` releases exactly the held cameras and holds none afterwards |
| Camerality.GetBackCamera | android_libs/Camerality.java:49-64 | with no back camera it returns null and changes nothing. Otherwise it releases both held cameras and holds and returns the open outcome in the back slot |
| Camerality.GetFrontCamera | android_libs/Camerality.java:66-81 | the front-camera counterpart of `getBackCamera` |
| Camerality.GettersHoldAtMostOne | android_libs/Camerality.java:49-81 | through its getters the holder never keeps both cameras open |
| Photographer.HasBack | android_libs/Photographer.java:102-115 | `hasBackCamera` opens the back camera lazily when an id is known, and answers whether one is held afterwards |
| Photographer.HasFront | android_libs/Photographer.java:117-128 | the front-camera counterpart of `hasBackCamera` |
| Photographer.UseBack | android_libs/Photographer.java:131-138 | the back camera becomes current exactly when `hasBackCamera` succeeds; otherwise the current camera is kept. Nothing else changes beyond what `hasBackCamera` did |
| Photographer.UseFront | android_libs/Photographer.java:140-147 | the front-camera counterpart of `useBackCamera`, with the same frame: only `currentCamera` is written after `hasFrontCamera` |
| Photographer.GetPhotographer | android_libs/Photographer.java:59-87 | prefers the back id, else the front id. It returns null when neither is known or opening fails; otherwise the opened camera fills the chosen slot and is current |
| Photographer.SwitchAndBack | android_libs/Photographer.java:131-147 | switching to the front camera and back again leaves the back camera current; the front camera is opened on the way when it can be |
| IntervalProxy.Set | utilities/intervalProxy.js:46-80 | `set` rejects anything but a function with a positive number and changes nothing. An accepted package is stored under the current length, which it returns; the length grows by one, and every other handle keeps its package, or its absence |
| IntervalProxy.Clear | utilities/intervalProxy.js:88-96 | `clear` of a live handle cancels that package's timer, removes only that package and answers true; otherwise it answers false and changes nothing |
| IntervalProxy.Run | utilities/intervalProxy.js:46-96 | over any run the table stays valid, the length never decreases, and every handle returned lies in the new range |
| IntervalProxy.HandlesIncrease | utilities/intervalProxy.js:49-77 | handles are never reused: the handles returned over any run strictly increase, even across `clear` |
| IntervalProxy.SetThenClear | utilities/intervalProxy.js:35-37 | `exist` holds right after `set` and fails right after `clear` of that handle, which restores the package table |
| Cookies.Set | utilities/cookies.js:22-50 | `set` returns false exactly when the name is not a string, or the value neither a string nor a number; otherwise the cookie starts with the encoded pair |
| Cookies.SetSegments | utilities/cookies.js:28-46 | the written cookie splits on `;` into the encoded pair, then exactly the attributes given, in the order expires, path, domain, secure |
| Cookies.Remove | utilities/cookies.js:102-104 | `remove` writes exactly when the name is a string |
| Cookies.RemoveWritesExpiredEmpty | utilities/cookies.js:102-104 | `remove` writes an empty value expiring 365 days back, with the given path and domain and never `secure` |
| Cookies.ParsePiece | utilities/cookies.js:87-89 | a piece parses only when it holds `=`; the name is the decoded, trimmed text before it |
| Cookies.ParsePieces | utilities/cookies.js:86-91 | the parse loop succeeds only when every piece holds `=` |
| Cookies.List | utilities/cookies.js:70-95 | `list` is null exactly for an empty cookie string; a successful parse means every `;` piece holds `=` |
| Cookies.LastPieceWins | utilities/cookies.js:86-91 | the last piece for a name decides its value |
| Cookies.Get | utilities/cookies.js:57-64 | `get` returns the listed value when it is non-empty, null when the name is absent or its value empty, and passes on `list`'s errors |
| Cookies.ListRoundTrip | utilities/cookies.js:70-95 | pairs stored with an inverse codec list back as the name-to-value map, a later duplicate winning |
| Cookies.GetAfterStore | utilities/cookies.js:57-64 | after storing pairs, `get` returns a name's last value when that value is non-empty |
| Cookies.ParsePair | utilities/cookies.js:87-89 | a pair padded with white space reads back as the decoded pair |
| Cookies.ParseIndented | utilities/cookies.js:86-91 | the parse loop over space-prefixed pairs builds the map that assigning them in order builds |
| Cookies.IndentJoin | utilities/cookies.js:76 | a `"; "` join is a `;` join of space-prefixed pieces |
| JsStrings.LeadingSpaces | utilities/cookies.js:78 | the length of the maximal leading white-space run, which `^\s\s*` removes |
| JsStrings.LeadingSpacesUnique | utilities/cookies.js:78 | any boundary with only white space before it and none right after it is that run's end |
| JsStrings.TrailingStart | utilities/cookies.js:79-82 | the start of the maximal trailing white-space run |
| JsStrings.TrailingStartUnique | utilities/cookies.js:79-82 | any boundary with only white space after it and none right before it is that run's start |
| JsStrings.TrimShape | utilities/cookies.js:77-83 | the trimmed text starts and ends with non-white-space and lies between the leading and trailing white-space runs |
| JsStrings.TrimByScan | utilities/cookies.js:77-83 | the trim loop (regex removal, then stepping back while `\s` matches) computes `Trim`. The same loop is the `String.prototype.trim` polyfill at js_libs/browserCompat.js:312 and utilities/browserCompat.js:247 |
| JsStrings.TrimFrame | utilities/cookies.js:77-83 | white space around a text without surrounding white space is exactly what trimming removes |
| JsStrings.TrimIdempotent | utilities/cookies.js:77-83 | trimming twice equals trimming once |
| JsStrings.RegexTrimIsTrim | browserCompat/browserCompat.js:99 | the one-regex `replace(/^\s+\|\s+$/g, '')` polyfill equals `Trim` |
| JsStrings.IndexOf | js_libs/std.js:55 | `search` of a literal pattern finds its least occurrence, or -1 when it occurs nowhere |
| JsStrings.IndexOfIsLeast | js_libs/std.js:55 | the least occurrence is the one found |
| JsStrings.JoinSplit | utilities/cookies.js:76 | joining a split with its separator gives the string back |
| JsStrings.SplitJoin | utilities/cookies.js:76 | splitting a join of separator-free pieces gives the pieces back |
| JsStrings.SplitPiecesFree | utilities/cookies.js:76 | no piece of a split contains the separator |
| JsStrings.ReplaceAllIsJoinOfSplit | js_libs/std.js:24-25 | a global literal replacement is a split joined with the replacement |
| JsStrings.ReplaceFirstAfter | js_libs/std.js:116 | when the first match lies in the second part, a first-match replacement leaves the first part alone |
| JsStrings.NatToStringValue | js_libs/std.js:24 | the printed argument index is a digit string that reads back as the index |
| JsStrings.NatToStringInjective | js_libs/std.js:24 | different indices print differently |
| StdUtils.Placeholder | js_libs/std.js:24 | the format item is a brace, digits and a closing brace |
| StdUtils.FormaStrLoop | js_libs/std.js:14-29 | the loop of `formaStr` computes the sequential substitution `FormaStr` |
| StdUtils.FormaStrAbsent | js_libs/std.js:21-26 | a string holding none of the format items comes back unchanged |
| StdUtils.FormaStrNoBrace | js_libs/std.js:21-26 | a string without `{` comes back unchanged whatever the arguments |
| StdUtils.OnlyPlaceholder | js_libs/std.js:24 | in a brace-free text with one item "{k}", no other item "{j}" occurs |
| StdUtils.UnmatchedPlaceholderRemains | js_libs/std.js:21-26 | an item with no argument stays in the result |
| StdUtils.ReplaceOnly | js_libs/std.js:25 | replacing the only item splices the value in its place |
| StdUtils.FormaStrFill | js_libs/std.js:14-29 | one argument fills "{0}" |
| StdUtils.FormaStrFillAt | js_libs/std.js:14-29 | with any number of arguments, a text `a + "{k}" + b` with no `{` in `a` or `b`, for k below the argument count, gets argument k in place of the item when that argument holds no `{` |
| StdUtils.FormaStrFillTwo | js_libs/std.js:6-29 | two items, as in "{0} can {1}.", are filled by the two arguments in order |
| StdUtils.FormaStrSequential | js_libs/std.js:21-26 | substitution is sequential: a first argument "{1}" is itself replaced by the second |
| StdUtils.IsDbgResolution | js_libs/std.js:357-359 | when the last `cls_Master_DBG` call passed anything but `undefined`, that value's truthiness decides every local object's debug mode. After a call with `undefined`, or before any call, each local flag decides |
| StdUtils.Logged | js_libs/std.js:350-383 | as written, `log`, `warn` and `error` call their sink exactly when the master flag, or failing it the local flag, is on. The sink then receives only "<tag> :: undefined" |
| StdUtils.LoggedCorrected | js_libs/std.js:357-383 | with the arguments copied, the sink is called exactly in debug mode |
| StdUtils.LoggedAfterCalls | js_libs/std.js:357-359 | after a sequence of `cls_Master_DBG` calls, a local object logs exactly when the last call's value is truthy, provided that value is not `undefined`. When it is `undefined`, or there was no call, its own flag decides |
| StdUtils.LoggedDropsArguments | js_libs/std.js:365-371 | as written, every logged call hands the sink one value. A local object made by `newLocDBG` has no tag, so its `log("started")` logs "null :: undefined" |
| StdUtils.LoggedCorrectedKeepsArguments | js_libs/std.js:365-371 | corrected, the sink receives every argument, the first one prefixed by "<tag> :: "; the same call logs "null :: started" |
| StdUtils.TestNeverRuns | js_libs/std.js:385-387 | as written, `test` never runs its behaviour |
| StdUtils.TestRunsOnFunctions | js_libs/std.js:385-387 | corrected, `test` runs exactly in debug mode on a function |
| ClassList.AllFound | js_libs/std.js:53-60 | the search loop succeeds exactly when every string entry is found between spaces |
| ClassList.HasClass | js_libs/std.js:40-64 | `hasClass` is false unless the class string is a non-empty string and the argument a list. Then it holds exactly when every string entry occurs, space-delimited, in the padded class string |
| ClassList.HasClassTokens | js_libs/std.js:40-64 | on a non-empty class string, `hasClass` holds exactly when every `" "`-piece of the argument is a token of the class string |
| ClassList.HasClassName | utilities/std.js:15-39 | for a class name, `hasClass` is token membership |
| ClassList.TokenSearch | js_libs/std.js:51-55 | searching a padded token list for a space-delimited name finds its first token, or -1 |
| ClassList.TokenFound | js_libs/std.js:51-55 | a space-free name occurs space-delimited exactly when it is a token |
| ClassList.PadJoinSplit | js_libs/std.js:51 | the padded class string is the padded join of its tokens |
| ClassList.AddClass | js_libs/std.js:75-96 | `addClass` answers false and changes nothing when nothing was added; otherwise it returns a non-empty list of entries of the argument |
| ClassList.AddLoopAdded | js_libs/std.js:82-87 | on class names the loop adds exactly the names not yet present and not repeated, in order |
| ClassList.AddLoopSplit | js_libs/std.js:82-87 | the class string's tokens grow by exactly the names added |
| ClassList.AddClassTokens | js_libs/std.js:75-96 | on a trimmed class string, `addClass` with names adds those not present, in order. It returns them, or false when none, and the new tokens are the old ones followed by them |
| ClassList.AddClassPresent | utilities/std.js:50-71 | after `addClass` every given name is present |
| ClassList.FreshSound | js_libs/std.js:82-87 | the names to add are the argument's names not yet present, each once |
| ClassList.RemoveFirst | js_libs/std.js:116 | removing a present token shortens the list by one; an absent one changes nothing |
| ClassList.RemoveFirstCounts | js_libs/std.js:116 | removing a present token drops exactly one occurrence of it and keeps every other token |
| ClassList.ReplaceToken | js_libs/std.js:116 | replacing the first space-delimited name with a space removes its first token |
| ClassList.RemoveClass | js_libs/std.js:107-128 | `removeClass` answers false and changes nothing when nothing was removed; otherwise it returns a non-empty list of entries of the argument |
| ClassList.RemoveLoopTokens | js_libs/std.js:113-120 | on class names the loop removes the first occurrence of each name present at its turn, and collects those names |
| ClassList.RemoveClassTokens | utilities/std.js:82-103 | `removeClass` on single-spaced names takes out the first occurrence of each present name. It returns those names, or false when none, and leaves the rest single-spaced |
| ClassList.RemoveEachKeeps | js_libs/std.js:113-120 | removing names leaves class names |
| BrowserCompat.FirstMatch | js_libs/browserCompat.js:15-16 | the leftmost position where "MSIE " is followed by a digit |
| BrowserCompat.VersionRun | js_libs/browserCompat.js:15 | the greedy `[.0-9]` capture is the longest such prefix |
| BrowserCompat.GetIEVersion | js_libs/browserCompat.js:11-21 | `getIEVersion` is NaN unless the app name is Internet Explorer's and the pattern matches; a numeric version is never negative |
| BrowserCompat.ParseVersionValue | js_libs/browserCompat.js:17 | `+` reads a captured version with no dot as its integer value, and one dot as the integer part plus the fraction digits' value over 10 to the number of those digits; a second dot gives NaN |
| BrowserCompat.FracValueBelowOne | js_libs/browserCompat.js:17 | the digits after the dot add a fraction in [0, 1) to the integer part |
| BrowserCompat.GetIEVersionOf | utilities/browserCompat.js:11-21 | for a user agent whose first "MSIE " is followed by digits ending the token, the version is their decimal value |
| BrowserCompat.IsHTMLElemExactly | js_libs/browserCompat.js:279-285 | `isHTMLElem` holds exactly for an object whose `nodeType` is 1 or 3 |
| BrowserCompat.PolyfillStart | js_libs/browserCompat.js:311 | the polyfill's start is never negative. A non-negative finite start is kept, a negative one counts from the end clamped at 0, and NaN and infinities give 0 |
| BrowserCompat.IndexOfPolyfill | utilities/browserCompat.js:246 | the polyfill's loop returns the first position from the start whose value is `===` the target, else -1 |
| BrowserCompat.PolyfillIndexOf | js_libs/browserCompat.js:311 | a found position lies between the start and the length and holds a `===` value |
| BrowserCompat.StandardIndexOf | browserCompat/browserCompat.js:98 | the reference `indexOf` of section 15.4.4.14 of ECMAScript 5.1: the least matching index at or after the truncated start, nothing from +Infinity |
| BrowserCompat.PolyfillAgreesOnWholeStarts | js_libs/browserCompat.js:311 | on whole finite starts, NaN and -Infinity, the polyfill agrees with the standard |
| BrowserCompat.PolyfillInfiniteStart | js_libs/browserCompat.js:311 | from +Infinity the polyfill searches the whole array, where the standard finds nothing |
| BrowserCompat.PolyfillFractionalStart | js_libs/browserCompat.js:311 | from a fractional start the polyfill never finds a defined value and "finds" undefined at a non-index |
| BrowserCompat.ShortNormalize | utilities/browserCompat.js:132-150 | the short `normalizeEvt` throws exactly when the event is falsy and `window.event` is undefined or null. Otherwise an object event is updated in place: its target becomes `target \|\| srcElement` and both shims are present |
| BrowserCompat.ShortNormalizeKeeps | browserCompat/browserCompat.js:47-65 | shims are added only where missing; every other field is kept |
| BrowserCompat.AsWrittenLacksStopPropagation | utilities/browserCompat.js:138-142 | as written, an event lacking `stopPropagation` still lacks it afterwards |
| BrowserCompat.CorrectedHasStopPropagation | browserCompat/browserCompat.js:53-58 | corrected, every object event ends with a callable `stopPropagation`, and an existing one is kept |
| BrowserCompat.ShortNormalizeIdempotent | utilities/browserCompat.js:132-150 | the corrected short normaliser is idempotent on object events |
| BrowserCompat.RemapButton | js_libs/browserCompat.js:198-203 | the remapped button is 0, 1 or 2; 1 only for the middle bit without left, 2 only for right alone |
| BrowserCompat.IEButtonsToW3C | js_libs/browserCompat.js:198-203 | Internet Explorer's 1, 2, 4 become 0, 2, 1, and a chord with the left button reads as left |
| BrowserCompat.NormalizedFields | js_libs/browserCompat.js:144-178 | the copy keeps every unwritten field. Its target is kept when truthy, else `srcElement`, else the document. It gets the created shims |
| BrowserCompat.PageCoords | js_libs/browserCompat.js:181-191 | page coordinates are added only when `clientX` is not null. Then `pageX` is `clientX` and `pageY` is `clientY`, each plus the scroll offset minus the client offset |
| BrowserCompat.NormalizeEventPage | js_libs/browserCompat.js:181-191 | the normalised copy has `pageX` and `pageY` shifted by the scroll offset less the client offset when `clientX` is not null, and the source's own when it is |
| BrowserCompat.FixButton | js_libs/browserCompat.js:198-203 | a present button becomes 0, 1 or 2; a missing one and every other field are left alone |
| BrowserCompat.NormalizeEvent | js_libs/browserCompat.js:134-207 | an event that already has `stopPropagation` is returned as it is; otherwise the result is the new copy with the created `stopPropagation` |
| BrowserCompat.ForInFields | js_libs/browserCompat.js:145-147 | the `for … in` loop visits an object's fields, and a string's characters or an array's elements under their index names; other values have no properties |
| BrowserCompat.NormalizeEventCopies | js_libs/browserCompat.js:141-147 | every property the copy loop visits and the normaliser does not write keeps its value; for an object source, every such field |
| BrowserCompat.NormalizeEventIndexCopies | js_libs/browserCompat.js:141-147 | a string source's characters and an array source's elements are copied under "0", "1", … |
| BrowserCompat.NormalizeEventTarget | js_libs/browserCompat.js:150-163 | the target is kept when truthy, else `srcElement`, else the document; `preventDefault` is the created shim |
| BrowserCompat.NormalizeEventRelatedTarget | js_libs/browserCompat.js:154-157 | `relatedTarget` is the source's `toElement` when its `fromElement` is the new target by `===`, else its `fromElement` |
| BrowserCompat.NormalizeEventWhich | js_libs/browserCompat.js:194 | `which` is `charCode \|\| keyCode` |
| BrowserCompat.NormalizeEventButton | js_libs/browserCompat.js:198-203 | a present button becomes 0, 1 or 2; a missing one is left as it is |
| BrowserCompat.NormalizeEventIdempotent | js_libs/browserCompat.js:139 | normalising a normalised event changes nothing |
| Stocks.FormatRatioCell | stocks.js:302-323 | a blank gap leaves the cell untouched. A zero gap gives no colour and NaN. Otherwise the cell is red for a positive and green for a negative short-term gap |
| Stocks.RatioSameSign | stocks.js:305-316 | same signs: the cell shows \|short\|/\|long\| as a positive percentage |
| Stocks.RatioOppositeSign | stocks.js:308-313 | opposite signs: the cell shows \|short\|/(\|long\|+\|short\|), strictly between 0 and 100 per cent |
| Stocks.Find | stocks.js:238 | the position of an agency in the map, -1 exactly when absent |
| Stocks.Lookup | stocks.js:200 | `map.get` returns an entry with that agency, and is undefined exactly when the agency is absent |
| Stocks.MapSet | stocks.js:238 | `map.set` keeps the keys distinct |
| Stocks.LookupSet | stocks.js:238 | setting a row changes the lookup of its agency and nothing else |
| Stocks.AgenciesSet | stocks.js:238 | setting a row keeps the key order and appends a new key |
| Stocks.CreateMapFromArray | stocks.js:236-240 | the built map has distinct keys |
| Stocks.CreateMapLookup | stocks.js:236-240 | the map holds each agency's last row |
| Stocks.LastWithPresent | stocks.js:236-240 | an agency has a row exactly when some input row names it |
| Stocks.CreateMapOrder | stocks.js:236-240 | keys come in order of first appearance |
| Stocks.ParseSourceList | stocks.js:54-70 | at most 25 rows, never the table's last row, a prefix of the table |
| Stocks.GenerateMonthlyReport | stocks.js:192-215 | one row per monthly agency, in map order, with its monthly figures. The week and day gap and price come from the buy map when it has the agency, else from the sell map, and are blank when neither has it. The three ratio cells compare month with week, week with day and month with day; a cell is untouched exactly when one of its gaps is blank |
| Stocks.MonthlyFiguresFromLists | stocks.js:144-215 | with the maps built from the parsed lists, a monthly row shows the gap and price of the agency's last buy row of the week, else its last sell row, and likewise for the day. Its three cells compare those gaps |
| Stocks.GenerateWeeklyReport | stocks.js:217-234 | one row per weekly agency, in map order, with its weekly figures. The day gap and price come from the buy map when it has the agency, else from the sell map, and are blank when neither has it. The ratio cell compares week with day and is untouched exactly when the day is blank |
| Stocks.WeeklyFiguresFromLists | stocks.js:217-240 | with the maps built from the parsed daily lists, a weekly row shows the gap and price of the agency's last daily buy row, else its last sell row, and its cell compares the week's gap with that day's |
| Stocks.Analyze | stocks.js:72-86 | when all three lists are missing the stored ones are used; the call succeeds exactly when the lists it reads are all present |
| Stocks.AnalyzeFallback | stocks.js:72-86 | lists that are passed are used whatever is stored; storing them and passing none gives the same result |
| Stocks.AnalyzeMonthlyBuyRows | stocks.js:144-168 | the monthly buy table lists each agency once, in order of first appearance, with the gap of its last row |

## Left out

- Canvas drawing, DOM access, `document.cookie` storage and XHR are outside the model. Drawing is modelled as the list of shapes drawn; cookies as the string written or read.
- ClockFaces.Date: the hour, minute and second getters read one local time line with a fixed time-zone offset. Daylight-saving changes, which shift `getHours` during a run, are not modelled.
- `Math.PI`, `Math.cos` and `Math.sin` are parameters, with real arithmetic in place of IEEE doubles. `ClockMath.DegreeRadianRoundTrip` therefore holds exactly, where doubles round.
- The timers of clock/clock.js and utilities/intervalProxy.js are an explicit scheduler value. The self-rescheduling `proxy` of intervalProxy.js (lines 55-66) is outside the model, since it needs real time.
- IntervalProxy.Exist: handles are integers. The string handle "length", which `exist` would report once a task was set, is outside the model.
- The `build` factory sets `canvas.width` to the height (clock/clock.js:706-708). The model follows the code.
- `electric_clock` is accepted by `build` but has no face; the model returns null for it, as the code does.
- Photographer.GetPhotographer: the id scan of `getPhotographer` (android_libs/Photographer.java:39-57) passes a null `CameraInfo` to the platform, whose behaviour is outside the model. The two ids are therefore inputs.
- `Camera.open`, `setupCamera`, `Camera.Parameters` and logging are outside the model; the outcome of opening a camera is an input.
- The Android-only parts of PhotoCamera.java outside `getOptimalSize`, the orientation enum and `setOrientationAsScreen` are not modelled: focus and flash modes, `setPhotoSize`/`setPreviewSize` wrappers, `open`.
- The two size lists `getOptimalSize` receives are finite int sizes. Float rounding of the 0.05 comparison is not modelled: ratios are exact reals.
- PhotoCamera.GetOptimalSize: the distance `size.width - w + size.height - h` (android_libs/PhotoCamera.java:97-99) is Java `int` arithmetic and can wrap, and `Math.abs` of `Integer.MIN_VALUE` stays negative. Its comparison with the `float` `minDiff` also rounds large values. `Distance` is an unbounded integer, so the model's choice agrees with the code only for sizes and requests whose distances fit and convert exactly.
- `encodeURIComponent`, `decodeURIComponent`, number printing and `Date.toUTCString` are function parameters.
- Cookies.List and Cookies.Get: `list` stores the pairs on a plain `{}` (utilities/cookies.js:85-90), so a cookie named `__proto__` does not become an own field, and `get` of an absent name such as `toString` finds an inherited function rather than null. The model's map has no prototype; it is faithful for names that are not `Object.prototype` properties.
- Cookies.Set: the browser's cookie store (which merges by name and path) is not modelled; `Set` yields the assigned string.
- JsStrings.IndexOf and JsStrings.ReplaceAll: patterns are literal. Regular-expression metacharacters in a class name passed to `hasClass`, and `$` patterns in a `formaStr` argument, are not modelled.
- StdUtils.FormaStr: arguments are taken as the strings they convert to; `String(x)` of non-strings is not modelled.
- The `window.log`/`warn`/`error` sinks are not modelled; `Logged` returns the arguments a sink would receive. How `+` prints objects, functions, numbers and booleans is the parameter `show`.
- ClassList.AddClass and ClassList.RemoveClass: their own contracts hold for every argument. The token-level results (`AddClassTokens`, `RemoveClassTokens`) are proved for arguments made of class names without white space, and a trimmed class string.
- `scrollTo`, `xhr`, `getWindowWH`, `getDocScrollInfo`, `getComputedStyle`, `addEvt`/`rmEvent` and the `Array.prototype.forEach` polyfill are DOM or browser glue and are not modelled.
- BrowserCompat.ShortNormalize: arrays and functions are objects in JavaScript, and the writes of `normalizeEvt` would stick on them. The model treats them like primitives and returns them unchanged, because its array and function values carry no property map.
- BrowserCompat.NormalizeEvent: the created functions (`preventDefault`, `stopPropagation`, `stopImmediatePropagation` and the three `is…` functions) are stored as function values. What they do when called is not modelled. Page coordinates are modelled for numeric, undefined, null and boolean client coordinates only. Model objects have no prototype chain, so the copy loop visits no inherited enumerable property.
- BrowserCompat.GetIEVersion: `navigator` is passed in, and the last match's `RegExp.$1` is read as the capture of the pattern in the user agent.
- stocks.js: `parseInt`/`parseFloat` of table cells, the `calculateAvg` and `autoAnalyze` Promise chains, the HTML templates and row highlighting are not modelled. A row's gap is an integer and its price a real.

## Findings

| source | as written | input that shows it | evidently intended | confidence | as-written member | corrected member |
|---|---|---|---|---|---|---|
| clock/clock.js:212-230 | `tick` sets a new interval without clearing the one a previous `tick` set; `stop` clears only the latest | `tick(d1); tick(d2); stop()` | the clock stops redrawing after `stop`, and ticks once per second | not executed | ClockController.TickTwiceLeaksInterval | ClockController.RestartKeepsOneInterval |
| utilities/browserCompat.js:138-142 | the shim is installed as `stopPropoagation` | an old Internet Explorer event object without `stopPropagation` | install `stopPropagation` | not executed | BrowserCompat.AsWrittenLacksStopPropagation | BrowserCompat.CorrectedHasStopPropagation |
| browserCompat/browserCompat.js:53-58 | the same misspelled `stopPropoagation` shim | an event object without `stopPropagation` | install `stopPropagation` | not executed | BrowserCompat.AsWrittenLacksStopPropagation | BrowserCompat.CorrectedHasStopPropagation |
| js_libs/std.js:365-371 | `prependTag` replaces `arguments` by `Array.prototype.slice(args)`, which slices the empty `Array.prototype` | `new cls_Master_DBG(true).newLocDBG().log("started")`, whose local object has no tag: the sink receives "null :: undefined" | copy the arguments with `Array.prototype.slice.call(args)` and prefix the first | not executed | StdUtils.LoggedDropsArguments | StdUtils.LoggedCorrectedKeepsArguments |
| js_libs/std.js:385-387 | `test` compares `typeof behavior` with "funciton" | any function in debug mode | run the behaviour when it is a function | not executed | StdUtils.TestNeverRuns | StdUtils.TestRunsOnFunctions |
| js_libs/browserCompat.js:311 | the `indexOf` polyfill maps a `fromIndex` of +Infinity to 0 | `[x].indexOf(x, Infinity)` gives 0 | -1, as section 15.4.4.14 of ECMAScript 5.1 requires | not executed | BrowserCompat.PolyfillInfiniteStart | BrowserCompat.StandardIndexOf |
| js_libs/browserCompat.js:311 | the `indexOf` polyfill does not truncate a fractional `fromIndex` | `[x, x].indexOf(x, 0.5)` gives -1 | 0, since the start is truncated to an integer | not executed | BrowserCompat.PolyfillFractionalStart | BrowserCompat.StandardIndexOf |

=== FILE: browser_compat.dfy ===
/** The pure helpers and polyfills of the three browser-compatibility files,
    js_libs/browserCompat.js, utilities/browserCompat.js and
    browserCompat/browserCompat.js. */
module BrowserCompat {
  import opened Wrappers
  import opened JsValues
  import opened JsStrings

  /** The `navigator.appName` of Internet Explorer up to version 10. */
  const IEAppName := "Microsoft Internet Explorer"

  /** The literal part of `/MSIE ([0-9]{1,}[.0-9]{0,})/`. */
  const Marker := "MSIE "

  /** A character of the class `[.0-9]`. */
  predicate VersionChar(c: char)
  {
    c == '.' || IsDigit(c)
  }

  /** The pattern matches at `j`: the marker followed by at least one digit. */
  predicate MatchesAt(ua: string, j: int)
  {
    OccursAt(ua, Marker, j) && j + |Marker| < |ua| && IsDigit(ua[j + |Marker|])
  }

  /** The leftmost position at or after `j` where the pattern matches. */
  function FirstMatch(ua: string, j: nat): (m: Option<nat>)
    ensures m.Some? ==> j <= m.value && MatchesAt(ua, m.value)
    ensures m.Some? ==> forall i :: j <= i < m.value ==> !MatchesAt(ua, i)
    ensures m.None? ==> forall i :: j <= i ==> !MatchesAt(ua, i)
    decreases |ua| - j
  {
    if j + |Marker| >= |ua| then None
    else if MatchesAt(ua, j) then Some(j)
    else FirstMatch(ua, j + 1)
  }

  /** The longest prefix of `s` made of `[.0-9]`: what the greedy group captures. */
  function VersionRun(s: string): (t: string)
    ensures |t| <= |s| && t == s[..|t|]
    ensures forall i :: 0 <= i < |t| ==> VersionChar(t[i])
    ensures |t| < |s| ==> !VersionChar(s[|t|])
  {
    if |s| == 0 || !VersionChar(s[0]) then "" else [s[0]] + VersionRun(s[1..])
  }

  /** The number of leading digits of `s`. */
  function DigitsPrefix(s: string): (n: nat)
    ensures n <= |s| && AllDigits(s[..n])
    ensures n < |s| ==> !IsDigit(s[n])
  {
    if |s| == 0 || !IsDigit(s[0]) then 0
    else
      var n := 1 + DigitsPrefix(s[1..]);
      assert s[..n] == [s[0]] + s[1..][..n - 1];
      n
  }

  function Pow10(n: nat): (p: nat)
    ensures p >= 1
  {
    if n == 0 then 1 else 10 * Pow10(n - 1)
  }

  /** `+tok` for a captured version: an integer part, optionally a dot and a
      fraction (which may be empty, as in "8."); a second dot makes it NaN. */
  function ParseVersion(tok: string): (r: JsNum)
    requires forall i :: 0 <= i < |tok| ==> VersionChar(tok[i])
  {
    var n := DigitsPrefix(tok);
    if n == |tok| then Fin(DecimalValue(tok) as real)
    else
      var frac := tok[n + 1..];
      if AllDigits(frac) then Fin(DecimalValue(tok[..n]) as real + FracValue(frac))
      else NaN
  }

  /** The value of digits read after a decimal point. */
  function FracValue(f: string): real
    requires AllDigits(f)
  {
    DecimalValue(f) as real / Pow10(|f|) as real
  }

  /** A fraction read after the point lies in [0, 1). */
  lemma FracValueBelowOne(f: string)
    requires AllDigits(f)
    ensures 0.0 <= FracValue(f) < 1.0
  {
    PrefixBelowPow10(f, |f|);
    RatioBelowOne(DecimalValue(f) as real, Pow10(|f|) as real);
  }

  lemma RatioBelowOne(a: real, b: real)
    requires 0.0 <= a < b
    ensures 0.0 <= a / b < 1.0
  {
    assert a / b * b == a;
  }

  /** n digits are worth less than 10^n. */
  lemma {:induction false} PrefixBelowPow10(s: string, n: nat)
    requires n <= |s| && AllDigits(s)
    ensures PrefixValue(s, n) < Pow10(n)
  {
    if n > 0 {
      PrefixBelowPow10(s, n - 1);
    }
  }

  /** `getIEVersion()`: NaN unless the browser names itself Internet Explorer
      and its user agent matches the pattern, else the number the captured
      version reads as. */
  function GetIEVersion(appName: string, ua: string): (r: JsNum)
    ensures appName != IEAppName ==> r == NaN
    ensures (forall j :: !MatchesAt(ua, j)) ==> r == NaN
    ensures r.Fin? ==> r.r >= 0.0
  {
    if appName != IEAppName then NaN
    else
      match FirstMatch(ua, 0)
      case None => NaN
      case Some(j) => ParseVersion(VersionRun(ua[j + |Marker|..]))
  }

  /** A version with no dot reads as its decimal value, one with a single dot
      as integer part plus fraction, and one with two dots as NaN. */
  lemma ParseVersionValue(i: string, f: string, g: string)
    requires AllDigits(i) && AllDigits(f)
    requires forall k :: 0 <= k < |g| ==> VersionChar(g[k])
    ensures ParseVersion(i) == Fin(DecimalValue(i) as real)
    ensures ParseVersion(i + "." + f) == Fin(DecimalValue(i) as real + FracValue(f))
    ensures ParseVersion(i + "." + f + "." + g) == NaN
  {
    ParseWhole(i);
    ParseOneDot(i, f);
    ParseTwoDots(i, f, g);
  }

  lemma ParseWhole(i: string)
    requires AllDigits(i)
    ensures ParseVersion(i) == Fin(DecimalValue(i) as real)
  {
    assert DigitsPrefix(i) == |i|;
  }

  lemma ParseOneDot(i: string, f: string)
    requires AllDigits(i) && AllDigits(f)
    ensures ParseVersion(i + "." + f) == Fin(DecimalValue(i) as real + FracValue(f))
  {
    var t := i + "." + f;
    assert t[..|i|] == i && t[|i|] == '.' && t[|i| + 1..] == f;
    DigitsPrefixOf(i, t);
  }

  lemma ParseTwoDots(i: string, f: string, g: string)
    requires AllDigits(i) && AllDigits(f)
    requires forall k :: 0 <= k < |g| ==> VersionChar(g[k])
    ensures ParseVersion(i + "." + f + "." + g) == NaN
  {
    var u := i + "." + f + "." + g;
    assert u[..|i|] == i && u[|i|] == '.';
    DigitsPrefixOf(i, u);
    assert u[|i| + 1..] == f + "." + g;
    assert !IsDigit(u[|i| + 1 + |f|]);
  }

  lemma {:induction false} DigitsPrefixOf(i: string, s: string)
    requires AllDigits(i) && |i| < |s| && s[..|i|] == i && !IsDigit(s[|i|])
    ensures DigitsPrefix(s) == |i|
    decreases |i|
  {
    if |i| > 0 {
      DigitsPrefixOf(i[1..], s[1..]);
    }
  }

  /** No proper suffix of the marker is a prefix of it: an occurrence that
      overlaps the start of a later one would have an 'M' where the marker has
      none. */
  lemma MarkerNoEarlierOverlap(a: string, rest: string, j: int)
    requires |a| - |Marker| < j < |a|
    ensures !OccursAt(a + Marker + rest, Marker, j)
  {
    var s := a + Marker + rest;
    var d := |a| - j;
    assert s[|a|] == 'M';
    assert Marker[d] != 'M';
    if 0 <= j <= |s| - |Marker| {
      assert s[j..j + |Marker|][d] == s[|a|];
      assert s[j..j + |Marker|] != Marker;
    }
  }

  /** The pattern first matches at the marker that follows a prefix free of it. */
  lemma FirstMatchAfter(a: string, rest: string)
    requires !Contains(a, Marker)
    requires |rest| > |Marker| && rest[..|Marker|] == Marker && IsDigit(rest[|Marker|])
    ensures FirstMatch(a + rest, 0) == Some(|a|)
  {
    var ua := a + rest;
    assert rest == Marker + rest[|Marker|..];
    forall j | 0 <= j < |a| ensures !MatchesAt(ua, j) {
      if j <= |a| - |Marker| {
        assert !OccursAt(a, Marker, j);
        assert a[j..j + |Marker|] == ua[j..j + |Marker|];
      } else {
        MarkerNoEarlierOverlap(a, rest[|Marker|..], j);
      }
    }
    assert ua[|a|..|a| + |Marker|] == Marker;
    assert MatchesAt(ua, |a|);
  }

  /** The version of a user agent whose first "MSIE " is followed by a run of
      digits ending the token. */
  lemma GetIEVersionOf(a: string, v: string, b: string)
    requires !Contains(a, Marker)
    requires |v| > 0 && AllDigits(v)
    requires b == "" || !VersionChar(b[0])
    ensures GetIEVersion(IEAppName, a + Marker + v + b) == Fin(DecimalValue(v) as real)
  {
    var rest := Marker + v + b;
    var ua := a + Marker + v + b;
    MarkerSplit(a, v, b);
    FirstMatchAfter(a, rest);
    GetIEVersionAt(ua, |a|);
    VersionRunOf(v, b);
    ParseVersionValue(v, "", "");
  }

  /** A user agent built around the marker: where the marker and the version start. */
  lemma MarkerSplit(a: string, v: string, b: string)
    requires |v| > 0
    ensures var rest := Marker + v + b;
      && a + Marker + v + b == a + rest
      && |rest| > |Marker| && rest[..|Marker|] == Marker && rest[|Marker|] == v[0]
      && (a + Marker + v + b)[|a| + |Marker|..] == v + b
  {
    var rest := Marker + v + b;
    assert rest[..|Marker|] == Marker;
    assert a + Marker + v + b == a + rest;
    assert (a + rest)[|a| + |Marker|..] == rest[|Marker|..];
    assert rest[|Marker|..] == v + b;
  }

  /** Internet Explorer's version is read after the first match of the pattern. */
  lemma GetIEVersionAt(ua: string, j: nat)
    requires FirstMatch(ua, 0) == Some(j)
    ensures j + |Marker| <= |ua|
    ensures GetIEVersion(IEAppName, ua) == ParseVersion(VersionRun(ua[j + |Marker|..]))
  {
    assert MatchesAt(ua, j);
  }

  lemma {:induction false} VersionRunOf(v: string, b: string)
    requires forall i :: 0 <= i < |v| ==> VersionChar(v[i])
    requires b == "" || !VersionChar(b[0])
    ensures VersionRun(v + b) == v
    decreases |v|
  {
    if |v| > 0 {
      VersionRunOf(v[1..], b);
      assert (v + b)[1..] == v[1..] + b;
    } else {
      assert v + b == b;
    }
  }

  /** `isHTMLElem(target)`: a truthy object whose `nodeType` is the number 1
      (an element) or 3 (a text node). */
  predicate IsHTMLElem(target: JsVal)
  {
    && Truthy(target)
    && TypeOf(target) == "object"
    && TypeOf(Get(target, "nodeType")) == "number"
    && (StrictEquals(Get(target, "nodeType"), Num(Fin(1.0))) || StrictEquals(Get(target, "nodeType"), Num(Fin(3.0))))
  }

  /** Only an object with a `nodeType` field of 1 or 3 passes. */
  lemma IsHTMLElemExactly(target: JsVal)
    ensures IsHTMLElem(target) <==>
              target.Obj? && "nodeType" in target.fields
              && target.fields["nodeType"] in {Num(Fin(1.0)), Num(Fin(3.0))}
  {
  }

  /** The guard of the long `normalizeEvt`: a truthy event with a truthy
      `stopPropagation` is returned as it is. */
  predicate AlreadyNormal(event: JsVal)
  {
    Truthy(event) && Truthy(Get(event, "stopPropagation"))
  }

  /** `ToInt32` truncation toward zero of a finite number. */
  function Trunc(r: real): (n: int)
    ensures r >= 0.0 ==> n as real <= r < n as real + 1.0
    ensures r < 0.0 ==> n as real - 1.0 < r <= n as real
  {
    if r >= 0.0 then r.Floor else -((-r).Floor)
  }

  predicate IsWhole(r: real)
  {
    r == r.Floor as real
  }

  /** `this[pos]` for a numeric position: only whole positions inside the
      array name an element; any other position reads as undefined. */
  function At(arr: seq<JsVal>, pos: real): JsVal
  {
    if 0.0 <= pos && IsWhole(pos) && pos.Floor < |arr| then arr[pos.Floor] else Undefined
  }

  /** The start position of the `indexOf` polyfill: `+fromIndex || 0`, so NaN and
      zero read as 0; then either infinity becomes 0; a negative start has the
      length added and is clamped at 0. */
  function PolyfillStart(fromIndex: JsNum, length: nat): (k: real)
    ensures k >= 0.0
    ensures fromIndex.Fin? && fromIndex.r >= 0.0 ==> k == fromIndex.r
    ensures fromIndex.Fin? && fromIndex.r < 0.0 && fromIndex.r + length as real >= 0.0 ==> k == fromIndex.r + length as real
    ensures !fromIndex.Fin? ==> k == 0.0
  {
    match fromIndex
    case NaN => 0.0
    case Inf(_) => 0.0
    case Fin(r) =>
      if r >= 0.0 then r
      else if r + length as real < 0.0 then 0.0
      else r + length as real
  }

  /** The whole part of a non-negative position. */
  function WholePart(r: real): (w: nat)
    requires r >= 0.0
    ensures w as real <= r < w as real + 1.0
  {
    r.Floor
  }

  /** The element the polyfill reads `n` steps after a start with whole part `w`
      and fractional part `f`: positions with a fraction hold nothing. */
  function StepElem(arr: seq<JsVal>, w: nat, f: real, n: nat): JsVal
  {
    if f == 0.0 && w + n < |arr| then arr[w + n] else Undefined
  }

  /** Reading `this[w + n + f]` is reading `StepElem`. */
  lemma AtStep(arr: seq<JsVal>, w: nat, f: real, n: nat)
    requires 0.0 <= f < 1.0
    ensures At(arr, w as real + n as real + f) == StepElem(arr, w, f, n)
  {
    var pos := w as real + n as real + f;
    assert pos.Floor == w + n;
  }

  /** The number of steps, `n` or more, from a start with whole part `w` and
      fraction `f` to the first position inside the array whose value is `=== x`. */
  function FirstMatchFrom(arr: seq<JsVal>, x: JsVal, w: nat, f: real, n: nat): (m: Option<nat>)
    ensures m.Some? ==> n <= m.value && w + m.value < |arr| && StrictEquals(StepElem(arr, w, f, m.value), x)
    ensures forall i: nat :: n <= i && w + i < |arr| && (m.None? || i < m.value) ==>
              !StrictEquals(StepElem(arr, w, f, i), x)
    decreases |arr| - n
  {
    if w + n >= |arr| then None
    else if StrictEquals(StepElem(arr, w, f, n), x) then Some(n)
    else FirstMatchFrom(arr, x, w, f, n + 1)
  }

  /** What the `Array.prototype.indexOf` polyfill returns: the first position
      from the start, stepping by one, whose value is `=== x`, else -1. */
  function PolyfillIndexOf(arr: seq<JsVal>, x: JsVal, fromIndex: JsNum): (k: real)
    ensures k != -1.0 ==> PolyfillStart(fromIndex, |arr|) <= k < |arr| as real && StrictEquals(At(arr, k), x)
  {
    var start := PolyfillStart(fromIndex, |arr|);
    var w := WholePart(start);
    match FirstMatchFrom(arr, x, w, start - w as real, 0)
    case None => -1.0
    case Some(m) =>
      AtStep(arr, w, start - w as real, m);
      start + m as real
  }

  /** The polyfill's loop, shared verbatim by js_libs/, utilities/ and
      browserCompat/: count the position up from the start while it is inside
      the array. */
  method IndexOfPolyfill(arr: seq<JsVal>, x: JsVal, fromIndex: JsNum) returns (k: real)
    ensures k == PolyfillIndexOf(arr, x, fromIndex)
  {
    var start := PolyfillStart(fromIndex, |arr|);
    var w := WholePart(start);
    var f := start - w as real;
    var pos := start;
    var n: nat := 0;
    while pos < |arr| as real
      invariant pos == w as real + n as real + f
      invariant FirstMatchFrom(arr, x, w, f, n) == FirstMatchFrom(arr, x, w, f, 0)
      decreases |arr| - n
    {
      AtStep(arr, w, f, n);
      if StrictEquals(At(arr, pos), x) {
        assert FirstMatchFrom(arr, x, w, f, n) == Some(n);
        return pos;
      }
      pos := pos + 1.0;
      n := n + 1;
    }
    assert w + n >= |arr|;
    return -1.0;
  }

  /** The least index at or after `k` whose element is `=== x`, else -1. */
  function FirstIndexFrom(arr: seq<JsVal>, x: JsVal, k: nat): (i: int)
    ensures i == -1 || (k <= i < |arr| && StrictEquals(arr[i], x))
    ensures forall j :: k <= j < |arr| && (i == -1 || j < i) ==> !StrictEquals(arr[j], x)
    decreases |arr| - k
  {
    if k >= |arr| then -1
    else if StrictEquals(arr[k], x) then k
    else FirstIndexFrom(arr, x, k + 1)
  }

  /** `Array.prototype.indexOf` as section 15.4.4.14 of ECMAScript 5.1 defines it:
      the start is `ToInteger(fromIndex)`, truncated toward zero; a start at or
      past the length finds nothing, +Infinity included; a negative start
      counts from the end and is clamped at 0. */
  function StandardIndexOf(arr: seq<JsVal>, x: JsVal, fromIndex: JsNum): (i: int)
    ensures i == -1 || (0 <= i < |arr| && StrictEquals(arr[i], x))
    ensures fromIndex == Inf(true) ==> i == -1
    ensures fromIndex.Fin? && 0 <= Trunc(fromIndex.r) && i != -1 ==> Trunc(fromIndex.r) <= i
    ensures fromIndex.Fin? && 0 <= Trunc(fromIndex.r) ==>
              forall j :: Trunc(fromIndex.r) <= j < |arr| && (i == -1 || j < i) ==> !StrictEquals(arr[j], x)
  {
    var len := |arr|;
    var n: int :=
      match fromIndex
      case NaN => 0
      case Inf(positive) => if positive then len else -len
      case Fin(r) => Trunc(r);
    if len == 0 || n >= len then -1
    else if n >= 0 then FirstIndexFrom(arr, x, n)
    else FirstIndexFrom(arr, x, if len + n < 0 then 0 else len + n)
  }

  /** From a whole start the polyfill's steps are the indices, one by one. */
  lemma {:induction false} SearchFromWholeStart(arr: seq<JsVal>, x: JsVal, w: nat, n: nat)
    ensures var m := FirstMatchFrom(arr, x, w, 0.0, n);
            FirstIndexFrom(arr, x, w + n) == (if m.None? then -1 else w + m.value)
    decreases |arr| - n
  {
    if w + n < |arr| && !StrictEquals(arr[w + n], x) {
      SearchFromWholeStart(arr, x, w, n + 1);
    }
  }

  /** On a whole, finite start the polyfill and section 15.4.4.14 of
      ECMAScript 5.1 agree, and so they do on NaN and -Infinity. */
  lemma PolyfillAgreesOnWholeStarts(arr: seq<JsVal>, x: JsVal, fromIndex: JsNum)
    requires fromIndex.Fin? ==> IsWhole(fromIndex.r)
    requires fromIndex != Inf(true)
    ensures PolyfillIndexOf(arr, x, fromIndex) == StandardIndexOf(arr, x, fromIndex) as real
  {
    var w := WholePart(PolyfillStart(fromIndex, |arr|));
    StandardFromWholeStart(arr, x, fromIndex);
    PolyfillFromWholeStart(arr, x, fromIndex, w);
    SearchFromWholeStart(arr, x, w, 0);
  }

  /** From a whole start the polyfill answers the position of its first match. */
  lemma PolyfillFromWholeStart(arr: seq<JsVal>, x: JsVal, fromIndex: JsNum, w: nat)
    requires PolyfillStart(fromIndex, |arr|) == w as real
    ensures var m := FirstMatchFrom(arr, x, w, 0.0, 0);
      PolyfillIndexOf(arr, x, fromIndex) == if m.None? then -1.0 else (w + m.value) as real
  {
    assert WholePart(w as real) == w;
  }

  /** On a whole start other than +Infinity, the polyfill's start is whole and
      the standard searches from it. */
  lemma StandardFromWholeStart(arr: seq<JsVal>, x: JsVal, fromIndex: JsNum)
    requires fromIndex.Fin? ==> IsWhole(fromIndex.r)
    requires fromIndex != Inf(true)
    ensures var start := PolyfillStart(fromIndex, |arr|);
      && start == WholePart(start) as real
      && StandardIndexOf(arr, x, fromIndex) == FirstIndexFrom(arr, x, WholePart(start))
  {
    var start := PolyfillStart(fromIndex, |arr|);
    var w := WholePart(start);
    if fromIndex.Fin? {
      var r := fromIndex.r;
      var z := r.Floor;
      assert r == z as real;
      assert Trunc(r) == z;
      if r < 0.0 && r + |arr| as real >= 0.0 {
        assert start == (z + |arr|) as real;
        assert w == z + |arr|;
      }
    }
  }

  /** As written, a start of +Infinity searches the whole array, where section
      15.4.4.14 of ECMAScript 5.1 finds nothing. */
  lemma PolyfillInfiniteStart(x: JsVal)
    requires x != Num(NaN)
    ensures PolyfillIndexOf([x], x, Inf(true)) == 0.0
    ensures StandardIndexOf([x], x, Inf(true)) == -1
  {
    assert StepElem([x], 0, 0.0, 0) == x;
    assert StrictEquals(x, x) by {
      match x
      case Num(n) => assert !n.NaN?;
      case _ =>
    }
  }

  /** As written, a fractional start steps through fractional positions, none of
      which holds an element: a defined value is never found, and undefined is
      "found" at a position that is not an index. The standard truncates the
      start to an index. */
  lemma PolyfillFractionalStart(x: JsVal)
    requires x != Undefined && x != Num(NaN)
    ensures PolyfillIndexOf([x, x], x, Fin(0.5)) == -1.0
    ensures StandardIndexOf([x, x], x, Fin(0.5)) == 0
    ensures PolyfillIndexOf([Undefined], Undefined, Fin(0.5)) == 0.5
  {
    assert (0.5).Floor == 0;
    assert StrictEquals(x, x) by {
      match x
      case Num(n) => assert !n.NaN?;
      case _ =>
    }
    assert FirstMatchFrom([x, x], x, 0, 0.5, 2) == None;
    assert FirstMatchFrom([x, x], x, 0, 0.5, 1) == None;
  }

  /** Property read on an own-field map. */
  function Field(f: map<string, JsVal>, name: string): JsVal
  {
    if name in f then f[name] else Undefined
  }

  /** Ids of the two functions the short `normalizeEvt` may install. */
  datatype ShimIds = ShimIds(stop: nat, prevent: nat)

  /** The short `normalizeEvt(e)` of utilities/ and browserCompat/, with the
      name it installs the bubbling shim under as a parameter: `e || window.event`
      (reading a field of undefined or null throws), `target || srcElement`, then
      the two shims only where the field is falsy. The object is updated in
      place, so it keeps its identity. Primitive events ignore the writes. */
  function ShortNormalize(e: JsVal, windowEvent: JsVal, stopName: string, ids: ShimIds): (r: Result<JsVal, Thrown>)
    requires stopName != "target" && stopName != "preventDefault"
    ensures r.Err? <==> !Truthy(e) && (windowEvent == Undefined || windowEvent == Null)
    ensures r.Ok? && Or(e, windowEvent).Obj? ==>
              && r.value.Obj? && r.value.oid == Or(e, windowEvent).oid
              && Get(r.value, "target") == Or(Get(Or(e, windowEvent), "target"), Get(Or(e, windowEvent), "srcElement"))
              && Truthy(Get(r.value, stopName)) && Truthy(Get(r.value, "preventDefault"))
    ensures r.Ok? && !Or(e, windowEvent).Obj? ==> r.value == Or(e, windowEvent)
  {
    var ev := Or(e, windowEvent);
    if ev == Undefined || ev == Null then Err(TypeError)
    else if !ev.Obj? then Ok(ev)
    else
      var f1 := ev.fields["target" := Or(Field(ev.fields, "target"), Field(ev.fields, "srcElement"))];
      var f2 := if Truthy(Field(f1, stopName)) then f1 else f1[stopName := Fn(ids.stop)];
      var f3 := if Truthy(Field(f2, "preventDefault")) then f2 else f2["preventDefault" := Fn(ids.prevent)];
      Ok(Obj(ev.oid, f3))
  }

  /** The name utilities/browserCompat.js:138-139 and
      browserCompat/browserCompat.js:53-54 install the bubbling shim under. */
  const MisspelledStop := "stopPropoagation"

  function NormalizeEvtAsWritten(e: JsVal, windowEvent: JsVal, ids: ShimIds): Result<JsVal, Thrown>
  {
    ShortNormalize(e, windowEvent, MisspelledStop, ids)
  }

  /** The short `normalizeEvt` with the shim installed as `stopPropagation`. */
  function NormalizeEvtCorrected(e: JsVal, windowEvent: JsVal, ids: ShimIds): Result<JsVal, Thrown>
  {
    ShortNormalize(e, windowEvent, "stopPropagation", ids)
  }

  /** Shims are added only where missing: an event field that is already truthy,
      and every field other than the target and the two shims, is kept. */
  lemma ShortNormalizeKeeps(e: JsVal, windowEvent: JsVal, stopName: string, ids: ShimIds, name: string)
    requires stopName != "target" && stopName != "preventDefault"
    requires Or(e, windowEvent).Obj? && name != "target"
    requires (name == stopName || name == "preventDefault") ==> Truthy(Get(Or(e, windowEvent), name))
    ensures ShortNormalize(e, windowEvent, stopName, ids).Ok?
    ensures Get(ShortNormalize(e, windowEvent, stopName, ids).value, name) == Get(Or(e, windowEvent), name)
  {
  }

  /** As written, the short `normalizeEvt` never touches `stopPropagation`: an
      old Internet Explorer event, which lacks it, still lacks it afterwards. */
  lemma AsWrittenLacksStopPropagation(e: JsVal, ids: ShimIds)
    requires e.Obj? && "stopPropagation" !in e.fields
    ensures NormalizeEvtAsWritten(e, Undefined, ids).Ok?
    ensures Get(NormalizeEvtAsWritten(e, Undefined, ids).value, "stopPropagation") == Undefined
  {
  }

  /** Corrected, every object event ends up with a callable `stopPropagation`
      and `preventDefault`, and one that had them keeps them. */
  lemma CorrectedHasStopPropagation(e: JsVal, windowEvent: JsVal, ids: ShimIds)
    requires Or(e, windowEvent).Obj?
    ensures NormalizeEvtCorrected(e, windowEvent, ids).Ok?
    ensures var r := NormalizeEvtCorrected(e, windowEvent, ids).value;
      && Truthy(Get(r, "stopPropagation"))
      && (Truthy(Get(Or(e, windowEvent), "stopPropagation")) ==> Get(r, "stopPropagation") == Get(Or(e, windowEvent), "stopPropagation"))
  {
  }

  /** The low three bits of `ToInt32(n)`: all `&` with 1, 2 and 4 looks at. */
  function LowBits(n: JsNum): (b: int)
    ensures 0 <= b < 8
  {
    if n.Fin? then Trunc(n.r) % 8 else 0
  }

  /** The button fix: bit 1 (left) gives 0, else bit 4 (middle) gives 1, else
      bit 2 (right) gives 2, else 0. */
  function RemapButton(bits: int): (w: int)
    requires 0 <= bits < 8
    ensures w in {0, 1, 2}
    ensures w == 1 ==> bits == 4 || bits == 6
    ensures w == 2 ==> bits == 2
  {
    if bits % 2 == 1 then 0
    else if (bits / 4) % 2 == 1 then 1
    else if (bits / 2) % 2 == 1 then 2
    else 0
  }

  /** Internet Explorer's left, right and middle buttons (1, 2, 4) become the
      W3C numbering 0, 2, 1; a chord that includes the left button reads as left. */
  lemma IEButtonsToW3C(bits: int)
    requires 0 <= bits < 8
    ensures RemapButton(1) == 0 && RemapButton(2) == 2 && RemapButton(4) == 1
    ensures bits % 2 == 1 ==> RemapButton(bits) == 0
  {
  }

  /** The document metrics `normalizeEvt` adds to client coordinates: each is
      `doc && doc.x || body && body.x || 0`, taken as a number. */
  datatype Page = Page(scrollLeft: real, clientLeft: real, scrollTop: real, clientTop: real)

  /** Ids of the object and functions the long `normalizeEvt` creates. */
  datatype Created = Created(event: nat, returnFalse: nat, preventDefault: nat, stopPropagation: nat, stopImmediate: nat)

  /** `v + scroll - client` for a coordinate: a number shifts (NaN and the
      infinities stay), undefined gives NaN, null and booleans count as 0 and 1.
      Strings and objects, which `+` would concatenate or convert, are not modelled. */
  function Offset(v: JsVal, d: real): Option<JsVal>
  {
    match v
    case Num(n) => Some(Num(if n.Fin? then Fin(n.r + d) else n))
    case Undefined => Some(Num(NaN))
    case Null => Some(Num(Fin(d)))
    case Bool(b) => Some(Num(Fin((if b then 1.0 else 0.0) + d)))
    case _ => None
  }

  function SetIfSome(f: map<string, JsVal>, name: string, v: Option<JsVal>): map<string, JsVal>
  {
    if v.Some? then f[name := v.value] else f
  }

  /** The elements of a list under their index names "0", "1", and so on. */
  function IndexFields(elems: seq<JsVal>): (r: map<string, JsVal>)
    ensures forall i: nat :: i < |elems| ==> NatToString(i) in r && r[NatToString(i)] == elems[i]
    ensures forall k :: k in r ==> |k| > 0 && IsDigit(k[0])
    decreases |elems|
  {
    if elems == [] then map[]
    else
      var last := |elems| - 1;
      IndexNames();
      IndexFields(elems[..last])[NatToString(last) := elems[last]]
  }

  /** The properties `for (var prop in old)` visits, with their values: an
      object's fields, and the characters of a string or the elements of an
      array under their index names. Other values have none. */
  function ForInFields(v: JsVal): (r: map<string, JsVal>)
    ensures v.Obj? ==> r == v.fields
    ensures v.Str? ==> forall i: nat :: i < |v.s| ==> Field(r, NatToString(i)) == Str([v.s[i]])
    ensures v.Arr? ==> forall i: nat :: i < |v.elems| ==> Field(r, NatToString(i)) == v.elems[i]
    ensures !v.Obj? ==> forall k :: k in r ==> |k| > 0 && IsDigit(k[0])
    ensures !v.Obj? && !v.Str? && !v.Arr? ==> r == map[]
  {
    match v
    case Obj(_, fields) => fields
    case Str(s) => IndexFields(seq(|s|, i requires 0 <= i < |s| => Str([s[i]])))
    case Arr(_, elems) => IndexFields(elems)
    case _ => map[]
  }

  /** A property whose name does not start with a digit reads the same from the
      visited properties as from the value itself. */
  lemma ForInNamed(v: JsVal, name: string)
    requires |name| > 0 && !IsDigit(name[0])
    ensures Field(ForInFields(v), name) == Get(v, name)
  {
  }

  /** The fields the long `normalizeEvt` writes on the copy. */
  const Written: set<string> := {"target", "relatedTarget", "preventDefault", "isDefaultPrevented",
    "stopPropagation", "isPropagationStopped", "stopImmediatePropagation",
    "isImmediatePropagationStopped", "pageX", "pageY", "which", "button"}

  /** The copy the long `normalizeEvt` builds, before mouse position, key and
      button are fixed: target, related target and the six propagation and
      default functions. */
  function NormalizedFields(src: map<string, JsVal>, document: JsVal, ids: Created): (r: map<string, JsVal>)
    ensures Field(r, "target") == (if Truthy(Field(src, "target")) then Field(src, "target") else Or(Field(src, "srcElement"), document))
    ensures Field(r, "stopPropagation") == Fn(ids.stopPropagation) && Field(r, "preventDefault") == Fn(ids.preventDefault)
    ensures forall k :: k !in Written ==> Field(r, k) == Field(src, k)
  {
    var target := if Truthy(Field(src, "target")) then src["target"] else Or(Field(src, "srcElement"), document);
    var from := Field(src, "fromElement");
    var related := if StrictEquals(from, target) then Field(src, "toElement") else from;
    src["target" := target]["relatedTarget" := related]
       ["preventDefault" := Fn(ids.preventDefault)]["isDefaultPrevented" := Fn(ids.returnFalse)]
       ["stopPropagation" := Fn(ids.stopPropagation)]["isPropagationStopped" := Fn(ids.returnFalse)]
       ["stopImmediatePropagation" := Fn(ids.stopImmediate)]["isImmediatePropagationStopped" := Fn(ids.returnFalse)]
  }

  /** Page coordinates, computed only when `clientX` is not null; `pageY` is
      computed from `clientY` under the same test. */
  function PageCoords(f: map<string, JsVal>, page: Page): (r: map<string, JsVal>)
    ensures forall k :: k != "pageX" && k != "pageY" ==> Field(r, k) == Field(f, k)
    ensures Field(f, "clientX") == Undefined || Field(f, "clientX") == Null ==> r == f
    ensures Field(f, "clientX").Num? && Field(f, "clientX").n.Fin? ==>
              Field(r, "pageX") == Num(Fin(Field(f, "clientX").n.r + page.scrollLeft - page.clientLeft))
    ensures Field(f, "clientX") != Undefined && Field(f, "clientX") != Null &&
            Field(f, "clientY").Num? && Field(f, "clientY").n.Fin? ==>
              Field(r, "pageY") == Num(Fin(Field(f, "clientY").n.r + page.scrollTop - page.clientTop))
  {
    var cx := Field(f, "clientX");
    if cx != Undefined && cx != Null then
      SetIfSome(SetIfSome(f, "pageX", Offset(cx, page.scrollLeft - page.clientLeft)),
                "pageY", Offset(Field(f, "clientY"), page.scrollTop - page.clientTop))
    else f
  }

  /** The button fix, applied when `button` is not null. */
  function FixButton(f: map<string, JsVal>, toNumber: JsVal -> JsNum): (r: map<string, JsVal>)
    ensures forall k :: k != "button" ==> Field(r, k) == Field(f, k)
    ensures Field(f, "button") == Undefined || Field(f, "button") == Null ==> r == f
    ensures Field(f, "button") != Undefined && Field(f, "button") != Null ==>
              Field(r, "button") in {Num(Fin(0.0)), Num(Fin(1.0)), Num(Fin(2.0))}
  {
    var b := Field(f, "button");
    if b != Undefined && b != Null then
      f["button" := Num(Fin(RemapButton(LowBits(if b.Num? then b.n else toNumber(b))) as real))]
    else f
  }

  /** `normalizeEvt(event)` of js_libs/browserCompat.js. An event that already has
      `stopPropagation` is returned as it is. Otherwise the fields of
      `event || window.event` are copied into a new object, which gets a target
      (`srcElement` or the document when missing), a related target, the six
      propagation and default functions, page coordinates when `clientX` is not
      null, `which` from `charCode || keyCode`, and a remapped button when
      `button` is not null. `toNumber` is the `ToNumber` the `&` operator applies
      to a button that is not a number. */
  function NormalizeEvent(event: JsVal, windowEvent: JsVal, document: JsVal, page: Page,
                          ids: Created, toNumber: JsVal -> JsNum): (r: JsVal)
    ensures AlreadyNormal(event) ==> r == event
    ensures !AlreadyNormal(event) ==>
              r.Obj? && r.oid == ids.event && Get(r, "stopPropagation") == Fn(ids.stopPropagation)
  {
    if AlreadyNormal(event) then event
    else
      var src := Or(event, windowEvent);
      Obj(ids.event, EventFields(ForInFields(src), document, page, ids, toNumber))
  }

  /** The fields of the normalised copy, built from the fields of the source event. */
  function EventFields(src: map<string, JsVal>, document: JsVal, page: Page,
                       ids: Created, toNumber: JsVal -> JsNum): (r: map<string, JsVal>)
    ensures Field(r, "stopPropagation") == Fn(ids.stopPropagation)
  {
    var f1 := NormalizedFields(src, document, ids);
    var f2 := PageCoords(f1, page);
    var f3 := f2["which" := Or(Field(f2, "charCode"), Field(f2, "keyCode"))];
    FixButton(f3, toNumber)
  }

  lemma EventFieldsCopies(src: map<string, JsVal>, document: JsVal, page: Page,
                          ids: Created, toNumber: JsVal -> JsNum, name: string)
    requires name !in Written
    ensures Field(EventFields(src, document, page, ids, toNumber), name) == Field(src, name)
  {
    var f1 := NormalizedFields(src, document, ids);
    var f2 := PageCoords(f1, page);
    var f3 := f2["which" := Or(Field(f2, "charCode"), Field(f2, "keyCode"))];
    assert name != "which" && name != "button" && name != "pageX" && name != "pageY";
    assert Field(FixButton(f3, toNumber), name) == Field(f3, name) == Field(f2, name) == Field(f1, name);
  }

  lemma ClientNotWritten()
    ensures "clientX" !in Written && "clientY" !in Written
  {
  }

  lemma KeyCodesNotWritten()
    ensures "charCode" !in Written && "keyCode" !in Written
  {
  }

  lemma EventFieldsWhich(src: map<string, JsVal>, document: JsVal, page: Page,
                         ids: Created, toNumber: JsVal -> JsNum)
    ensures Field(EventFields(src, document, page, ids, toNumber), "which")
              == Or(Field(src, "charCode"), Field(src, "keyCode"))
  {
    var f2 := PageCoords(NormalizedFields(src, document, ids), page);
    var f3 := f2["which" := Or(Field(f2, "charCode"), Field(f2, "keyCode"))];
    KeyCodesNotWritten();
    UnwrittenBeforeWhich(src, document, page, ids, "charCode");
    UnwrittenBeforeWhich(src, document, page, ids, "keyCode");
    assert Field(FixButton(f3, toNumber), "which") == Field(f3, "which");
  }

  /** A field the copy does not write reaches the `which` step unchanged. */
  lemma UnwrittenBeforeWhich(src: map<string, JsVal>, document: JsVal, page: Page, ids: Created, name: string)
    requires name !in Written
    ensures Field(PageCoords(NormalizedFields(src, document, ids), page), name) == Field(src, name)
  {
    assert name != "pageX" && name != "pageY";
  }

  lemma EventFieldsTarget(src: map<string, JsVal>, document: JsVal, page: Page,
                          ids: Created, toNumber: JsVal -> JsNum)
    ensures Field(EventFields(src, document, page, ids, toNumber), "target")
              == (if Truthy(Field(src, "target")) then Field(src, "target") else Or(Field(src, "srcElement"), document))
    ensures Field(EventFields(src, document, page, ids, toNumber), "preventDefault") == Fn(ids.preventDefault)
  {
    var f1 := NormalizedFields(src, document, ids);
    var f2 := PageCoords(f1, page);
    var f3 := f2["which" := Or(Field(f2, "charCode"), Field(f2, "keyCode"))];
    assert Field(FixButton(f3, toNumber), "target") == Field(f3, "target") == Field(f2, "target") == Field(f1, "target");
    assert Field(FixButton(f3, toNumber), "preventDefault") == Field(f3, "preventDefault") == Field(f2, "preventDefault") == Field(f1, "preventDefault");
  }

  lemma EventFieldsButton(src: map<string, JsVal>, document: JsVal, page: Page,
                          ids: Created, toNumber: JsVal -> JsNum)
    ensures var b := Field(src, "button");
      var r := EventFields(src, document, page, ids, toNumber);
      && (b == Undefined || b == Null ==> Field(r, "button") == b)
      && (b != Undefined && b != Null ==> Field(r, "button") in {Num(Fin(0.0)), Num(Fin(1.0)), Num(Fin(2.0))})
  {
    var f2 := PageCoords(NormalizedFields(src, document, ids), page);
    var f3 := f2["which" := Or(Field(f2, "charCode"), Field(f2, "keyCode"))];
    ButtonBeforeFix(src, document, page, ids);
    assert Field(f3, "button") == Field(f2, "button");
  }

  /** The page coordinates of `out` are those `normalizeEvt` gives an event with
      the fields `src`: shifted by the scroll offset less the client offset when
      `clientX` is not null, the source's own when it is. */
  predicate PageShifted(src: map<string, JsVal>, out: map<string, JsVal>, page: Page)
  {
    var cx := Field(src, "clientX");
    var cy := Field(src, "clientY");
    && (cx == Undefined || cx == Null ==>
          Field(out, "pageX") == Field(src, "pageX") && Field(out, "pageY") == Field(src, "pageY"))
    && (cx.Num? && cx.n.Fin? ==> Field(out, "pageX") == Num(Fin(cx.n.r + page.scrollLeft - page.clientLeft)))
    && (cx != Undefined && cx != Null && cy.Num? && cy.n.Fin? ==>
          Field(out, "pageY") == Num(Fin(cy.n.r + page.scrollTop - page.clientTop)))
  }

  /** Page coordinates computed on a map that agrees with `src` on the client
      and page fields. */
  lemma PageCoordsShift(f: map<string, JsVal>, src: map<string, JsVal>, page: Page)
    requires Field(f, "clientX") == Field(src, "clientX") && Field(f, "clientY") == Field(src, "clientY")
    requires Field(f, "pageX") == Field(src, "pageX") && Field(f, "pageY") == Field(src, "pageY")
    ensures PageShifted(src, PageCoords(f, page), page)
  {
  }

  /** Page coordinates of the normalised copy. */
  lemma EventFieldsPage(src: map<string, JsVal>, document: JsVal, page: Page,
                        ids: Created, toNumber: JsVal -> JsNum)
    ensures PageShifted(src, EventFields(src, document, page, ids, toNumber), page)
  {
    var f1 := NormalizedFields(src, document, ids);
    ClientNotWritten();
    NormalizedKeepsPage(src, document, ids);
    PageCoordsShift(f1, src, page);
    WhichAndButtonKeepPage(PageCoords(f1, page), toNumber);
  }

  /** The copy's target and shims leave the source's page coordinates alone. */
  lemma NormalizedKeepsPage(src: map<string, JsVal>, document: JsVal, ids: Created)
    ensures var f1 := NormalizedFields(src, document, ids);
      Field(f1, "pageX") == Field(src, "pageX") && Field(f1, "pageY") == Field(src, "pageY")
  {
  }

  /** The `which` and button steps leave the page coordinates alone. */
  lemma WhichAndButtonKeepPage(f2: map<string, JsVal>, toNumber: JsVal -> JsNum)
    ensures var out := FixButton(f2["which" := Or(Field(f2, "charCode"), Field(f2, "keyCode"))], toNumber);
      Field(out, "pageX") == Field(f2, "pageX") && Field(out, "pageY") == Field(f2, "pageY")
  {
    var f3 := f2["which" := Or(Field(f2, "charCode"), Field(f2, "keyCode"))];
    assert Field(FixButton(f3, toNumber), "pageX") == Field(f3, "pageX");
    assert Field(FixButton(f3, toNumber), "pageY") == Field(f3, "pageY");
  }

  /** The related target is `toElement` when `fromElement` is the new target,
      else `fromElement`. */
  function RelatedTarget(src: map<string, JsVal>, target: JsVal): JsVal
  {
    var from := Field(src, "fromElement");
    if StrictEquals(from, target) then Field(src, "toElement") else from
  }

  /** The copy's related target, as the target and shims step leaves it. */
  lemma NormalizedRelated(src: map<string, JsVal>, document: JsVal, ids: Created)
    ensures var f1 := NormalizedFields(src, document, ids);
      Field(f1, "relatedTarget") == RelatedTarget(src, Field(f1, "target"))
  {
  }

  /** The page, `which` and button steps leave every other field alone. */
  lemma LaterStepsKeep(f1: map<string, JsVal>, page: Page, toNumber: JsVal -> JsNum, k: string)
    requires k != "pageX" && k != "pageY" && k != "which" && k != "button"
    ensures var f2 := PageCoords(f1, page);
      Field(FixButton(f2["which" := Or(Field(f2, "charCode"), Field(f2, "keyCode"))], toNumber), k) == Field(f1, k)
  {
    var f2 := PageCoords(f1, page);
    var f3 := f2["which" := Or(Field(f2, "charCode"), Field(f2, "keyCode"))];
    assert Field(FixButton(f3, toNumber), k) == Field(f3, k) == Field(f2, k);
  }

  lemma EventFieldsRelated(src: map<string, JsVal>, document: JsVal, page: Page,
                           ids: Created, toNumber: JsVal -> JsNum)
    ensures var r := EventFields(src, document, page, ids, toNumber);
      Field(r, "relatedTarget") == RelatedTarget(src, Field(r, "target"))
  {
    var f1 := NormalizedFields(src, document, ids);
    NormalizedRelated(src, document, ids);
    LaterStepsKeep(f1, page, toNumber, "relatedTarget");
    LaterStepsKeep(f1, page, toNumber, "target");
  }

  /** The copy keeps the source's `button` until the button fix. */
  lemma ButtonBeforeFix(src: map<string, JsVal>, document: JsVal, page: Page, ids: Created)
    ensures Field(PageCoords(NormalizedFields(src, document, ids), page), "button") == Field(src, "button")
  {
    var f1 := NormalizedFields(src, document, ids);
    assert Field(f1, "button") == Field(src, "button");
  }

  /** Every property the `for … in` copy visits and the normaliser does not
      write keeps its value: for an object source, each of its fields. */
  lemma NormalizeEventCopies(event: JsVal, windowEvent: JsVal, document: JsVal, page: Page,
                             ids: Created, toNumber: JsVal -> JsNum, name: string)
    requires !AlreadyNormal(event)
    requires name !in Written
    ensures Get(NormalizeEvent(event, windowEvent, document, page, ids, toNumber), name)
              == Field(ForInFields(Or(event, windowEvent)), name)
    ensures Or(event, windowEvent).Obj? ==>
              Get(NormalizeEvent(event, windowEvent, document, page, ids, toNumber), name) == Get(Or(event, windowEvent), name)
  {
    EventFieldsCopies(ForInFields(Or(event, windowEvent)), document, page, ids, toNumber, name);
  }

  /** No index name is a field the normaliser writes. */
  lemma IndexNotWritten(k: string)
    requires |k| > 0 && IsDigit(k[0])
    ensures k !in Written
  {
  }

  /** A string or array source has its characters or elements copied under
      their index names. */
  lemma NormalizeEventIndexCopies(event: JsVal, windowEvent: JsVal, document: JsVal, page: Page,
                                  ids: Created, toNumber: JsVal -> JsNum, i: nat)
    requires !AlreadyNormal(event)
    ensures var src := Or(event, windowEvent);
      var r := NormalizeEvent(event, windowEvent, document, page, ids, toNumber);
      && (src.Str? && i < |src.s| ==> Get(r, NatToString(i)) == Str([src.s[i]]))
      && (src.Arr? && i < |src.elems| ==> Get(r, NatToString(i)) == src.elems[i])
  {
    IndexNames();
    IndexNotWritten(NatToString(i));
    NormalizeEventCopies(event, windowEvent, document, page, ids, toNumber, NatToString(i));
  }

  /** The target is kept when truthy, else `srcElement`, else the document;
      `preventDefault` is the created shim. */
  lemma NormalizeEventTarget(event: JsVal, windowEvent: JsVal, document: JsVal, page: Page,
                             ids: Created, toNumber: JsVal -> JsNum)
    requires !AlreadyNormal(event)
    ensures var src := Or(event, windowEvent);
      var r := NormalizeEvent(event, windowEvent, document, page, ids, toNumber);
      && Get(r, "target") == (if Truthy(Get(src, "target")) then Get(src, "target") else Or(Get(src, "srcElement"), document))
      && Get(r, "preventDefault") == Fn(ids.preventDefault)
  {
    var src := Or(event, windowEvent);
    ForInNamed(src, "target");
    ForInNamed(src, "srcElement");
    EventFieldsTarget(ForInFields(src), document, page, ids, toNumber);
  }

  /** `which` is `charCode || keyCode` of the source event. */
  lemma NormalizeEventWhich(event: JsVal, windowEvent: JsVal, document: JsVal, page: Page,
                             ids: Created, toNumber: JsVal -> JsNum)
    requires !AlreadyNormal(event)
    ensures var src := Or(event, windowEvent);
      Get(NormalizeEvent(event, windowEvent, document, page, ids, toNumber), "which")
        == Or(Get(src, "charCode"), Get(src, "keyCode"))
  {
    var src := Or(event, windowEvent);
    ForInNamed(src, "charCode");
    ForInNamed(src, "keyCode");
    EventFieldsWhich(ForInFields(src), document, page, ids, toNumber);
  }

  /** The page coordinates of the event `r` are those `normalizeEvt` gives the
      source event `src`: the client coordinates shifted by the scroll offset less
      the client offset when `clientX` is not null, the source's own when it is. */
  predicate PagesOf(src: JsVal, r: JsVal, page: Page)
  {
    var cx := Get(src, "clientX");
    var cy := Get(src, "clientY");
    && (cx == Undefined || cx == Null ==>
          Get(r, "pageX") == Get(src, "pageX") && Get(r, "pageY") == Get(src, "pageY"))
    && (cx.Num? && cx.n.Fin? ==> Get(r, "pageX") == Num(Fin(cx.n.r + page.scrollLeft - page.clientLeft)))
    && (cx != Undefined && cx != Null && cy.Num? && cy.n.Fin? ==>
          Get(r, "pageY") == Num(Fin(cy.n.r + page.scrollTop - page.clientTop)))
  }

  /** Both page coordinates of the normalised copy, on both branches of the
      `clientX` test. */
  lemma NormalizeEventPage(event: JsVal, windowEvent: JsVal, document: JsVal, page: Page,
                           ids: Created, toNumber: JsVal -> JsNum)
    requires !AlreadyNormal(event)
    ensures PagesOf(Or(event, windowEvent), NormalizeEvent(event, windowEvent, document, page, ids, toNumber), page)
  {
    var src := Or(event, windowEvent);
    var f0 := ForInFields(src);
    EventFieldsPage(f0, document, page, ids, toNumber);
    var r := NormalizeEvent(event, windowEvent, document, page, ids, toNumber);
    assert r == Obj(ids.event, EventFields(f0, document, page, ids, toNumber));
    PageShiftedGet(src, f0, r, page);
  }

  lemma PageShiftedGet(src: JsVal, f0: map<string, JsVal>, r: JsVal, page: Page)
    requires f0 == ForInFields(src)
    requires r.Obj? && PageShifted(f0, r.fields, page)
    ensures PagesOf(src, r, page)
  {
    ForInNamed(src, "clientX");
    ForInNamed(src, "clientY");
    ForInNamed(src, "pageX");
    ForInNamed(src, "pageY");
    assert forall k :: Field(r.fields, k) == Get(r, k);
  }

  /** `relatedTarget` is the source's `toElement` when its `fromElement` is the
      new target (by `===`), and its `fromElement` otherwise. */
  lemma NormalizeEventRelatedTarget(event: JsVal, windowEvent: JsVal, document: JsVal, page: Page,
                                    ids: Created, toNumber: JsVal -> JsNum)
    requires !AlreadyNormal(event)
    ensures var src := Or(event, windowEvent);
      var r := NormalizeEvent(event, windowEvent, document, page, ids, toNumber);
      Get(r, "relatedTarget")
        == if StrictEquals(Get(src, "fromElement"), Get(r, "target")) then Get(src, "toElement") else Get(src, "fromElement")
  {
    var src := Or(event, windowEvent);
    var f0 := ForInFields(src);
    EventFieldsRelated(f0, document, page, ids, toNumber);
    ForInNamed(src, "fromElement");
    ForInNamed(src, "toElement");
    assert NormalizeEvent(event, windowEvent, document, page, ids, toNumber) == Obj(ids.event, EventFields(f0, document, page, ids, toNumber));
  }

  /** A button that is present becomes 0, 1 or 2; an undefined or null one is
      left as it is. */
  lemma NormalizeEventButton(event: JsVal, windowEvent: JsVal, document: JsVal, page: Page,
                             ids: Created, toNumber: JsVal -> JsNum)
    requires !AlreadyNormal(event)
    ensures var b := Get(Or(event, windowEvent), "button");
      var r := NormalizeEvent(event, windowEvent, document, page, ids, toNumber);
      && (b == Undefined || b == Null ==> Get(r, "button") == b)
      && (b != Undefined && b != Null ==> Get(r, "button") in {Num(Fin(0.0)), Num(Fin(1.0)), Num(Fin(2.0))})
  {
    var src := Or(event, windowEvent);
    var f0 := ForInFields(src);
    EventFieldsButton(f0, document, page, ids, toNumber);
    ForInNamed(src, "button");
    assert NormalizeEvent(event, windowEvent, document, page, ids, toNumber) == Obj(ids.event, EventFields(f0, document, page, ids, toNumber));
  }

  /** Normalising a normalised event changes nothing, whatever the window event,
      document and ids of the second call. */
  lemma NormalizeEventIdempotent(event: JsVal, windowEvent: JsVal, document: JsVal, page: Page,
                                 ids: Created, toNumber: JsVal -> JsNum,
                                 windowEvent': JsVal, document': JsVal, page': Page, ids': Created)
    ensures var r := NormalizeEvent(event, windowEvent, document, page, ids, toNumber);
            AlreadyNormal(r) && NormalizeEvent(r, windowEvent', document', page', ids', toNumber) == r
  {
    var r := NormalizeEvent(event, windowEvent, document, page, ids, toNumber);
    NormalizedIsNormal(event, windowEvent, document, page, ids, toNumber);
    NormalLeftAlone(r, windowEvent', document', page', ids', toNumber);
  }

  lemma NormalizedIsNormal(event: JsVal, windowEvent: JsVal, document: JsVal, page: Page,
                           ids: Created, toNumber: JsVal -> JsNum)
    ensures AlreadyNormal(NormalizeEvent(event, windowEvent, document, page, ids, toNumber))
  {
    var r := NormalizeEvent(event, windowEvent, document, page, ids, toNumber);
    if AlreadyNormal(event) {
      assert r == event;
    } else {
      StopMakesNormal(r, ids.stopPropagation);
    }
  }

  /** An object whose `stopPropagation` is a function counts as normalised. */
  lemma StopMakesNormal(r: JsVal, f: nat)
    requires r.Obj? && Get(r, "stopPropagation") == Fn(f)
    ensures AlreadyNormal(r)
  {
  }

  lemma NormalLeftAlone(r: JsVal, windowEvent: JsVal, document: JsVal, page: Page,
                        ids: Created, toNumber: JsVal -> JsNum)
    requires AlreadyNormal(r)
    ensures NormalizeEvent(r, windowEvent, document, page, ids, toNumber) == r
  {
  }

  /** The short normaliser, corrected, is idempotent on object events. */
  lemma ShortNormalizeIdempotent(e: JsVal, windowEvent: JsVal, ids: ShimIds, windowEvent': JsVal, ids': ShimIds)
    requires Or(e, windowEvent).Obj?
    ensures var r := NormalizeEvtCorrected(e, windowEvent, ids);
            r.Ok? && NormalizeEvtCorrected(r.value, windowEvent', ids') == r
  {
    var ev := Or(e, windowEvent);
    var r := NormalizeEvtCorrected(e, windowEvent, ids).value;
    var t := Or(Field(ev.fields, "target"), Field(ev.fields, "srcElement"));
    assert Or(Field(r.fields, "target"), Field(r.fields, "srcElement")) == t;
    assert r.fields["target" := t] == r.fields;
  }
}

=== FILE: camerality.dfy ===
/** What the camera-holder classes know about Android's camera service. Opening
    a camera is outside the model: its outcome (an open camera, or null after a
    failure) is passed in. */
module CameraDevice {
  /** An open camera; `id` is the camera id it was opened with. */
  datatype Camera = Camera(id: int, serial: nat)

  /** Java's `Integer.MIN_VALUE`, used as "no such camera". */
  const NoCamera: int := -0x8000_0000

  const FacingBack := 0
  const FacingFront := 1

  /** The least camera id below `|facings|`, from `from` up, whose facing is `f`;
      `NoCamera` when there is none. */
  function FirstFacing(facings: seq<int>, f: int, from: nat): (id: int)
    requires from <= |facings|
    ensures id == NoCamera <==> forall j :: from <= j < |facings| ==> facings[j] != f
    ensures id != NoCamera ==>
              from <= id < |facings| && facings[id] == f
              && forall j :: from <= j < id ==> facings[j] != f
    decreases |facings| - from
  {
    if from == |facings| then NoCamera
    else if facings[from] == f then from
    else FirstFacing(facings, f, from + 1)
  }
}

/** android_libs/Camerality.java: finds the back and front camera ids once, and
    holds at most one open camera of each. */
module Camerality {
  import opened Wrappers
  import opened CameraDevice

  /** The instance fields; an id is null until the first scan. */
  datatype Holder = Holder(backId: Option<int>, frontId: Option<int>, backCamera: Option<Camera>, frontCamera: Option<Camera>)

  /** The scan loop: camera ids from the highest down to 0, each back- or
      front-facing camera overwriting the id found so far, so the lowest id of
      each facing is the one left. `facings[i]` is the facing camera i reports. */
  method ScanIds(facings: seq<int>) returns (back: int, front: int)
    ensures back == FirstFacing(facings, FacingBack, 0)
    ensures front == FirstFacing(facings, FacingFront, 0)
  {
    back, front := NoCamera, NoCamera;
    var id := |facings| - 1;
    while id >= 0
      invariant -1 <= id < |facings|
      invariant back == FirstFacing(facings, FacingBack, id + 1)
      invariant front == FirstFacing(facings, FacingFront, id + 1)
    {
      if facings[id] == FacingBack {
        back := id;
      } else if facings[id] == FacingFront {
        front := id;
      }
      id := id - 1;
    }
  }

  /** `checkCamerasExistence`: once both ids are known it does nothing; otherwise
      it sets both from a fresh scan. Held cameras are untouched. */
  method CheckCamerasExistence(h: Holder, facings: seq<int>) returns (r: Holder)
    ensures h.backId.Some? && h.frontId.Some? ==> r == h
    ensures !(h.backId.Some? && h.frontId.Some?) ==>
              r == h.(backId := Some(FirstFacing(facings, FacingBack, 0)), frontId := Some(FirstFacing(facings, FacingFront, 0)))
  {
    if h.backId.Some? && h.frontId.Some? {
      return h;
    }
    var back, front := ScanIds(facings);
    r := h.(backId := Some(back), frontId := Some(front));
  }

  /** The constructor: no camera held, ids from a scan. */
  method New(facings: seq<int>) returns (r: Holder)
    ensures r == Holder(Some(FirstFacing(facings, FacingBack, 0)), Some(FirstFacing(facings, FacingFront, 0)), None, None)
  {
    r := CheckCamerasExistence(Holder(None, None, None, None), facings);
  }

  /** Scanning again, with whatever the cameras now report, changes nothing: the
      scan runs once per instance. */
  method ScanRunsOnce(facings: seq<int>, later: seq<int>) returns (h: Holder, h': Holder)
    ensures h' == h && h.backId.Some? && h.frontId.Some?
  {
    h := New(facings);
    h' := CheckCamerasExistence(h, later);
  }

  predicate Scanned(h: Holder)
  {
    h.backId.Some? && h.frontId.Some?
  }

  /** `hasBackCamera`: the back id is not `Integer.MIN_VALUE`. */
  predicate HasBack(h: Holder)
    requires Scanned(h)
  {
    h.backId.value != NoCamera
  }

  /** `hasFrontCamera`. */
  predicate HasFront(h: Holder)
    requires Scanned(h)
  {
    h.frontId.value != NoCamera
  }

  /** After construction, a back camera is known exactly when some camera faces
      back, and then it is the lowest such id; likewise for the front. */
  lemma HasCameraAfterScan(facings: seq<int>, h: Holder)
    requires h == Holder(Some(FirstFacing(facings, FacingBack, 0)), Some(FirstFacing(facings, FacingFront, 0)), None, None)
    ensures HasBack(h) <==> exists j :: 0 <= j < |facings| && facings[j] == FacingBack
    ensures HasFront(h) <==> exists j :: 0 <= j < |facings| && facings[j] == FacingFront
    ensures HasBack(h) ==> facings[h.backId.value] == FacingBack
  {
  }

  /** `releaseCameras`: releases the held back camera, then the held front one,
      and holds neither afterwards. */
  function ReleaseCameras(h: Holder): (r: (Holder, seq<Camera>))
    ensures r.0 == h.(backCamera := None, frontCamera := None)
    ensures forall c :: c in r.1 <==> (h.backCamera == Some(c) || h.frontCamera == Some(c))
    ensures |r.1| <= 2
  {
    var back := if h.backCamera.Some? then [h.backCamera.value] else [];
    var front := if h.frontCamera.Some? then [h.frontCamera.value] else [];
    (h.(backCamera := None, frontCamera := None), back + front)
  }

  /** A getter's outcome: the holder after, the camera returned, and the cameras
      released on the way. */
  datatype Got = Got(holder: Holder, camera: Option<Camera>, released: seq<Camera>)

  /** `getBackCamera`, with `outcome` the outcome of opening the back id: null and
      nothing changed when there is no back camera; otherwise both held cameras
      are released and the back slot takes the outcome, which is returned. */
  function GetBackCamera(h: Holder, outcome: Option<Camera>): (r: Got)
    requires Scanned(h)
    ensures !HasBack(h) ==> r == Got(h, None, [])
    ensures HasBack(h) ==>
              r.holder == h.(backCamera := outcome, frontCamera := None) && r.camera == outcome
              && r.released == ReleaseCameras(h).1
  {
    if !HasBack(h) then Got(h, None, [])
    else
      var (released, gone) := ReleaseCameras(h);
      Got(released.(backCamera := outcome), outcome, gone)
  }

  /** `getFrontCamera`, symmetric to `getBackCamera`. */
  function GetFrontCamera(h: Holder, outcome: Option<Camera>): (r: Got)
    requires Scanned(h)
    ensures !HasFront(h) ==> r == Got(h, None, [])
    ensures HasFront(h) ==>
              r.holder == h.(backCamera := None, frontCamera := outcome) && r.camera == outcome
              && r.released == ReleaseCameras(h).1
  {
    if !HasFront(h) then Got(h, None, [])
    else
      var (released, gone) := ReleaseCameras(h);
      Got(released.(frontCamera := outcome), outcome, gone)
  }

  /** The holder never keeps two cameras open through its getters: after either
      getter at most one slot is filled, whatever was held before. */
  lemma GettersHoldAtMostOne(h: Holder, outcome: Option<Camera>)
    requires Scanned(h) && (h.backCamera.None? || h.frontCamera.None?)
    ensures var g := GetBackCamera(h, outcome).holder; g.backCamera.None? || g.frontCamera.None?
    ensures var g := GetFrontCamera(h, outcome).holder; g.backCamera.None? || g.frontCamera.None?
  {
  }
}

/** android_libs/Photographer.java: picks a camera at creation, opens the other
    one lazily, and switches the current camera between them. */
module Photographer {
  import opened Wrappers
  import opened CameraDevice

  datatype Photographer = Photographer(
    backId: int, frontId: int,
    backCamera: Option<Camera>, frontCamera: Option<Camera>, current: Option<Camera>)

  /** `hasBackCamera`: with no back camera held and a known back id, it tries to
      open one (`outcome` is the outcome); the answer is whether one is held after. */
  function HasBack(p: Photographer, outcome: Option<Camera>): (r: (Photographer, bool))
    ensures r.1 <==> r.0.backCamera.Some?
    ensures p.backCamera.Some? || p.backId == NoCamera ==> r.0 == p
    ensures p.backCamera.None? && p.backId != NoCamera ==> r.0 == p.(backCamera := outcome)
  {
    var p' := if p.backCamera.None? && p.backId != NoCamera && outcome.Some? then p.(backCamera := outcome) else p;
    (p', p'.backCamera.Some?)
  }

  /** `hasFrontCamera`, symmetric. */
  function HasFront(p: Photographer, outcome: Option<Camera>): (r: (Photographer, bool))
    ensures r.1 <==> r.0.frontCamera.Some?
    ensures p.frontCamera.Some? || p.frontId == NoCamera ==> r.0 == p
    ensures p.frontCamera.None? && p.frontId != NoCamera ==> r.0 == p.(frontCamera := outcome)
  {
    var p' := if p.frontCamera.None? && p.frontId != NoCamera && outcome.Some? then p.(frontCamera := outcome) else p;
    (p', p'.frontCamera.Some?)
  }

  /** `useBackCamera`: the back camera becomes current exactly when the check
      finds one; otherwise the current camera stays as it was. Apart from the
      current camera, the result is what the check left. */
  function UseBack(p: Photographer, outcome: Option<Camera>): (r: (Photographer, bool))
    ensures r.1 ==> r.0.current == r.0.backCamera && r.0.current.Some?
    ensures !r.1 ==> r.0.current == p.current && r.0.backCamera.None?
    ensures r.1 == HasBack(p, outcome).1
    ensures r.0.(current := p.current) == HasBack(p, outcome).0
  {
    var (p', ok) := HasBack(p, outcome);
    if ok then (p'.(current := p'.backCamera), true) else (p', false)
  }

  /** `useFrontCamera`, symmetric. */
  function UseFront(p: Photographer, outcome: Option<Camera>): (r: (Photographer, bool))
    ensures r.1 ==> r.0.current == r.0.frontCamera && r.0.current.Some?
    ensures !r.1 ==> r.0.current == p.current && r.0.frontCamera.None?
    ensures r.1 == HasFront(p, outcome).1
    ensures r.0.(current := p.current) == HasFront(p, outcome).0
  {
    var (p', ok) := HasFront(p, outcome);
    if ok then (p'.(current := p'.frontCamera), true) else (p', false)
  }

  /** `getPhotographer`, given the two ids and the outcome of opening the chosen
      one: the back id when known, else the front id; null when neither is known
      or the open fails. The outcome camera fills the slot of the chosen id and is
      made current. */
  function GetPhotographer(backId: int, frontId: int, outcome: Option<Camera>): (r: Option<Photographer>)
    ensures r.Some? <==> (backId != NoCamera || frontId != NoCamera) && outcome.Some?
    ensures r.Some? ==> r.value.backId == backId && r.value.frontId == frontId && r.value.current == outcome
    ensures r.Some? && backId != NoCamera ==> r.value.backCamera == outcome && r.value.frontCamera.None?
    ensures r.Some? && backId == NoCamera ==> r.value.frontCamera == outcome && r.value.backCamera.None?
  {
    var id := if backId != NoCamera then backId else frontId;
    if id == NoCamera || outcome.None? then None
    else
      var pg := Photographer(backId, frontId, None, None, None);
      if id == backId then Some(UseBack(pg.(backCamera := outcome), None).0)
      else if id == frontId then Some(UseFront(pg.(frontCamera := outcome), None).0)
      else None
  }

  /** Switching to the front camera and back again ends with the back camera
      current, and with the front camera opened lazily on the way when it can be. */
  lemma SwitchAndBack(p: Photographer, frontOutcome: Option<Camera>)
    requires p.backCamera.Some? && p.current == p.backCamera
    ensures var (p1, ok1) := UseFront(p, frontOutcome);
      var (p2, ok2) := UseBack(p1, None);
      && ok2 && p2.current == p.backCamera
      && (ok1 <==> p.frontCamera.Some? || (p.frontId != NoCamera && frontOutcome.Some?))
  {
  }
}

=== FILE: class_list.dfy ===
/** The CSS class-list operations `hasClass`, `addClass` and `removeClass`, the
    same code in js_libs/std.js and utilities/std.js. A class string is a list
    of tokens separated by single spaces; a class argument is either such a
    string or an array. */
module ClassList {
  import opened Wrappers
  import opened JsValues
  import opened JsStrings
  import BrowserCompat

  /** Free of the space character the class strings are split on. */
  predicate NoBlank(s: string)
  {
    forall i :: 0 <= i < |s| ==> s[i] != ' '
  }

  predicate AllNoBlank(ts: seq<string>)
  {
    forall i :: 0 <= i < |ts| ==> NoBlank(ts[i])
  }

  /** A class name as the lemmas below take it: non-empty and without white space. */
  predicate ClassName(c: string)
  {
    |c| > 0 && NoSpace(c)
  }

  predicate ClassNames(cs: seq<string>)
  {
    forall i :: 0 <= i < |cs| ==> ClassName(cs[i])
  }

  function Strs(parts: seq<string>): (r: seq<JsVal>)
    ensures |r| == |parts| && forall i :: 0 <= i < |parts| ==> r[i] == Str(parts[i])
  {
    if parts == [] then [] else [Str(parts[0])] + Strs(parts[1..])
  }

  /** The class argument as a list: a string is split on " ", an array is taken
      as it is, anything else is no list. */
  function Entries(classes: JsVal): Option<seq<JsVal>>
  {
    if classes.Str? then Some(Strs(Split(classes.s, " ")))
    else if classes.Arr? then Some(classes.elems)
    else None
  }

  function Delimited(c: string): string
  {
    " " + c + " "
  }

  /** The search loop of `hasClass`: it stops at the first string entry that is
      not found space-delimited; other entries are skipped. */
  function AllFound(padded: string, es: seq<JsVal>): (r: bool)
    ensures r <==> forall i :: 0 <= i < |es| && es[i].Str? ==> Contains(padded, Delimited(es[i].s))
  {
    if es == [] then true
    else if es[0].Str? && IndexOf(padded, Delimited(es[0].s)) < 0 then false
    else
      assert forall i :: 1 <= i < |es| ==> es[i] == es[1..][i - 1];
      AllFound(padded, es[1..])
  }

  /** The class string `hasClass` looks at: an element's `className`, or the
      target itself. */
  function ElemClass(target: JsVal): JsVal
  {
    if BrowserCompat.IsHTMLElem(target) then Get(target, "className") else target
  }

  /** `hasClass(target, className)`: false unless the class string is a
      non-empty string and the argument a list; then whether every string entry
      is found between spaces in the class string padded with a space on each
      side. */
  function HasClass(target: JsVal, classes: JsVal): (r: bool)
    ensures r ==> ElemClass(target).Str? && ElemClass(target).s != "" && Entries(classes).Some?
    ensures ElemClass(target).Str? && ElemClass(target).s != "" && Entries(classes).Some? ==>
              (r <==> forall i :: 0 <= i < |Entries(classes).value| && Entries(classes).value[i].Str? ==>
                        Contains(" " + ElemClass(target).s + " ", Delimited(Entries(classes).value[i].s)))
  {
    var ec := ElemClass(target);
    if ec.Str? && ec.s != "" then
      match Entries(classes)
      case None => false
      case Some(es) => AllFound(" " + ec.s + " ", es)
    else false
  }

  /** The tokens joined with a space before, between and after them; a single
      space for no tokens. */
  function PadJoin(ts: seq<string>): (r: string)
    ensures |r| > 0 && r[0] == ' ' && r[|r| - 1] == ' '
  {
    if ts == [] then " " else " " + ts[0] + PadJoin(ts[1..])
  }

  lemma {:induction false} PadJoinIsPaddedJoin(ts: seq<string>)
    requires |ts| > 0
    ensures PadJoin(ts) == " " + Join(ts, " ") + " "
    decreases |ts|
  {
    if |ts| > 1 {
      PadJoinIsPaddedJoin(ts[1..]);
    }
  }

  lemma NoBlankIffNoSpaceOccurrence(s: string)
    ensures NoBlank(s) <==> !Contains(s, " ")
  {
    if !NoBlank(s) {
      var i :| 0 <= i < |s| && s[i] == ' ';
      assert s[i..i + 1] == " ";
      assert OccursAt(s, " ", i);
    }
    if Contains(s, " ") {
      var k := IndexOf(s, " ");
      assert s[k..k + 1] == " ";
      assert s[k] == ' ';
    }
  }

  /** The pieces of a split on " " are free of spaces. */
  lemma SplitPiecesNoBlank(s: string)
    ensures AllNoBlank(Split(s, " "))
  {
    SplitPiecesFree(s, " ");
    forall i | 0 <= i < |Split(s, " ")| ensures NoBlank(Split(s, " ")[i]) {
      NoBlankIffNoSpaceOccurrence(Split(s, " ")[i]);
    }
  }

  /** The class string padded on both sides is the padded join of its tokens. */
  lemma PadJoinSplit(s: string)
    ensures PadJoin(Split(s, " ")) == " " + s + " "
  {
    PadJoinIsPaddedJoin(Split(s, " "));
    JoinSplit(s, " ");
  }

  /** Where the first token `c` starts in `PadJoin(ts)`, counting its leading space. */
  function TokenOffset(ts: seq<string>, c: string): nat
    requires c in ts
  {
    if ts[0] == c then 0 else |ts[0]| + 1 + TokenOffset(ts[1..], c)
  }

  /** A space-delimited `c` cannot start inside a token other than `c`. */
  lemma NoEarlyMatch(t0: string, b: string, c: string)
    requires NoBlank(t0) && NoBlank(c) && t0 != c && |b| > 0 && b[0] == ' '
    ensures forall j :: 0 <= j < |" " + t0| ==> !OccursAt((" " + t0) + b, Delimited(c), j)
  {
    var s := (" " + t0) + b;
    var p := Delimited(c);
    forall j | 0 <= j < |" " + t0| ensures !OccursAt(s, p, j) {
      if j > 0 {
        assert s[j] == t0[j - 1] != p[0];
      } else if |c| < |t0| {
        assert s[|c| + 1] == t0[|c|] != p[|c| + 1];
      } else if |c| == |t0| {
        assert s[1..|c| + 1] == t0 != c == p[1..|c| + 1];
      } else {
        assert s[|t0| + 1] == b[0] != p[|t0| + 1];
      }
    }
  }

  /** Searching a padded join for a space-delimited class finds its first token. */
  lemma {:induction false} TokenSearch(ts: seq<string>, c: string)
    requires AllNoBlank(ts) && NoBlank(c)
    ensures IndexOf(PadJoin(ts), Delimited(c)) == (if c in ts then TokenOffset(ts, c) else -1)
    decreases |ts|
  {
    var p := Delimited(c);
    if ts != [] {
      var a := " " + ts[0];
      var b := PadJoin(ts[1..]);
      assert PadJoin(ts) == a + b;
      if ts[0] == c {
        assert (a + b)[..|p|] == p;
        IndexOfIsLeast(a + b, p, 0);
      } else {
        NoEarlyMatch(ts[0], b, c);
        IndexOfSkip(a, b, p);
        TokenSearch(ts[1..], c);
        assert c in ts <==> c in ts[1..];
      }
    }
  }

  /** Whether a space-free class is a token of a padded join. */
  lemma TokenFound(ts: seq<string>, c: string)
    requires AllNoBlank(ts) && NoBlank(c)
    ensures Contains(PadJoin(ts), Delimited(c)) <==> c in ts
  {
    TokenSearch(ts, c);
  }

  /** `hasClass` on a non-empty class string: every piece of the argument is a
      token of the class string. Both are split on single spaces, so the empty
      piece counts as a token exactly where two spaces meet or a space ends the
      string. */
  lemma HasClassTokens(s: string, c: string)
    requires s != ""
    ensures HasClass(Str(s), Str(c)) <==>
              forall i :: 0 <= i < |Split(c, " ")| ==> Split(c, " ")[i] in Split(s, " ")
  {
    var pieces := Split(c, " ");
    var es := Strs(pieces);
    BrowserCompat.IsHTMLElemExactly(Str(s));
    assert ElemClass(Str(s)) == Str(s);
    assert Entries(Str(c)) == Some(es);
    SplitPiecesNoBlank(s);
    SplitPiecesNoBlank(c);
    PadJoinSplit(s);
    assert HasClass(Str(s), Str(c)) == AllFound(" " + s + " ", es);
    forall i | 0 <= i < |es|
      ensures (es[i].Str? ==> Contains(" " + s + " ", Delimited(es[i].s))) <==> pieces[i] in Split(s, " ")
    {
      TokenFound(Split(s, " "), pieces[i]);
    }
    if !HasClass(Str(s), Str(c)) {
      var i :| 0 <= i < |es| && es[i].Str? && !Contains(" " + s + " ", Delimited(es[i].s));
      assert pieces[i] !in Split(s, " ");
      assert Split(c, " ")[i] !in Split(s, " ");
    } else {
      forall i | 0 <= i < |pieces| ensures pieces[i] in Split(s, " ") {
        assert es[i].Str? && Contains(" " + s + " ", Delimited(es[i].s));
      }
    }
  }

  /** For a class name, `hasClass` is token membership; the empty class string
      has no tokens that a class name could match. */
  lemma HasClassName(s: string, c: string)
    requires ClassName(c)
    ensures HasClass(Str(s), Str(c)) <==> c in Split(s, " ")
  {
    NameSplit(c);
    if s != "" {
      HasClassTokens(s, c);
    } else {
      assert Split(s, " ") == [s];
    }
  }

  /** A class name splits into itself. */
  lemma NameSplit(c: string)
    requires NoBlank(c)
    ensures Split(c, " ") == [c]
  {
    NoBlankIffNoSpaceOccurrence(c);
  }

  lemma NameNoBlank(c: string)
    requires ClassName(c)
    ensures NoBlank(c)
  {
    forall i | 0 <= i < |c| ensures c[i] != ' ' {
      assert !IsSpace(c[i]);
    }
  }

  /** How a value reads when concatenated to a string. */
  function Text(v: JsVal, show: JsVal -> string): string
  {
    if v.Str? then v.s else show(v)
  }

  /** The `addClass` loop: each entry `hasClass` does not find is appended after
      a space and collected. */
  function AddLoop(cls: string, es: seq<JsVal>, show: JsVal -> string): (r: (string, seq<JsVal>))
    ensures |r.1| <= |es| && forall i :: 0 <= i < |r.1| ==> r.1[i] in es
    ensures r.1 == [] ==> r.0 == cls
    decreases |es|
  {
    if es == [] then (cls, [])
    else if !HasClass(Str(cls), es[0]) then
      var (cls', added) := AddLoop(cls + " " + Text(es[0], show), es[1..], show);
      (cls', [es[0]] + added)
    else AddLoop(cls, es[1..], show)
  }

  /** The outcome of `addClass`/`removeClass`: the element's class string
      after, and the returned list (None for `false`). */
  datatype ClassChange = ClassChange(className: string, result: Option<seq<JsVal>>)

  /** `addClass(elem, newClasses)`: appends the entries not yet present, in order,
      and trims the class string; `false` and no change when none was added. */
  function AddClass(className: string, newClasses: JsVal, show: JsVal -> string): (r: ClassChange)
    ensures r.result.None? ==> r.className == className
    ensures r.result.Some? ==> |r.result.value| > 0 && Entries(newClasses).Some?
    ensures r.result.Some? ==> forall i :: 0 <= i < |r.result.value| ==> r.result.value[i] in Entries(newClasses).value
  {
    var es := if Entries(newClasses).Some? then Entries(newClasses).value else [];
    var (cls, added) := AddLoop(className, es, show);
    if |added| > 0 then ClassChange(Trim(cls), Some(added)) else ClassChange(className, None)
  }

  /** The names among `cs` not in `seen` and not before them in `cs`: what adding
      them one by one to a list holding `seen` adds. */
  function Fresh(seen: seq<string>, cs: seq<string>): seq<string>
    decreases |cs|
  {
    if cs == [] then []
    else if cs[0] in seen then Fresh(seen, cs[1..])
    else [cs[0]] + Fresh(seen + [cs[0]], cs[1..])
  }

  /** One step of `Fresh`: the first name is kept exactly when it is new. */
  lemma FreshStep(seen: seq<string>, cs: seq<string>)
    requires |cs| > 0
    ensures Fresh(seen, cs) == if cs[0] in seen then Fresh(seen, cs[1..]) else [cs[0]] + Fresh(seen + [cs[0]], cs[1..])
  {
  }

  /** The names to add are names of `cs`, none of them seen already, each once,
      and together with `seen` they cover `cs`. */
  lemma FreshSound(seen: seq<string>, cs: seq<string>)
    ensures var r := Fresh(seen, cs);
      && (forall x :: x in r ==> x in cs && x !in seen)
      && (forall i, j :: 0 <= i < j < |r| ==> r[i] != r[j])
      && (forall x :: x in cs ==> x in seen || x in r)
  {
    FreshNew(seen, cs);
    FreshDistinct(seen, cs);
    FreshCovers(seen, cs);
  }

  lemma {:induction false} FreshNew(seen: seq<string>, cs: seq<string>)
    ensures forall x :: x in Fresh(seen, cs) ==> x in cs && x !in seen
    decreases |cs|
  {
    if cs != [] {
      FreshStep(seen, cs);
      assert forall x :: x in cs[1..] ==> x in cs;
      if cs[0] in seen {
        FreshNew(seen, cs[1..]);
      } else {
        FreshNew(seen + [cs[0]], cs[1..]);
      }
    }
  }

  lemma {:induction false} FreshDistinct(seen: seq<string>, cs: seq<string>)
    ensures var r := Fresh(seen, cs);
      forall i, j :: 0 <= i < j < |r| ==> r[i] != r[j]
    decreases |cs|
  {
    if cs != [] {
      FreshStep(seen, cs);
      if cs[0] in seen {
        FreshDistinct(seen, cs[1..]);
      } else {
        var rest := Fresh(seen + [cs[0]], cs[1..]);
        FreshDistinct(seen + [cs[0]], cs[1..]);
        FreshNew(seen + [cs[0]], cs[1..]);
        var r := [cs[0]] + rest;
        forall i, j | 0 <= i < j < |r| ensures r[i] != r[j] {
          assert r[j] == rest[j - 1];
          if i > 0 {
            assert r[i] == rest[i - 1];
          } else {
            assert rest[j - 1] in rest;
          }
        }
      }
    }
  }

  lemma {:induction false} FreshCovers(seen: seq<string>, cs: seq<string>)
    ensures forall x :: x in cs ==> x in seen || x in Fresh(seen, cs)
    decreases |cs|
  {
    if cs != [] {
      FreshStep(seen, cs);
      assert forall x :: x in cs ==> x == cs[0] || x in cs[1..];
      if cs[0] in seen {
        FreshCovers(seen, cs[1..]);
      } else {
        FreshCovers(seen + [cs[0]], cs[1..]);
      }
    }
  }

  lemma StrsCons(c: string, cs: seq<string>)
    ensures Strs([c] + cs) == [Str(c)] + Strs(cs)
  {
    assert ([c] + cs)[1..] == cs;
  }

  lemma ClassNamesTail(cs: seq<string>)
    requires |cs| > 0 && ClassNames(cs)
    ensures ClassNames(cs[1..]) && ClassName(cs[0])
  {
    assert forall i :: 1 <= i < |cs| ==> cs[i] == cs[1..][i - 1];
  }

  lemma SpaceAssoc(a: string, b: string, c: string)
    ensures a + " " + b + " " + c == a + " " + (b + " " + c)
  {
  }

  /** Appending a space and a class name adds that name as the last token. */
  lemma AppendToken(cls: string, c: string)
    requires ClassName(c)
    ensures Split(cls + " " + c, " ") == Split(cls, " ") + [c]
  {
    NameNoBlank(c);
    NameSplit(c);
    SplitAround(cls, ' ', c);
    assert cls + " " + c == cls + [' '] + c;
  }

  /** One turn of the `addClass` loop on a class name. */
  lemma AddLoopStep(cls: string, cs: seq<string>, show: JsVal -> string)
    requires |cs| > 0 && ClassNames(cs)
    ensures cs[0] in Split(cls, " ") ==> AddLoop(cls, Strs(cs), show) == AddLoop(cls, Strs(cs[1..]), show)
    ensures cs[0] !in Split(cls, " ") ==>
              var after := AddLoop(cls + " " + cs[0], Strs(cs[1..]), show);
              AddLoop(cls, Strs(cs), show) == (after.0, [Str(cs[0])] + after.1)
  {
    assert cs == [cs[0]] + cs[1..];
    StrsCons(cs[0], cs[1..]);
    ClassNamesTail(cs);
    HasClassName(cls, cs[0]);
  }

  /** On class names, the loop adds exactly the names not yet present, in order. */
  lemma {:induction false} AddLoopAdded(cls: string, cs: seq<string>, show: JsVal -> string)
    requires ClassNames(cs)
    ensures AddLoop(cls, Strs(cs), show).1 == Strs(Fresh(Split(cls, " "), cs))
    decreases |cs|
  {
    if cs != [] {
      var c := cs[0];
      AddLoopStep(cls, cs, show);
      ClassNamesTail(cs);
      if c in Split(cls, " ") {
        AddLoopAdded(cls, cs[1..], show);
      } else {
        AppendToken(cls, c);
        AddLoopAdded(cls + " " + c, cs[1..], show);
        StrsCons(c, Fresh(Split(cls, " ") + [c], cs[1..]));
      }
    }
  }

  /** The tokens of the class string grow by exactly the names added. */
  lemma {:induction false} AddLoopSplit(cls: string, cs: seq<string>, show: JsVal -> string)
    requires ClassNames(cs)
    ensures Split(AddLoop(cls, Strs(cs), show).0, " ") == Split(cls, " ") + Fresh(Split(cls, " "), cs)
    decreases |cs|
  {
    if cs != [] {
      ClassNamesTail(cs);
      if cs[0] in Split(cls, " ") {
        AddLoopStep(cls, cs, show);
        FreshStep(Split(cls, " "), cs);
        AddLoopSplit(cls, cs[1..], show);
      } else {
        AddLoopSplit(cls + " " + cs[0], cs[1..], show);
        AddLoopSplitNew(cls, cs, show);
      }
    }
  }

  /** The step of `AddLoopSplit` that adds a name not yet present. */
  lemma AddLoopSplitNew(cls: string, cs: seq<string>, show: JsVal -> string)
    requires ClassNames(cs) && |cs| > 0 && cs[0] !in Split(cls, " ")
    requires Split(AddLoop(cls + " " + cs[0], Strs(cs[1..]), show).0, " ")
             == Split(cls + " " + cs[0], " ") + Fresh(Split(cls + " " + cs[0], " "), cs[1..])
    ensures Split(AddLoop(cls, Strs(cs), show).0, " ") == Split(cls, " ") + Fresh(Split(cls, " "), cs)
  {
    var c := cs[0];
    var seen := Split(cls, " ");
    AddLoopStep(cls, cs, show);
    FreshStep(seen, cs);
    AppendToken(cls, c);
    AppendAssoc(seen, [c], Fresh(seen + [c], cs[1..]));
  }

  /** The class string grows by the names added, each after a space. */
  lemma {:induction false} AddLoopText(cls: string, cs: seq<string>, show: JsVal -> string)
    requires ClassNames(cs)
    ensures Fresh(Split(cls, " "), cs) != [] ==>
              AddLoop(cls, Strs(cs), show).0 == cls + " " + Join(Fresh(Split(cls, " "), cs), " ")
    decreases |cs|
  {
    if cs != [] {
      var c := cs[0];
      var seen := Split(cls, " ");
      AddLoopStep(cls, cs, show);
      ClassNamesTail(cs);
      if c in seen {
        AddLoopText(cls, cs[1..], show);
      } else {
        var next := cls + " " + c;
        AppendToken(cls, c);
        AddLoopText(next, cs[1..], show);
        var rest := Fresh(seen + [c], cs[1..]);
        if rest != [] {
          SpaceAssoc(cls, c, Join(rest, " "));
        } else {
          AddLoopAdded(next, cs[1..], show);
        }
      }
    }
  }

  /** A join of non-empty parts ends with the last character of its last part and
      starts with the first character of its first. */
  lemma {:induction false} JoinEnds(parts: seq<string>, sep: string)
    requires |parts| > 0 && forall i :: 0 <= i < |parts| ==> |parts[i]| > 0
    ensures var j := Join(parts, sep);
            |j| > 0 && j[0] == parts[0][0] && j[|j| - 1] == parts[|parts| - 1][|parts[|parts| - 1]| - 1]
    decreases |parts|
  {
    if |parts| > 1 {
      JoinEnds(parts[1..], sep);
    }
  }

  /** Class names joined with single spaces split back into them and neither
      start nor end with white space. */
  lemma JoinedNames(cs: seq<string>)
    requires |cs| > 0 && ClassNames(cs)
    ensures var j := Join(cs, " ");
      |j| > 0 && !IsSpace(j[0]) && !IsSpace(j[|j| - 1]) && Split(j, " ") == cs
  {
    forall i | 0 <= i < |cs| ensures NoBlank(cs[i]) {
      NameNoBlank(cs[i]);
    }
    JoinEnds(cs, " ");
    SplitJoin(cs, ' ');
  }

  /** `addClass` with class names on a trimmed class string: it adds the names
      not yet present, in order, and the new class string's tokens are the old
      ones followed by those names. */
  lemma AddClassTokens(className: string, cs: seq<string>, id: nat, show: JsVal -> string)
    requires ClassNames(cs) && Trim(className) == className
    ensures var r := AddClass(className, Arr(id, Strs(cs)), show);
      var added := Fresh(Split(className, " "), cs);
      && (r.result.Some? <==> added != [])
      && (r.result.Some? ==> r.result.value == Strs(added))
      && (r.result.Some? ==>
            Split(r.className, " ") == (if className == "" then [] else Split(className, " ")) + added)
  {
    var added := Fresh(Split(className, " "), cs);
    AddLoopAdded(className, cs, show);
    if added != [] {
      AddLoopText(className, cs, show);
      FreshNames(Split(className, " "), cs);
      AppendedTokens(className, added);
    }
  }

  /** Only class names are added. */
  lemma {:induction false} FreshNames(seen: seq<string>, cs: seq<string>)
    requires ClassNames(cs)
    ensures ClassNames(Fresh(seen, cs))
    decreases |cs|
  {
    if cs != [] {
      ClassNamesTail(cs);
      FreshStep(seen, cs);
      FreshNames(seen, cs[1..]);
      FreshNames(seen + [cs[0]], cs[1..]);
    }
  }

  /** Appending class names to a trimmed class string, each after a space, and
      trimming gives the old tokens followed by the names. */
  lemma AppendedTokens(className: string, added: seq<string>)
    requires Trim(className) == className && |added| > 0 && ClassNames(added)
    ensures Split(Trim(className + " " + Join(added, " ")), " ")
              == (if className == "" then [] else Split(className, " ")) + added
  {
    JoinedNames(added);
    if className == "" {
      AppendedToEmpty(Join(added, " "));
    } else {
      AppendedToNonEmpty(className, Join(added, " "));
    }
  }

  /** Appended to the empty string, the joined names lose the leading space. */
  lemma AppendedToEmpty(j: string)
    requires |j| > 0 && !IsSpace(j[0]) && !IsSpace(j[|j| - 1])
    ensures Trim("" + " " + j) == j
  {
    assert "" + " " + j == " " + j;
    TrimFrame(" ", j, "");
    assert " " + j + "" == " " + j;
  }

  /** Appended to a trimmed non-empty string, nothing is trimmed and the
      tokens of both parts follow each other. */
  lemma AppendedToNonEmpty(className: string, j: string)
    requires Trim(className) == className && className != ""
    requires |j| > 0 && !IsSpace(j[0]) && !IsSpace(j[|j| - 1])
    ensures Trim(className + " " + j) == className + " " + j
    ensures Split(className + " " + j, " ") == Split(className, " ") + Split(j, " ")
  {
    TrimShape(className);
    SpaceJoined(className, j);
    TrimKeeps(className + " " + j);
    SplitAround(className, ' ', j);
  }

  lemma SpaceJoined(a: string, b: string)
    requires |a| > 0 && |b| > 0
    ensures (a + " " + b)[0] == a[0] && (a + " " + b)[|a| + |b|] == b[|b| - 1]
    ensures a + [' '] + b == a + " " + b
  {
  }

  /** After `addClass` with class names on a trimmed class string, each name is
      present, whether it was added or already there. */
  lemma AddClassPresent(className: string, cs: seq<string>, id: nat, show: JsVal -> string)
    requires ClassNames(cs) && Trim(className) == className
    ensures var r := AddClass(className, Arr(id, Strs(cs)), show);
      forall i :: 0 <= i < |cs| ==> HasClass(Str(r.className), Str(cs[i]))
  {
    var r := AddClass(className, Arr(id, Strs(cs)), show);
    var seen := Split(className, " ");
    var added := Fresh(seen, cs);
    AddClassTokens(className, cs, id, show);
    FreshSound(seen, cs);
    forall i | 0 <= i < |cs| ensures HasClass(Str(r.className), Str(cs[i])) {
      assert cs[i] in seen || cs[i] in added;
      NamePresent(className, r.className, r.result.Some?, seen, added, cs[i]);
    }
  }

  /** A class name that was a token before or is among those added is a token
      of the new class string. */
  lemma NamePresent(className: string, after: string, changed: bool, seen: seq<string>, added: seq<string>, c: string)
    requires ClassName(c) && seen == Split(className, " ") && (c in seen || c in added)
    requires changed ==> Split(after, " ") == (if className == "" then [] else seen) + added
    requires !changed ==> after == className && added == []
    ensures HasClass(Str(after), Str(c))
  {
    HasClassName(after, c);
    if changed && className == "" {
      assert seen == [""];
      assert c != "";
    }
  }

  /** `cs` less the first occurrence of `c`. */
  function RemoveFirst(ts: seq<string>, c: string): (r: seq<string>)
    ensures c in ts ==> |r| == |ts| - 1
    ensures c !in ts ==> r == ts
  {
    if ts == [] then []
    else if ts[0] == c then ts[1..]
    else [ts[0]] + RemoveFirst(ts[1..], c)
  }

  /** Removing a present token drops exactly one occurrence of it. */
  lemma {:induction false} RemoveFirstCounts(ts: seq<string>, c: string)
    requires c in ts
    ensures multiset(RemoveFirst(ts, c)) == multiset(ts) - multiset{c}
    decreases |ts|
  {
    assert ts == [ts[0]] + ts[1..];
    if ts[0] != c {
      RemoveFirstCounts(ts[1..], c);
    }
  }

  /** Replacing the first space-delimited `c` with one space removes its first
      token from a padded join. */
  lemma {:induction false} ReplaceToken(ts: seq<string>, c: string)
    requires AllNoBlank(ts) && NoBlank(c) && c in ts
    ensures ReplaceFirst(PadJoin(ts), Delimited(c), " ") == PadJoin(RemoveFirst(ts, c))
    decreases |ts|
  {
    var p := Delimited(c);
    var rest := PadJoin(ts[1..]);
    if ts[0] == c {
      ReplaceHeadToken(ts, c);
    } else {
      TokenSearch(ts, c);
      var a := " " + ts[0];
      assert PadJoin(ts) == a + rest;
      assert c in ts[1..];
      assert AllNoBlank(ts[1..]) by {
        assert forall i :: 1 <= i < |ts| ==> ts[i] == ts[1..][i - 1];
      }
      TokenSearch(ts[1..], c);
      ReplaceFirstAfter(a, rest, p, " ");
      ReplaceToken(ts[1..], c);
    }
  }

  /** A first token that is the name is the one replaced. */
  lemma ReplaceHeadToken(ts: seq<string>, c: string)
    requires AllNoBlank(ts) && NoBlank(c) && |ts| > 0 && ts[0] == c
    ensures ReplaceFirst(PadJoin(ts), Delimited(c), " ") == PadJoin(RemoveFirst(ts, c))
  {
    var rest := PadJoin(ts[1..]);
    assert rest == " " + rest[1..];
    assert PadJoin(ts) == Delimited(c) + rest[1..];
    ReplaceFirstPrefix(Delimited(c), rest[1..], " ");
    assert RemoveFirst(ts, c) == ts[1..];
  }

  /** The `removeClass` loop: each entry `hasClass` finds has its first
      space-delimited occurrence replaced by one space, and is collected. */
  function RemoveLoop(cls: string, es: seq<JsVal>, show: JsVal -> string): (r: (string, seq<JsVal>))
    ensures |r.1| <= |es| && forall i :: 0 <= i < |r.1| ==> r.1[i] in es
    ensures r.1 == [] ==> r.0 == cls
    decreases |es|
  {
    if es == [] then (cls, [])
    else if HasClass(Str(cls), es[0]) then
      var (cls', removed) := RemoveLoop(ReplaceFirst(cls, " " + Text(es[0], show) + " ", " "), es[1..], show);
      (cls', [es[0]] + removed)
    else RemoveLoop(cls, es[1..], show)
  }

  /** `removeClass(elem, classes)`: pads the class string with a space on each
      side so that the first and last tokens are delimited too, removes each
      present entry once, and trims; `false` and no change when none was present. */
  function RemoveClass(className: string, classes: JsVal, show: JsVal -> string): (r: ClassChange)
    ensures r.result.None? ==> r.className == className
    ensures r.result.Some? ==> |r.result.value| > 0 && Entries(classes).Some?
    ensures r.result.Some? ==> forall i :: 0 <= i < |r.result.value| ==> r.result.value[i] in Entries(classes).value
  {
    var es := if Entries(classes).Some? then Entries(classes).value else [];
    var (cls, removed) := RemoveLoop(" " + className + " ", es, show);
    if |removed| > 0 then ClassChange(Trim(cls), Some(removed)) else ClassChange(className, None)
  }

  /** Removing the names one after the other from a token list: the tokens left
      and the names that were present when their turn came. */
  function RemoveEach(ts: seq<string>, cs: seq<string>): (r: (seq<string>, seq<string>))
    ensures |r.0| + |r.1| == |ts|
    decreases |cs|
  {
    if cs == [] then (ts, [])
    else if cs[0] in ts then
      var (left, removed) := RemoveEach(RemoveFirst(ts, cs[0]), cs[1..]);
      (left, [cs[0]] + removed)
    else RemoveEach(ts, cs[1..])
  }

  /** Splitting a padded join on " " gives its tokens between two empty pieces. */
  lemma SplitPadJoin(ts: seq<string>)
    requires AllNoBlank(ts)
    ensures Split(PadJoin(ts), " ") == [""] + ts + [""]
  {
    if ts == [] {
      assert PadJoin(ts) == "" + [' '] + "";
      SplitAround("", ' ', "");
      SplitEmpty();
    } else {
      SplitPadJoinNonEmpty(ts);
    }
  }

  /** The empty string splits into one empty piece. */
  lemma SplitEmpty()
    ensures Split("", " ") == [""]
  {
  }

  lemma SplitPadJoinNonEmpty(ts: seq<string>)
    requires AllNoBlank(ts) && ts != []
    ensures Split(PadJoin(ts), " ") == [""] + ts + [""]
  {
    var j := Join(ts, " ");
    PadJoinIsPaddedJoin(ts);
    Padded(j);
    SplitJoin(ts, ' ');
    SplitAround(j, ' ', "");
    SplitAround("", ' ', j + [' '] + "");
    SplitEmpty();
    AppendAssoc([""], ts, [""]);
  }

  lemma Padded(j: string)
    ensures " " + j + " " == "" + [' '] + (j + [' '] + "")
  {
  }

  /** Removing the first occurrence of a name keeps the other tokens space-free. */
  lemma RemoveFirstNoBlank(ts: seq<string>, c: string)
    requires AllNoBlank(ts)
    ensures AllNoBlank(RemoveFirst(ts, c))
  {
    var ts' := RemoveFirst(ts, c);
    if c in ts {
      RemoveFirstCounts(ts, c);
      forall i | 0 <= i < |ts'| ensures NoBlank(ts'[i]) {
        assert ts'[i] in multiset(ts');
      }
    }
  }

  /** One turn of the `removeClass` loop on a padded join of tokens. */
  lemma RemoveLoopStep(ts: seq<string>, cs: seq<string>, show: JsVal -> string)
    requires AllNoBlank(ts) && |cs| > 0 && ClassNames(cs)
    ensures cs[0] !in ts ==> RemoveLoop(PadJoin(ts), Strs(cs), show) == RemoveLoop(PadJoin(ts), Strs(cs[1..]), show)
    ensures cs[0] in ts ==>
              var after := RemoveLoop(PadJoin(RemoveFirst(ts, cs[0])), Strs(cs[1..]), show);
              RemoveLoop(PadJoin(ts), Strs(cs), show) == (after.0, [Str(cs[0])] + after.1)
  {
    var c := cs[0];
    assert cs == [c] + cs[1..];
    StrsCons(c, cs[1..]);
    HasClassInPad(ts, c);
    if c in ts {
      NameNoBlank(c);
      ReplaceToken(ts, c);
    }
  }

  /** A class name is found in a padded join exactly when it is one of its tokens. */
  lemma HasClassInPad(ts: seq<string>, c: string)
    requires AllNoBlank(ts) && ClassName(c)
    ensures HasClass(Str(PadJoin(ts)), Str(c)) <==> c in ts
  {
    HasClassName(PadJoin(ts), c);
    SplitPadJoin(ts);
    assert c != "";
  }

  /** On a padded join of tokens and class names, the loop removes the first
      occurrence of each name present when its turn comes. */
  lemma {:induction false} RemoveLoopTokens(ts: seq<string>, cs: seq<string>, show: JsVal -> string)
    requires AllNoBlank(ts) && ClassNames(cs)
    ensures RemoveLoop(PadJoin(ts), Strs(cs), show).0 == PadJoin(RemoveEach(ts, cs).0)
    ensures RemoveLoop(PadJoin(ts), Strs(cs), show).1 == Strs(RemoveEach(ts, cs).1)
    decreases |cs|
  {
    if cs != [] {
      var c := cs[0];
      RemoveLoopStep(ts, cs, show);
      ClassNamesTail(cs);
      if c in ts {
        var ts' := RemoveFirst(ts, c);
        RemoveFirstNoBlank(ts, c);
        RemoveLoopTokens(ts', cs[1..], show);
        StrsCons(c, RemoveEach(ts', cs[1..]).1);
      } else {
        RemoveLoopTokens(ts, cs[1..], show);
      }
    }
  }

  /** `removeClass` on a class string of single-spaced class names takes out the
      first occurrence of each name present, in order, returns those names, and
      leaves the rest single-spaced. */
  lemma RemoveClassTokens(ts: seq<string>, cs: seq<string>, id: nat, show: JsVal -> string)
    requires |ts| > 0 && ClassNames(ts) && ClassNames(cs)
    ensures var r := RemoveClass(Join(ts, " "), Arr(id, Strs(cs)), show);
      var (left, removed) := RemoveEach(ts, cs);
      && (removed == [] ==> r == ClassChange(Join(ts, " "), None))
      && (removed != [] ==> r == ClassChange(Join(left, " "), Some(Strs(removed))))
  {
    forall i | 0 <= i < |ts| ensures NoBlank(ts[i]) { NameNoBlank(ts[i]); }
    PadJoinIsPaddedJoin(ts);
    RemoveLoopTokens(ts, cs, show);
    var (left, removed) := RemoveEach(ts, cs);
    assert ClassNames(left) by {
      RemoveEachKeeps(ts, cs);
    }
    TrimPadJoin(left);
  }

  /** Trimming the padded join of class names gives their plain join. */
  lemma TrimPadJoin(ts: seq<string>)
    requires ClassNames(ts)
    ensures Trim(PadJoin(ts)) == Join(ts, " ")
  {
    if ts == [] {
      assert PadJoin(ts) == [] + [] + " ";
      TrimFrame([], [], " ");
    } else {
      PadJoinIsPaddedJoin(ts);
      JoinNamesEnds(ts);
      TrimFrame(" ", Join(ts, " "), " ");
    }
  }

  /** A join of class names neither starts nor ends with white space. */
  lemma JoinNamesEnds(ts: seq<string>)
    requires ClassNames(ts) && ts != []
    ensures var j := Join(ts, " "); |j| > 0 && !IsSpace(j[0]) && !IsSpace(j[|j| - 1])
  {
    JoinEnds(ts, " ");
    assert ClassName(ts[0]) && ClassName(ts[|ts| - 1]);
  }

  /** Removing names leaves class names. */
  lemma {:induction false} RemoveEachKeeps(ts: seq<string>, cs: seq<string>)
    requires ClassNames(ts)
    ensures ClassNames(RemoveEach(ts, cs).0)
    decreases |cs|
  {
    if cs != [] {
      if cs[0] in ts {
        var ts' := RemoveFirst(ts, cs[0]);
        assert ClassNames(ts') by {
          RemoveFirstCounts(ts, cs[0]);
          forall i | 0 <= i < |ts'| ensures ClassName(ts'[i]) {
            assert ts'[i] in multiset(ts');
          }
        }
        RemoveEachKeeps(ts', cs[1..]);
      } else {
        RemoveEachKeeps(ts, cs[1..]);
      }
    }
  }
}

=== FILE: clock_controller.dfy ===
/** The clock object (`_cls_Clock`) of clock/clock.js with its tick/stop timer
    state, and the public `build` factory. The browser's interval timers are an
    explicit `Scheduler` value; one firing of an interval is an explicit step. */
module ClockController {
  import opened Wrappers
  import opened ClockFaces

  const SwissClock := "swiss"
  const ColorClock := "color_circles"
  const ElectricClock := "electric_clock"

  /** The interval timers of the page: the active handles and the next handle
      `setInterval` gives out. Browsers hand out positive handles. */
  datatype Scheduler = Scheduler(active: set<nat>, next: nat)

  predicate SchedulerOk(s: Scheduler)
  {
    s.next >= 1 && forall h :: h in s.active ==> 1 <= h < s.next
  }

  /** `setInterval`: a fresh handle, now active. */
  function SetInterval(s: Scheduler): (r: (Scheduler, nat))
    requires SchedulerOk(s)
    ensures SchedulerOk(r.0)
    ensures r.1 >= 1 && r.1 !in s.active && r.0.active == s.active + {r.1}
  {
    (Scheduler(s.active + {s.next}, s.next + 1), s.next)
  }

  /** `clearInterval`: the handle is no longer active; other timers are untouched. */
  function ClearInterval(s: Scheduler, h: nat): (r: Scheduler)
    requires SchedulerOk(s)
    ensures SchedulerOk(r)
    ensures h !in r.active && forall g :: g != h ==> (g in r.active <==> g in s.active)
  {
    Scheduler(s.active - {h}, s.next)
  }

  /** The clock's private state: the drawer, the simulated time `__now` and the
      last interval handle `__timer` (both undefined until the first `tick`). */
  datatype Clock = Clock(drawer: Drawer, now: Option<Date>, timer: Option<nat>)

  /** The state every reachable clock is in: every active interval was set by a
      `tick`, which set the time first. */
  predicate Valid(c: Clock, s: Scheduler)
  {
    && SchedulerOk(s)
    && (c.timer.Some? ==> 1 <= c.timer.value < s.next)
    && (s.active != {} ==> c.now.Some?)
  }

  /** `build(style, canvas)`: a non-square canvas gets its width set to its height;
      "swiss" and "color_circles" give a fresh, not yet ticking clock on it, and
      "electric_clock" or any other name gives null. */
  function Build(style: string, canvas: Canvas): (r: (Canvas, Option<Clock>))
    ensures r.0 == Canvas(canvas.height, canvas.height)
    ensures r.1.Some? <==> style == SwissClock || style == ColorClock
    ensures r.1.Some? ==> r.1.value.now.None? && r.1.value.timer.None? && r.1.value.drawer.canvas == r.0
    ensures style == SwissClock ==> r.1.value.drawer.face.Swiss?
    ensures style == ColorClock ==> r.1.value.drawer.face.ColorCircles?
    ensures style == SwissClock ==>
              var s := r.1.value.drawer.face.swiss;
              s.radius == canvas.height as real / 2.0 && s.minorLength == 0.4 * s.majorLength
  {
    var square := if canvas.width != canvas.height then canvas.(width := canvas.height) else canvas;
    var clock :=
      if style == SwissClock then Some(Clock(Drawer(square, Swiss(SwissStyleFor(square))), None, None))
      else if style == ColorClock then Some(Clock(Drawer(square, ColorCircles(ColorStyleFor(square))), None, None))
      else None;  // electric_clock is not implemented yet: null as for an unknown style
    (square, clock)
  }

  /** `tick(date)`: the time becomes `date` when one is given, else the ambient
      current time, and a new one-second interval is set. An interval set by an
      earlier `tick` is NOT cleared. */
  function Tick(c: Clock, s: Scheduler, date: Option<Date>, ambient: Date): (r: (Clock, Scheduler))
    requires Valid(c, s)
    ensures Valid(r.0, r.1)
    ensures r.0.now == Some(if date.Some? then date.value else ambient)
    ensures r.0.timer.Some? && r.0.timer.value !in s.active
    ensures r.1.active == s.active + {r.0.timer.value}
    ensures r.0.drawer == c.drawer
  {
    var start := if date.Some? then date.value else ambient;
    var (s', h) := SetInterval(s);
    (Clock(c.drawer, Some(start), Some(h)), s')
  }

  /** `stop()`: clears the interval of the latest `tick`, when there was one. The
      handle is kept, so a second `stop` clears it again, to no effect. */
  function Stop(c: Clock, s: Scheduler): (r: Scheduler)
    requires Valid(c, s)
    ensures Valid(c, r)
    ensures c.timer.None? ==> r == s
    ensures c.timer.Some? ==> r.active == s.active - {c.timer.value}
  {
    if c.timer.Some? && c.timer.value != 0 then ClearInterval(s, c.timer.value) else s
  }

  /** What one firing asks of the drawer. */
  datatype DrawCall = ClearAll | TimeMarks(marks: seq<Shape>) | Hands(at: Date, hands: seq<Shape>)

  /** The time step of one firing: the stored time moves on by exactly 1000 ms. */
  function Advance(c: Clock): (r: Clock)
    requires c.now.Some?
    ensures r.now.Some? && r.now.value.localMs == c.now.value.localMs + 1000
    ensures r.drawer == c.drawer && r.timer == c.timer
  {
    c.(now := Some(Date(c.now.value.localMs + 1000)))
  }

  /** One firing of an active interval: the time advances, then the canvas is
      cleared, the marks drawn, and the hands drawn for the new time, in that
      order. */
  function Fire(c: Clock, s: Scheduler, h: nat, trig: Trig): (r: (Clock, seq<DrawCall>))
    requires Valid(c, s) && h in s.active
    ensures Valid(r.0, s) && r.0 == Advance(c)
    ensures |r.1| == 3 && r.1[0] == ClearAll && r.1[1].TimeMarks? && r.1[2].Hands? && r.1[2].at == r.0.now.value
    ensures r.1[1].marks == DrawTimeMarks(c.drawer, trig)
    ensures r.1[2].hands == DrawHands(c.drawer, r.0.now.value)
  {
    var c' := Advance(c);
    var now := c'.now.value;
    (c', [ClearAll, TimeMarks(DrawTimeMarks(c.drawer, trig)), Hands(now, DrawHands(c.drawer, now))])
  }

  /** One second later the seconds reading has moved on by one, wrapping at 60. */
  lemma NextSecond(d: Date)
    ensures Date(d.localMs + 1000).Seconds() == (d.Seconds() + 1) % 60
  {
    var q := d.localMs / 1000;
    assert d.localMs + 1000 == (q + 1) * 1000 + (d.localMs - q * 1000);
  }

  /** The time step of a firing moves the stored time on by exactly 1000 ms, so the second hand's
      reading moves on by one, wrapping at 60. */
  lemma FireAdvancesSecond(c: Clock)
    requires c.now.Some?
    ensures Advance(c).now.value.localMs == c.now.value.localMs + 1000
    ensures Advance(c).now.value.Seconds() == (c.now.value.Seconds() + 1) % 60
  {
    NextSecond(c.now.value);
  }

  /** `n` firings in a row. */
  function FireTimes(c: Clock, n: nat): (r: Clock)
    requires c.now.Some?
    ensures r.now.Some? && r.drawer == c.drawer && r.timer == c.timer
    decreases n
  {
    if n == 0 then c else FireTimes(Advance(c), n - 1)
  }

  /** After `tick(start)` and n firings the clock reads exactly n seconds past the
      start, whatever real time passed meanwhile. */
  lemma {:induction false} TicksAdvanceTime(c: Clock, n: nat)
    requires c.now.Some?
    ensures FireTimes(c, n).now.value.localMs == c.now.value.localMs + 1000 * n
    decreases n
  {
    if n > 0 {
      TicksAdvanceTime(Advance(c), n - 1);
    }
  }

  /** As written, two `tick`s and a `stop` leave the first interval running: the
      clock still redraws, and now advances its time once per firing of each
      interval it has set. */
  lemma TickTwiceLeaksInterval(c: Clock, s: Scheduler, d1: Date, d2: Date, trig: Trig)
    requires Valid(c, s)
    ensures var (c1, s1) := Tick(c, s, Some(d1), d1);
      var (c2, s2) := Tick(c1, s1, Some(d2), d2);
      var s3 := Stop(c2, s2);
      && c1.timer.value in s3.active
      && c1.timer.value != c2.timer.value
      && Valid(c2, s3)
      && Fire(c2, s3, c1.timer.value, trig).1[0] == ClearAll
  {
  }

  /** The evidently intended `tick`: clear the running interval before setting a
      new one, so that a clock owns at most one interval. */
  function TickRestart(c: Clock, s: Scheduler, date: Option<Date>, ambient: Date): (r: (Clock, Scheduler))
    requires Valid(c, s)
    ensures Valid(r.0, r.1)
    ensures r.0.now == Some(if date.Some? then date.value else ambient)
    ensures r.0.timer.Some? && r.1.active == Stop(c, s).active + {r.0.timer.value}
  {
    Tick(c, Stop(c, s), date, ambient)
  }

  /** The clock owns no interval other than its latest one. */
  predicate OwnsAtMostLatest(c: Clock, s: Scheduler)
  {
    forall h :: h in s.active ==> c.timer == Some(h)
  }

  /** With the restarting `tick`, the clock keeps exactly one interval while
      ticking, whatever was running before, and none after `stop`. */
  lemma {:induction false} RestartKeepsOneInterval(c: Clock, s: Scheduler, date: Option<Date>, ambient: Date)
    requires Valid(c, s) && OwnsAtMostLatest(c, s)
    ensures var (c1, s1) := TickRestart(c, s, date, ambient);
      && OwnsAtMostLatest(c1, s1)
      && s1.active == {c1.timer.value}
      && Stop(c1, s1).active == {}
  {
    var s0 := Stop(c, s);
    assert s0.active == {};
  }
}

=== FILE: clock_faces.dfy ===
/** The drawer (`_cls_Drawer`) of clock/clock.js and its two face styles, "swiss"
    and "color_circles". Drawing on the canvas is modelled as the list of shapes a
    redraw strokes or fills, each in the coordinate frame it was drawn in. */
module ClockFaces {
  import opened Wrappers
  import opened ClockMath
  import JsStrings

  /** The canvas element's size in pixels. */
  datatype Canvas = Canvas(width: nat, height: nat)

  /** A `Date`, as milliseconds on the local time line (a fixed time-zone offset
      already applied), with the getters the clock reads. */
  datatype Date = Date(localMs: int)
  {
    function Hours(): int { (localMs / 3_600_000) % 24 }
    function Minutes(): int { (localMs / 60_000) % 60 }
    function Seconds(): int { (localMs / 1000) % 60 }
  }

  /** Math.PI, Math.cos and Math.sin, supplied by the caller. */
  datatype Trig = Trig(pi: real, cos: real -> real, sin: real -> real)

  /** The geometry and colours of the swiss face (`_buildSwissClock`). */
  datatype SwissStyle = SwissStyle(
    baseColor: string,
    radius: real,
    majorLength: real, majorLineWidth: real,
    minorLength: real, minorLineWidth: real,
    hrLong: real, hrShort: real, hrLineWidth: real,
    mmLong: real, mmShort: real, mmLineWidth: real,
    ssLong: real, ssShort: real, ssLineWidth: real, ssCircleRadius: real, ssColor: string)

  /** Number of rows of the colour face's colour table: one per dial position. */
  const ColorTableRows: nat := 60

  /** The twelve numerals of the colour face, starting at the 3 o'clock position. */
  const MajorMarkTexts: seq<string> := ["3", "4", "5", "6", "7", "8", "9", "10", "11", "12", "1", "2"]

  /** The geometry and colours of the colour face (`_buildColorClock`). The table
      entries themselves (RGB strings) are referred to by row and column only. */
  datatype ColorStyle = ColorStyle(
    colorScheme: nat,
    majorMarkRadius: real,
    majorMarkTexts: seq<string>,
    majorMarkFontSize: real,
    majorMarkColor: string,
    clockRadius: real,
    hrLineWidth: real, hrLength: real,
    mmLineWidth: real, mmLength: real,
    ssLineWidth: real, ssLength: real,
    lineCap: string,
    mmCenterRadius: real, ssCenterRadius: real,
    tipOuterRadius: real, tipInnerRadius: real)

  datatype Face = Swiss(swiss: SwissStyle) | ColorCircles(color: ColorStyle)

  /** A drawer: the canvas it draws on and the face style it was built with. */
  datatype Drawer = Drawer(canvas: Canvas, face: Face)

  /** What a stroke or fill uses as colour: a CSS colour or a colour-table cell. */
  datatype Paint = Named(css: string) | TableCell(row: nat, column: nat)

  /** A coordinate frame: translated by (dx, dy), then rotated by `rotateDeg`
      degrees when present (the canvas receives `d2r` of it). */
  datatype Frame = Frame(dx: real, dy: real, rotateDeg: Option<real>)

  datatype Shape =
    | Line(frame: Frame, src: Coord, dst: Coord, lineWidth: real, lineCap: string, paint: Paint)
    | Disc(frame: Frame, center: Coord, radius: real, paint: Paint)
    | Text(frame: Frame, text: string, at: Coord, paint: Paint)

  function SwissStyleFor(c: Canvas): SwissStyle
  {
    var radius := c.width as real / 2.0;
    var majorLength := radius * 0.22;
    var majorLineWidth := radius * 0.2 * 0.35;
    var minorLength := majorLength * 0.4;
    var minorLineWidth := majorLineWidth * 0.2;
    var hrShort := radius * 0.25;
    SwissStyle(
      "#171717", radius,
      majorLength, majorLineWidth,
      minorLength, minorLineWidth,
      radius * 0.65, hrShort, majorLineWidth,
      radius - minorLength, hrShort, majorLineWidth,
      radius * 0.68, hrShort * 1.32, minorLineWidth + 1.0, minorLineWidth * 5.0, "#e61919")
  }

  /** On a canvas of positive width every mark starts on the rim and ends inside
      the dial, and every hand is shorter than the radius. */
  lemma SwissGeometryFits(c: Canvas)
    requires c.width > 0
    ensures var s := SwissStyleFor(c);
      && s.radius == c.width as real / 2.0
      && s.minorLength == 0.4 * s.majorLength
      && 0.0 < s.radius - s.majorLength < s.radius - s.minorLength < s.radius
      && 0.0 < s.hrLong < s.radius && 0.0 < s.mmLong < s.radius && 0.0 < s.ssLong < s.radius
      && s.hrLong < s.mmLong
      && 0.0 < s.hrShort && 0.0 < s.mmShort && 0.0 < s.ssShort
  {
  }

  function ColorStyleFor(c: Canvas): ColorStyle
  {
    var majorMarkRadius := c.width as real * 0.5 * 0.115;
    var clockRadius := c.width as real * 0.5 - majorMarkRadius;
    var hrLineWidth := majorMarkRadius * 0.55;
    var ssLineWidth := hrLineWidth * 0.5;
    var ssCenterRadius := ssLineWidth * 1.15;
    ColorStyle(
      0, majorMarkRadius, MajorMarkTexts, majorMarkRadius, "#fff", clockRadius,
      hrLineWidth, clockRadius * 0.6,
      hrLineWidth, clockRadius * 0.75,
      ssLineWidth, clockRadius * 0.77,
      "round",
      hrLineWidth * 0.9, ssCenterRadius,
      ssCenterRadius * 1.8, ssCenterRadius)
  }

  /** The hour-mark circles of the colour face touch the canvas edge from inside. */
  lemma ColorGeometryFits(c: Canvas)
    requires c.width > 0
    ensures var s := ColorStyleFor(c);
      && s.clockRadius + s.majorMarkRadius == c.width as real / 2.0
      && 0.0 < s.hrLength < s.mmLength < s.ssLength < s.clockRadius
      && s.colorScheme < 3 && |s.majorMarkTexts| == 12
  {
  }

  /** The frame translation every face drawing starts with: the canvas centre. */
  function Centre(c: Canvas): Frame
  {
    Frame(c.width as real / 2.0, c.height as real / 2.0, None)
  }

  /** `rotateByTime`: move the origin to the canvas centre and, for a known unit
      (compared after `toLowerCase`), turn the x axis from 3 o'clock to the hand's
      position; an unknown unit only translates. */
  function RotateByTime(c: Canvas, timeBase: string, date: Date): Frame
  {
    var hh := date.Hours() % 12;
    var mm := date.Minutes();
    var ss := date.Seconds();
    var unit := JsStrings.ToLowerAscii(timeBase);
    var rotation :=
      if unit == "hour" then Some(-90.0 + hh as real * 30.0 + 30.0 * (mm as real / 60.0))
      else if unit == "minute" then Some(-90.0 + 6.0 * mm as real)
      else if unit == "second" then Some(-90.0 + 6.0 * ss as real)
      else None;
    Frame(c.width as real / 2.0, c.height as real / 2.0, rotation)
  }

  /** `rotateByTime` translates to the canvas centre; it rotates only for the
      units hour, minute and second (after lower-casing), and by less than a
      turn starting at -90 degrees. */
  lemma RotateByTimeFrame(c: Canvas, timeBase: string, date: Date)
    ensures var f := RotateByTime(c, timeBase, date);
      && f.dx == c.width as real / 2.0 && f.dy == c.height as real / 2.0
      && (f.rotateDeg.Some? <==> JsStrings.ToLowerAscii(timeBase) in {"hour", "minute", "second"})
      && (JsStrings.ToLowerAscii(timeBase) == "hour" ==> -90.0 <= f.rotateDeg.value < 270.0)
      && (JsStrings.ToLowerAscii(timeBase) in {"minute", "second"} ==> -90.0 <= f.rotateDeg.value <= 264.0)
  {
  }

  /** The unit names are already lower case. */
  lemma LowerHour()
    ensures JsStrings.ToLowerAscii("hour") == "hour"
  {
  }

  lemma LowerMinute()
    ensures JsStrings.ToLowerAscii("minute") == "minute"
  {
  }

  lemma LowerSecond()
    ensures JsStrings.ToLowerAscii("second") == "second"
  {
  }

  /** The hour hand's rotated x axis points at the dial angle `t2d` gives the
      same hour, up to whole turns, at a whole hour; in between it creeps ahead
      by half a degree per minute. */
  lemma HourRotationMatchesDial(c: Canvas, date: Date)
    ensures var hh := date.Hours() % 12;
      && RotateByTime(c, "hour", date).rotateDeg == Some((-90 + 30 * hh) as real + date.Minutes() as real / 2.0)
      && T2D("hour", hh).Some?
      && (-90 + 30 * hh - T2D("hour", hh).value) % 360 == 0
  {
    LowerHour();
  }

  /** The minute hand's rotated x axis points at the dial angle of the minute,
      up to whole turns. */
  lemma MinuteRotationMatchesDial(c: Canvas, date: Date)
    ensures && RotateByTime(c, "minute", date).rotateDeg == Some((-90 + 6 * date.Minutes()) as real)
      && T2D("minute", date.Minutes()).Some?
      && (-90 + 6 * date.Minutes() - T2D("minute", date.Minutes()).value) % 360 == 0
  {
    LowerMinute();
  }

  /** The second hand's rotated x axis points at the dial angle of the second,
      up to whole turns. */
  lemma SecondRotationMatchesDial(c: Canvas, date: Date)
    ensures && RotateByTime(c, "second", date).rotateDeg == Some((-90 + 6 * date.Seconds()) as real)
      && T2D("second", date.Seconds()).Some?
      && (-90 + 6 * date.Seconds() - T2D("second", date.Seconds()).value) % 360 == 0
  {
    LowerSecond();
  }

  /** Mark i of the 60 dial positions is a major (hour) mark exactly when i is a
      multiple of 5. */
  predicate IsMajor(i: int)
  {
    i % 5 == 0
  }

  /** One tick mark of the swiss face (loop body of its `drawTimeMarks`). */
  function SwissMark(s: SwissStyle, c: Canvas, trig: Trig, i: nat): Shape
  {
    var r := D2R(6.0 * i as real, trig.pi);
    var len := if IsMajor(i) then s.majorLength else s.minorLength;
    var width := if IsMajor(i) then s.majorLineWidth else s.minorLineWidth;
    Line(Centre(c), CoordByRadians(r, s.radius, trig.cos, trig.sin),
         CoordByRadians(r, s.radius - len, trig.cos, trig.sin), width, "butt", Named(s.baseColor))
  }

  /** The swiss face's `drawTimeMarks`: one line per dial position, positions
      `from` to 59. */
  function SwissMarksFrom(s: SwissStyle, c: Canvas, trig: Trig, from: nat): (marks: seq<Shape>)
    requires from <= 60
    ensures |marks| == 60 - from
    ensures forall k :: 0 <= k < |marks| ==> marks[k] == SwissMark(s, c, trig, from + k)
    decreases 60 - from
  {
    if from == 60 then [] else [SwissMark(s, c, trig, from)] + SwissMarksFrom(s, c, trig, from + 1)
  }

  /** Of the sixty swiss marks, exactly those at multiples of 5 are drawn long and
      thick, the others short and thin. */
  lemma SwissMarksMajorMinor(s: SwissStyle, c: Canvas, trig: Trig)
    ensures var marks := SwissMarksFrom(s, c, trig, 0);
      && |marks| == 60
      && forall i :: 0 <= i < 60 ==>
           marks[i].Line? && marks[i].lineWidth == (if i % 5 == 0 then s.majorLineWidth else s.minorLineWidth)
  {
  }

  /** The numeral's horizontal nudge: double-digit numerals move further left. */
  function LabelNudge(text: string, fontSize: real): real
  {
    if text == "10" || text == "11" || text == "12" then fontSize * 0.62 else fontSize * 0.29
  }

  /** The colour face's hour mark at position i: a filled circle in the table colour
      of row i and its numeral. */
  function ColorMark(s: ColorStyle, c: Canvas, trig: Trig, i: nat): seq<Shape>
    requires i < 60 && IsMajor(i) && |s.majorMarkTexts| == 12
  {
    var coord := CoordByRadians(D2R(6.0 * i as real, trig.pi), s.clockRadius, trig.cos, trig.sin);
    var text := s.majorMarkTexts[i / 5];
    [ Disc(Centre(c), coord, s.majorMarkRadius, TableCell(i, s.colorScheme)),
      Text(Centre(c), text,
           Coord(coord.x - LabelNudge(text, s.majorMarkFontSize), coord.y + s.majorMarkFontSize * 0.36),
           Named(s.majorMarkColor)) ]
  }

  /** The colour face's `drawTimeMarks` over positions `from` to 59: minor
      positions draw nothing. */
  function ColorMarksFrom(s: ColorStyle, c: Canvas, trig: Trig, from: nat): seq<Shape>
    requires from <= 60 && |s.majorMarkTexts| == 12
    decreases 60 - from
  {
    if from == 60 then []
    else if IsMajor(from) then ColorMark(s, c, trig, from) + ColorMarksFrom(s, c, trig, from + 1)
    else ColorMarksFrom(s, c, trig, from + 1)
  }

  /** Positions `5 * q`..59 draw one circle and one numeral per multiple of 5, in
      dial order: the k-th pair is that of position `5 * (q + k)`. */
  lemma {:induction false} ColorMarksLayout(s: ColorStyle, c: Canvas, trig: Trig, q: nat)
    requires q <= 12 && |s.majorMarkTexts| == 12
    ensures var marks := ColorMarksFrom(s, c, trig, 5 * q);
      && |marks| == 2 * (12 - q)
      && forall k :: 0 <= k < 12 - q ==> marks[2 * k..2 * k + 2] == ColorMark(s, c, trig, 5 * (q + k))
    decreases 12 - q
  {
    if q < 12 {
      var tail := ColorMarksFrom(s, c, trig, 5 * (q + 1));
      ColorMarksLayout(s, c, trig, q + 1);
      var head := ColorMark(s, c, trig, 5 * q);
      MajorThenSkip(s, c, trig, q);
      var marks := head + tail;
      assert |marks| == 2 * (12 - q);
      forall k | 0 <= k < 12 - q
        ensures marks[2 * k..2 * k + 2] == ColorMark(s, c, trig, 5 * (q + k))
      {
        if k == 0 {
          assert marks[0..2] == head;
        } else {
          PairShift(head, tail, k);
          assert 5 * (q + 1 + (k - 1)) == 5 * (q + k);
        }
      }
    } else {
      assert 5 * q == 60;
    }
  }

  /** Behind a two-element head, pair k is pair k - 1 of the tail. */
  lemma PairShift<T>(head: seq<T>, tail: seq<T>, k: nat)
    requires |head| == 2 && 1 <= k && 2 * k <= |tail|
    ensures (head + tail)[2 * k..2 * k + 2] == tail[2 * (k - 1)..2 * (k - 1) + 2]
  {
  }

  /** A major position draws its pair, and the four minor ones after it nothing. */
  lemma MajorThenSkip(s: ColorStyle, c: Canvas, trig: Trig, q: nat)
    requires q < 12 && |s.majorMarkTexts| == 12
    ensures ColorMarksFrom(s, c, trig, 5 * q) == ColorMark(s, c, trig, 5 * q) + ColorMarksFrom(s, c, trig, 5 * (q + 1))
  {
    var from := 5 * q;
    assert IsMajor(from);
    assert !IsMajor(from + 1) && !IsMajor(from + 2) && !IsMajor(from + 3) && !IsMajor(from + 4);
    assert ColorMarksFrom(s, c, trig, from + 1) == ColorMarksFrom(s, c, trig, from + 2);
    assert ColorMarksFrom(s, c, trig, from + 2) == ColorMarksFrom(s, c, trig, from + 3);
    assert ColorMarksFrom(s, c, trig, from + 3) == ColorMarksFrom(s, c, trig, from + 4);
    assert from + 5 == 5 * (q + 1);
  }

  /** The hour a face numeral names, "12" standing for 0. */
  function LabelHour(text: string): int
    requires JsStrings.AllDigits(text)
  {
    JsStrings.DecimalValue(text) % 12
  }

  /** Numeral k sits on hour position k (30 * k degrees from 3 o'clock), which is
      the dial angle `t2d` gives the hour the numeral names. */
  lemma LabelsNameDialHours()
    ensures |MajorMarkTexts| == 12
    ensures forall k :: 0 <= k < 12 ==>
              T2D("hour", LabelHour(MajorMarkTexts[k])) == Some(30 * k)
              && LabelHour(MajorMarkTexts[k]) == DialHour(k)
  {
    forall k | 0 <= k < 12
      ensures T2D("hour", LabelHour(MajorMarkTexts[k])) == Some(30 * k)
      ensures LabelHour(MajorMarkTexts[k]) == DialHour(k)
    {
      LabelHourAt(k);
      HourDialBijective(k, DialHour(k));
    }
  }

  /** Numeral k names the hour at dial position k. */
  lemma LabelHourAt(k: nat)
    requires k < 12
    ensures LabelHour(MajorMarkTexts[k]) == DialHour(k)
  {
    var t := MajorMarkTexts[k];
    if k < 7 || 10 <= k {
      assert t == [t[0]];
      OneDigitValue(t[0]);
    } else {
      assert t == [t[0], t[1]] && t[0] == '1';
      TwoDigitValue(t[0], t[1]);
    }
  }

  lemma OneDigitValue(d: char)
    requires JsStrings.IsDigit(d)
    ensures JsStrings.DecimalValue([d]) == d as int - '0' as int
  {
    assert JsStrings.PrefixValue([d], 0) == 0;
  }

  lemma TwoDigitValue(a: char, b: char)
    requires JsStrings.IsDigit(a) && JsStrings.IsDigit(b)
    ensures JsStrings.DecimalValue([a, b]) == 10 * (a as int - '0' as int) + (b as int - '0' as int)
  {
    assert JsStrings.PrefixValue([a, b], 1) == a as int - '0' as int;
  }

  /** The colour-table row a hand is painted with: its dial angle over 6. Always a
      row of the 60-row table; for the hour hand a multiple of 5. */
  function HandRow(timeBase: string, t: int): (row: nat)
    requires (timeBase == "hour" && 0 <= t <= 11) || (timeBase == "minute" && 0 <= t <= 59)
    ensures row < ColorTableRows
    ensures 6 * row == T2D(timeBase, t).value
    ensures timeBase == "hour" ==> row % 5 == 0 && row == 5 * ((t + 9) % 12)
    ensures timeBase == "minute" ==> row == (t + 45) % 60
  {
    T2D(timeBase, t).value / 6
  }

  /** The swiss face's `drawHands`: hour and minute hands in the base colour, the
      second hand in its accent colour with a dot at its tip and a centre pip. */
  function SwissHands(s: SwissStyle, c: Canvas, date: Date): (shapes: seq<Shape>)
    ensures |shapes| == 5
  {
    var hf := RotateByTime(c, "hour", date);
    var mf := RotateByTime(c, "minute", date);
    var sf := RotateByTime(c, "second", date);
    [ Line(hf, Coord(s.hrLong, 0.0), Coord(-s.hrShort, 0.0), s.hrLineWidth, "butt", Named(s.baseColor)),
      Line(mf, Coord(s.mmLong, 0.0), Coord(-s.mmShort, 0.0), s.mmLineWidth, "butt", Named(s.baseColor)),
      Line(sf, Coord(s.ssLong, 0.0), Coord(-s.ssShort, 0.0), s.ssLineWidth, "butt", Named(s.ssColor)),
      Disc(sf, Coord(s.ssLong, 0.0), s.ssCircleRadius, Named(s.ssColor)),
      // the centre pip's radius is the line width still set on the context
      Disc(sf, Coord(0.0, 0.0), s.ssLineWidth, Named(s.ssColor)) ]
  }

  /** On a canvas of positive width each swiss hand lies on the x axis of the
      frame its own reading rotates, crosses the centre and ends inside the dial,
      the hour hand shorter than the minute hand; the dot sits at the tip of the
      second hand, and only the second hand's parts wear the accent colour. */
  lemma SwissHandsLayout(c: Canvas, date: Date)
    requires c.width > 0
    ensures var s := SwissStyleFor(c);
      var h := SwissHands(s, c, date);
      && h[0].Line? && h[1].Line? && h[2].Line? && h[3].Disc? && h[4].Disc?
      && h[0].frame == RotateByTime(c, "hour", date) && h[1].frame == RotateByTime(c, "minute", date)
      && h[2].frame == h[3].frame == h[4].frame == RotateByTime(c, "second", date)
      && 0.0 < h[0].src.x < h[1].src.x < s.radius && 0.0 < h[2].src.x < s.radius
      && h[0].dst.x < 0.0 && h[1].dst.x < 0.0 && h[2].dst.x < 0.0
      && h[0].src.y == h[0].dst.y == h[1].src.y == h[1].dst.y == h[2].src.y == h[2].dst.y == 0.0
      && h[3].center == h[2].src
      && h[0].paint == h[1].paint == Named(s.baseColor)
      && h[2].paint == h[3].paint == h[4].paint == Named(s.ssColor)
  {
    var s := SwissStyleFor(c);
    SwissGeometryFits(c);
    SwissHandsOnAxes(s, c, date);
  }

  /** The layout of the swiss hands for any style whose hand lengths are positive
      and below the radius, the hour hand shorter than the minute hand. */
  lemma SwissHandsOnAxes(s: SwissStyle, c: Canvas, date: Date)
    requires 0.0 < s.hrLong < s.mmLong < s.radius && 0.0 < s.ssLong < s.radius
    requires 0.0 < s.hrShort && 0.0 < s.mmShort && 0.0 < s.ssShort
    ensures var h := SwissHands(s, c, date);
      && h[0].Line? && h[1].Line? && h[2].Line? && h[3].Disc? && h[4].Disc?
      && h[0].frame == RotateByTime(c, "hour", date) && h[1].frame == RotateByTime(c, "minute", date)
      && h[2].frame == h[3].frame == h[4].frame == RotateByTime(c, "second", date)
      && 0.0 < h[0].src.x < h[1].src.x < s.radius && 0.0 < h[2].src.x < s.radius
      && h[0].dst.x < 0.0 && h[1].dst.x < 0.0 && h[2].dst.x < 0.0
      && h[0].src.y == h[0].dst.y == h[1].src.y == h[1].dst.y == h[2].src.y == h[2].dst.y == 0.0
      && h[3].center == h[2].src
      && h[0].paint == h[1].paint == Named(s.baseColor)
      && h[2].paint == h[3].paint == h[4].paint == Named(s.ssColor)
  {
  }

  /** The colour face's `drawHands`. Each hand, the centre pips and the second
      hand's tip take the table row of their own reading; the second is looked up
      with unit "minute", which yields the same angle. */
  function ColorHands(s: ColorStyle, c: Canvas, date: Date): (shapes: seq<Shape>)
    ensures |shapes| == 7
    ensures shapes[0].paint == TableCell(5 * ((date.Hours() % 12 + 9) % 12), s.colorScheme)
    ensures shapes[1].paint == TableCell((date.Minutes() + 45) % 60, s.colorScheme)
    ensures shapes[2].Disc? && shapes[2].paint == shapes[1].paint
    ensures shapes[3].paint == TableCell((date.Seconds() + 45) % 60, s.colorScheme)
    ensures shapes[4].Disc? && shapes[4].paint == shapes[3].paint
    ensures shapes[5].Disc? && shapes[5].paint == Named("#fff")
    ensures shapes[6].Disc? && shapes[6].paint == shapes[3].paint
  {
    var hh := date.Hours() % 12;
    var mm := date.Minutes();
    var ss := date.Seconds();
    var hRow := HandRow("hour", hh);
    var mRow := HandRow("minute", mm);
    var sRow := HandRow("minute", ss);
    var hf := RotateByTime(c, "hour", date);
    var mf := RotateByTime(c, "minute", date);
    var sf := RotateByTime(c, "second", date);
    [ Line(hf, Coord(s.hrLength, 0.0), Coord(0.0, 0.0), s.hrLineWidth, s.lineCap, TableCell(hRow, s.colorScheme)),
      Line(mf, Coord(s.mmLength, 0.0), Coord(0.0, 0.0), s.mmLineWidth, s.lineCap, TableCell(mRow, s.colorScheme)),
      Disc(Centre(c), Coord(0.0, 0.0), s.mmCenterRadius, TableCell(mRow, s.colorScheme)),
      Line(sf, Coord(s.ssLength, 0.0), Coord(-s.ssLength * 0.2, 0.0), s.ssLineWidth, s.lineCap,
           TableCell(sRow, s.colorScheme)),
      Disc(sf, Coord(s.ssLength, 0.0), s.tipOuterRadius, TableCell(sRow, s.colorScheme)),
      Disc(sf, Coord(s.ssLength, 0.0), s.tipInnerRadius, Named("#fff")),
      Disc(Centre(c), Coord(0.0, 0.0), s.ssCenterRadius, TableCell(sRow, s.colorScheme)) ]
  }

  /** A drawer's `drawTimeMarks`. */
  function DrawTimeMarks(d: Drawer, trig: Trig): seq<Shape>
  {
    match d.face
    case Swiss(s) => SwissMarksFrom(s, d.canvas, trig, 0)
    case ColorCircles(s) => if |s.majorMarkTexts| == 12 then ColorMarksFrom(s, d.canvas, trig, 0) else []
  }

  /** A drawer's `drawHands`. */
  function DrawHands(d: Drawer, date: Date): seq<Shape>
  {
    match d.face
    case Swiss(s) => SwissHands(s, d.canvas, date)
    case ColorCircles(s) => ColorHands(s, d.canvas, date)
  }
}

=== FILE: clock_math.dfy ===
/** The `_math` helper of clock/clock.js: unit conversion between degrees and
    radians, the time-to-dial-angle map and the point on a circle.
    Math.PI, Math.cos and Math.sin are not computed here: callers pass π (any
    positive real) and the two trigonometric functions as parameters. */
module ClockMath {
  import opened Wrappers

  /** `d2r`: degrees to radians. */
  function D2R(degree: real, pi: real): real
  {
    degree * pi / 180.0
  }

  /** `r2d`: radians to degrees. */
  function R2D(radians: real, pi: real): real
    requires pi != 0.0
  {
    radians * 180.0 / pi
  }

  /** In exact arithmetic the two conversions undo each other, whatever positive
      value π has. */
  lemma DegreeRadianRoundTrip(d: real, r: real, pi: real)
    requires pi > 0.0
    ensures R2D(D2R(d, pi), pi) == d
    ensures D2R(R2D(r, pi), pi) == r
  {
    assert D2R(d, pi) * 180.0 == d * pi;
    assert R2D(r, pi) * pi == r * 180.0;
  }

  /** `t2d`: the dial angle of an hour (0..11) or of a minute or second (0..59),
      measured clockwise from the 3 o'clock position; `None` (the source's null)
      for an unknown unit or a value out of range. */
  function T2D(timeBase: string, t: int): (r: Option<int>)
    ensures r.Some? <==> (|| (timeBase == "hour" && 0 <= t <= 11)
                          || ((timeBase == "minute" || timeBase == "second") && 0 <= t <= 59))
    ensures timeBase == "hour" && r.Some? ==>
              r.value == 30 * ((t + 9) % 12) && 0 <= r.value <= 330 && (r.value == 0 <==> t == 3)
    ensures timeBase != "hour" && r.Some? ==>
              r.value == 6 * ((t + 45) % 60) && 0 <= r.value <= 354 && (r.value == 0 <==> t == 15)
  {
    if timeBase == "hour" && 0 <= t <= 11 then
      // the dial's 0 is at hour 3, so hours below 3 go round once more first
      var u := if t < 3 then t + 12 else t;
      Some(30 * (u - 3))
    else if (timeBase == "minute" || timeBase == "second") && 0 <= t <= 59 then
      var u := if t < 15 then t + 60 else t;
      Some(6 * (u - 15))
    else
      None
  }

  /** The hour whose dial angle is `30 * k`: position k counted clockwise from 3 o'clock. */
  function DialHour(k: int): int
  {
    (k + 3) % 12
  }

  /** Each of the twelve hour positions is the angle of exactly one hour. */
  lemma HourDialBijective(k: int, h: int)
    requires 0 <= k < 12 && 0 <= h <= 11
    ensures T2D("hour", DialHour(k)) == Some(30 * k)
    ensures T2D("hour", h) == Some(30 * k) <==> h == DialHour(k)
  {
  }

  /** A point relative to a circle's centre. */
  datatype Coord = Coord(x: real, y: real)

  /** `getCoordByRadians`: the point at angle `radians` on the circle of radius
      `radius` centred at the origin. */
  function CoordByRadians(radians: real, radius: real, cos: real -> real, sin: real -> real): Coord
  {
    Coord(cos(radians) * radius, sin(radians) * radius)
  }

  /** Wherever cos and sin satisfy the Pythagorean identity, the point lies at
      distance `radius` from the centre. */
  lemma CoordOnCircle(radians: real, radius: real, cos: real -> real, sin: real -> real)
    requires cos(radians) * cos(radians) + sin(radians) * sin(radians) == 1.0
    ensures var c := CoordByRadians(radians, radius, cos, sin);
      c.x * c.x + c.y * c.y == radius * radius
  {
    var c := CoordByRadians(radians, radius, cos, sin);
    calc {
      c.x * c.x + c.y * c.y;
      (cos(radians) * cos(radians) + sin(radians) * sin(radians)) * (radius * radius);
      radius * radius;
    }
  }
}

=== FILE: cookies.dfy ===
/** utilities/cookies.js: the `document.cookie` writer `set`, the reader `list`
    with its own trim, `get` and `remove`. The browser's cookie store is outside
    the model: `Set` yields the string assigned to `document.cookie`, and `List`
    reads the string `document.cookie` yields. `encodeURIComponent`,
    `decodeURIComponent`, number-to-string conversion and the expiry date text
    are given as functions. */
module Cookies {
  import opened Wrappers
  import opened JsValues
  import opened JsStrings

  /** The URI component codec; decoding fails (a `URIError`) on a malformed escape. */
  datatype Codec = Codec(enc: string -> string, dec: string -> Option<string>)

  /** What `set` needs besides its arguments: the codec, how a number value
      prints, and `toUTCString` of the date `expires` days from now. */
  datatype Env = Env(codec: Codec, numberText: JsNum -> string, expiryText: JsNum -> string)

  /** Decoding undoes encoding. */
  ghost predicate Inverse(c: Codec)
  {
    forall x :: c.dec(c.enc(x)) == Some(x)
  }

  /** Free of white space and of the separators `;` and `=`. */
  predicate Plain(s: string)
  {
    forall i :: 0 <= i < |s| ==> !IsSpace(s[i]) && s[i] != ';' && s[i] != '='
  }

  /** Encoded text is always plain, as `encodeURIComponent` output is. */
  ghost predicate EncodesPlain(c: Codec)
  {
    forall x :: Plain(c.enc(x))
  }

  predicate NoSemicolon(s: string)
  {
    forall i :: 0 <= i < |s| ==> s[i] != ';'
  }

  /** The text a cookie value is encoded from: strings as they are, numbers printed. */
  function ValueText(value: JsVal, env: Env): string
    requires value.Str? || value.Num?
  {
    if value.Str? then value.s else env.numberText(value.n)
  }

  /** The attribute segments `set` appends, in the order it appends them. */
  function Attributes(expires: JsVal, path: JsVal, domain: JsVal, secure: JsVal, env: Env): seq<string>
  {
    (if TypeOf(expires) == "number" then ["expires=" + env.expiryText(expires.n)] else [])
    + (if TypeOf(path) == "string" then ["path=" + path.s] else [])
    + (if TypeOf(domain) == "string" then ["domain=" + domain.s] else [])
    + (if secure == Bool(true) then ["secure"] else [])
  }

  /** `set(name, value, expires, path, domain, secure)`: None is the `false`
      answer, given when the name is not a string or the value neither a string
      nor a number, and nothing is written; otherwise the cookie string written,
      the encoded pair with each attribute appended after a `;`. */
  function Set(name: JsVal, value: JsVal, expires: JsVal, path: JsVal, domain: JsVal, secure: JsVal, env: Env)
    : (r: Option<string>)
    ensures r.None? <==> !(TypeOf(name) == "string" && (TypeOf(value) == "string" || TypeOf(value) == "number"))
    ensures r.Some? ==>
              var head := env.codec.enc(name.s) + "=" + env.codec.enc(ValueText(value, env));
              |head| <= |r.value| && r.value[..|head|] == head
  {
    if TypeOf(name) != "string" || (TypeOf(value) != "string" && TypeOf(value) != "number") then None
    else
      var head := env.codec.enc(name.s) + "=" + env.codec.enc(ValueText(value, env));
      Some(Join([head] + Attributes(expires, path, domain, secure, env), ";"))
  }

  /** When no segment holds a `;`, the written cookie splits on `;` into the
      encoded `name=value` pair followed by exactly the attributes given, in the
      order expires, path, domain, secure. */
  lemma SetSegments(name: JsVal, value: JsVal, expires: JsVal, path: JsVal, domain: JsVal, secure: JsVal, env: Env)
    requires TypeOf(name) == "string" && (TypeOf(value) == "string" || TypeOf(value) == "number")
    requires EncodesPlain(env.codec)
    requires forall i :: 0 <= i < |Attributes(expires, path, domain, secure, env)| ==>
               NoSemicolon(Attributes(expires, path, domain, secure, env)[i])
    ensures var head := env.codec.enc(name.s) + "=" + env.codec.enc(ValueText(value, env));
            Split(Set(name, value, expires, path, domain, secure, env).value, ";")
              == [head] + Attributes(expires, path, domain, secure, env)
  {
    var head := env.codec.enc(name.s) + "=" + env.codec.enc(ValueText(value, env));
    var attrs := Attributes(expires, path, domain, secure, env);
    var segs := [head] + attrs;
    assert NoSemicolon(head) by {
      var n := env.codec.enc(name.s);
      var v := env.codec.enc(ValueText(value, env));
      assert Plain(n) && Plain(v);
      ConcatNoSemicolon(n, "=");
      ConcatNoSemicolon(n + "=", v);
    }
    forall i, j | 0 <= i < |segs| && 0 <= j < |segs[i]| ensures segs[i][j] != ';' {
      if i > 0 {
        assert segs[i] == attrs[i - 1];
        assert NoSemicolon(attrs[i - 1]);
      }
    }
    SplitJoin(segs, ';');
  }

  /** `remove(name, path, domain)`: `set` with an empty value, `expires` of -365
      days and no `secure` flag. */
  function Remove(name: JsVal, path: JsVal, domain: JsVal, env: Env): (r: Option<string>)
    ensures r.Some? <==> TypeOf(name) == "string"
  {
    Set(name, Str(""), Num(Fin(-365.0)), path, domain, Undefined, env)
  }

  /** For a string name, the cookie `remove` writes is the name with an empty
      value, then an expiry 365 days back, then the path and domain given, and
      never the secure flag. */
  lemma RemoveWritesExpiredEmpty(name: JsVal, path: JsVal, domain: JsVal, env: Env)
    requires TypeOf(name) == "string" && EncodesPlain(env.codec)
    requires NoSemicolon(env.expiryText(Fin(-365.0)))
    requires TypeOf(path) == "string" ==> NoSemicolon(path.s)
    requires TypeOf(domain) == "string" ==> NoSemicolon(domain.s)
    ensures Split(Remove(name, path, domain, env).value, ";")
              == [env.codec.enc(name.s) + "=" + env.codec.enc(""), "expires=" + env.expiryText(Fin(-365.0))]
                 + (if TypeOf(path) == "string" then ["path=" + path.s] else [])
                 + (if TypeOf(domain) == "string" then ["domain=" + domain.s] else [])
  {
    RemoveAttributes(path, domain, env);
    SetSegments(name, Str(""), Num(Fin(-365.0)), path, domain, Undefined, env);
    assert ValueText(Str(""), env) == "";
    ConsAttributes(env.codec.enc(name.s) + "=" + env.codec.enc(""), "expires=" + env.expiryText(Fin(-365.0)),
                   if TypeOf(path) == "string" then ["path=" + path.s] else [],
                   if TypeOf(domain) == "string" then ["domain=" + domain.s] else []);
  }

  lemma ConsAttributes<T>(head: T, e: T, ps: seq<T>, ds: seq<T>)
    ensures [head] + ([e] + ps + ds) == [head, e] + ps + ds
  {
  }

  /** The attributes `remove` passes on: the expiry, then the path and domain
      when they are strings; none holds a `;` when the texts given do not. */
  lemma RemoveAttributes(path: JsVal, domain: JsVal, env: Env)
    requires NoSemicolon(env.expiryText(Fin(-365.0)))
    requires TypeOf(path) == "string" ==> NoSemicolon(path.s)
    requires TypeOf(domain) == "string" ==> NoSemicolon(domain.s)
    ensures var attrs := Attributes(Num(Fin(-365.0)), path, domain, Undefined, env);
      && attrs == ["expires=" + env.expiryText(Fin(-365.0))]
                  + (if TypeOf(path) == "string" then ["path=" + path.s] else [])
                  + (if TypeOf(domain) == "string" then ["domain=" + domain.s] else [])
      && forall i :: 0 <= i < |attrs| ==> NoSemicolon(attrs[i])
  {
    var e := env.expiryText(Fin(-365.0));
    ConcatNoSemicolon("expires=", e);
    var ps := if TypeOf(path) == "string" then ["path=" + path.s] else [];
    var ds := if TypeOf(domain) == "string" then ["domain=" + domain.s] else [];
    if TypeOf(path) == "string" { ConcatNoSemicolon("path=", path.s); }
    if TypeOf(domain) == "string" { ConcatNoSemicolon("domain=", domain.s); }
    var attrs := Attributes(Num(Fin(-365.0)), path, domain, Undefined, env);
    assert attrs == ["expires=" + e] + ps + ds;
    forall i | 0 <= i < |attrs| ensures NoSemicolon(attrs[i]) {
      if i > 0 && i - 1 < |ps| {
        assert attrs[i] == ps[i - 1];
      } else if i > 0 {
        assert attrs[i] == ds[i - 1 - |ps|];
      }
    }
  }

  lemma ConcatNoSemicolon(x: string, y: string)
    requires NoSemicolon(x) && NoSemicolon(y)
    ensures NoSemicolon(x + y)
  {
    forall i | 0 <= i < |x + y| ensures (x + y)[i] != ';' {
      if i >= |x| { assert (x + y)[i] == y[i - |x|]; }
    }
  }

  datatype CookieError = ValueMissing | MalformedEscape

  /** One `name=value` piece of `document.cookie`: split on `=`, both parts
      trimmed and decoded; text after a second `=` is dropped. A piece without
      `=` reads `trim(undefined)` and throws. */
  function ParsePiece(piece: string, c: Codec): (r: Result<(string, string), CookieError>)
    ensures r.Ok? ==> Contains(piece, "=")
    ensures r.Ok? ==> Some(r.value.0) == c.dec(Trim(Split(piece, "=")[0]))
  {
    var parts := Split(piece, "=");
    match c.dec(Trim(parts[0]))
    case None => Err(MalformedEscape)
    case Some(key) =>
      if |parts| < 2 then
        assert parts == [piece];
        Err(ValueMissing)
      else
        match c.dec(Trim(parts[1]))
        case None => Err(MalformedEscape)
        case Some(val) => Ok((key, val))
  }

  /** The parse loop over the `;` pieces, each assignment overwriting an earlier
      one for the same name. */
  function ParsePieces(pieces: seq<string>, acc: map<string, string>, c: Codec): (r: Result<map<string, string>, CookieError>)
    ensures r.Ok? ==> forall i :: 0 <= i < |pieces| ==> Contains(pieces[i], "=")
    decreases |pieces|
  {
    if pieces == [] then Ok(acc)
    else
      match ParsePiece(pieces[0], c)
      case Err(e) => Err(e)
      case Ok((k, v)) =>
        var r := ParsePieces(pieces[1..], acc[k := v], c);
        assert r.Ok? ==> forall i :: 1 <= i < |pieces| ==> pieces[i] == pieces[1..][i - 1];
        r
  }

  /** `list()`: None (null) for an empty `document.cookie`, otherwise the names
      mapped to their values. */
  function List(doc: string, c: Codec): (r: Result<Option<map<string, string>>, CookieError>)
    ensures r == Ok(None) <==> doc == ""
    ensures r.Ok? && doc != "" ==> forall i :: 0 <= i < |Split(doc, ";")| ==> Contains(Split(doc, ";")[i], "=")
  {
    if doc == "" then Ok(None)
    else
      match ParsePieces(Split(doc, ";"), map[], c)
      case Err(e) => Err(e)
      case Ok(m) => Ok(Some(m))
  }

  /** Whatever came before, the last piece decides its name's value. */
  lemma {:induction false} LastPieceWins(pieces: seq<string>, acc: map<string, string>, c: Codec)
    requires |pieces| > 0 && ParsePieces(pieces, acc, c).Ok?
    ensures var last := ParsePiece(pieces[|pieces| - 1], c);
            && last.Ok?
            && last.value.0 in ParsePieces(pieces, acc, c).value
            && ParsePieces(pieces, acc, c).value[last.value.0] == last.value.1
    decreases |pieces|
  {
    var k := ParsePiece(pieces[0], c).value.0;
    var v := ParsePiece(pieces[0], c).value.1;
    if |pieces| > 1 {
      LastPieceWins(pieces[1..], acc[k := v], c);
      assert pieces[1..][|pieces[1..]| - 1] == pieces[|pieces| - 1];
    }
  }

  /** `get(name)`: the value when `list` has a non-empty one for the name, null
      when the name is absent or its value empty; `list`'s errors propagate. */
  function Get(doc: string, name: string, c: Codec): (r: Result<Option<string>, CookieError>)
    ensures r.Err? <==> List(doc, c).Err?
    ensures r.Ok? && r.value.Some? ==>
              && r.value.value != "" && List(doc, c).value.Some?
              && name in List(doc, c).value.value && List(doc, c).value.value[name] == r.value.value
    ensures r.Ok? && r.value.None? ==>
              List(doc, c).value.None? || name !in List(doc, c).value.value || List(doc, c).value.value[name] == ""
  {
    match List(doc, c)
    case Err(e) => Err(e)
    case Ok(None) => Ok(None)
    case Ok(Some(m)) => Ok(if name in m && m[name] != "" then Some(m[name]) else None)
  }

  /** The `name=value` text of one pair. */
  function Pair(p: (string, string), c: Codec): string
  {
    c.enc(p.0) + "=" + c.enc(p.1)
  }

  function Pairs(ps: seq<(string, string)>, c: Codec): (r: seq<string>)
    ensures |r| == |ps|
  {
    if ps == [] then [] else [Pair(ps[0], c)] + Pairs(ps[1..], c)
  }

  /** What `document.cookie` reads as when the pairs were stored: joined by `"; "`. */
  function CookieHeader(ps: seq<(string, string)>, c: Codec): string
  {
    Join(Pairs(ps, c), "; ")
  }

  /** Assigning the pairs one after the other; a later duplicate name wins. */
  function Assign(acc: map<string, string>, ps: seq<(string, string)>): map<string, string>
    decreases |ps|
  {
    if ps == [] then acc else Assign(acc[ps[0].0 := ps[0].1], ps[1..])
  }

  function Indent(qs: seq<string>): (r: seq<string>)
    ensures |r| == |qs| && forall i :: 0 <= i < |qs| ==> r[i] == " " + qs[i]
  {
    if qs == [] then [] else [" " + qs[0]] + Indent(qs[1..])
  }

  /** A `"; "` join is a `;` join of the pieces after the first with a space put
      in front. */
  lemma {:induction false} IndentJoin(qs: seq<string>)
    requires |qs| > 0
    ensures " " + Join(qs, "; ") == Join(Indent(qs), ";")
    decreases |qs|
  {
    if |qs| > 1 {
      IndentJoin(qs[1..]);
      assert Indent(qs)[1..] == Indent(qs[1..]);
      assert " " + Join(qs, "; ") == (" " + qs[0]) + ";" + (" " + Join(qs[1..], "; "));
    }
  }

  /** A string with exactly one separator splits into the text before and after it. */
  lemma SplitOnce(a: string, b: string, sep: char)
    requires forall i :: 0 <= i < |a| ==> a[i] != sep
    requires forall i :: 0 <= i < |b| ==> b[i] != sep
    ensures Split(a + [sep] + b, [sep]) == [a, b]
  {
    var parts := [a, b];
    assert Join(parts, [sep]) == a + [sep] + b;
    SplitJoin(parts, sep);
  }

  /** A padded pair reads back as the decoded pair. */
  lemma ParsePair(pad: string, p: (string, string), c: Codec)
    requires AllSpace(pad) && forall i :: 0 <= i < |pad| ==> pad[i] != '='
    requires Inverse(c) && EncodesPlain(c)
    ensures ParsePiece(pad + Pair(p, c), c) == Ok(p)
  {
    var n := c.enc(p.0);
    var v := c.enc(p.1);
    assert Plain(n) && Plain(v);
    assert c.dec(n) == Some(p.0) && c.dec(v) == Some(p.1);
    PaddedPairParts(pad, n, v);
    AppendAssoc(pad, n + "=", v);
    AppendAssoc(pad, n, "=");
  }

  /** A padded `name=value` of plain texts splits on `=` into the padded name and
      the value, which trim to the name and the value. */
  lemma PaddedPairParts(pad: string, n: string, v: string)
    requires AllSpace(pad) && forall i :: 0 <= i < |pad| ==> pad[i] != '='
    requires Plain(n) && Plain(v)
    ensures Split(pad + n + "=" + v, "=") == [pad + n, v]
    ensures Trim(pad + n) == n && Trim(v) == v
  {
    var key := pad + n;
    forall i | 0 <= i < |key| ensures key[i] != '=' {
      if i >= |pad| {
        assert key[i] == n[i - |pad|];
      }
    }
    assert pad + n + "=" + v == key + ['='] + v;
    SplitOnce(key, v, '=');
    PaddedTrim(pad, n);
    PaddedTrim("", v);
  }

  /** White space before a plain text is trimmed away. */
  lemma PaddedTrim(pad: string, n: string)
    requires AllSpace(pad) && Plain(n)
    ensures Trim(pad + n) == n
  {
    assert pad + n == pad + n + "";
    TrimFrame(pad, n, "");
  }

  lemma {:induction false} ParseIndented(ps: seq<(string, string)>, acc: map<string, string>, c: Codec)
    requires Inverse(c) && EncodesPlain(c)
    ensures ParsePieces(Indent(Pairs(ps, c)), acc, c) == Ok(Assign(acc, ps))
    decreases |ps|
  {
    if ps != [] {
      ParsePair(" ", ps[0], c);
      assert Indent(Pairs(ps, c))[1..] == Indent(Pairs(ps[1..], c));
      ParseIndented(ps[1..], acc[ps[0].0 := ps[0].1], c);
    }
  }

  /** The pieces `list` gets from splitting a stored header on `;`. */
  function Spaced(ps: seq<(string, string)>, c: Codec): seq<string>
    requires |ps| > 0
  {
    var qs := Pairs(ps, c);
    [qs[0]] + Indent(qs[1..])
  }

  lemma HeaderIsSemicolonJoin(ps: seq<(string, string)>, c: Codec)
    requires |ps| > 0
    ensures CookieHeader(ps, c) == Join(Spaced(ps, c), ";")
  {
    var qs := Pairs(ps, c);
    if |qs| > 1 {
      IndentJoin(qs[1..]);
      assert Join(qs, "; ") == qs[0] + ";" + Join(Indent(qs[1..]), ";");
    }
  }

  lemma SpacedPiecesFree(ps: seq<(string, string)>, c: Codec)
    requires |ps| > 0 && EncodesPlain(c)
    ensures forall i, j :: 0 <= i < |Spaced(ps, c)| && 0 <= j < |Spaced(ps, c)[i]| ==> Spaced(ps, c)[i][j] != ';'
  {
    var spaced := Spaced(ps, c);
    forall i, j | 0 <= i < |spaced| && 0 <= j < |spaced[i]| ensures spaced[i][j] != ';' {
      PairsAt(ps, c, i);
      var n := c.enc(ps[i].0);
      var v := c.enc(ps[i].1);
      assert Plain(n) && Plain(v);
      var q := Pair(ps[i], c);
      assert forall k :: 0 <= k < |q| ==> q[k] != ';' by {
        forall k | 0 <= k < |q| ensures q[k] != ';' {
          if k < |n| { assert q[k] == n[k]; }
          else if k > |n| { assert q[k] == v[k - |n| - 1]; }
        }
      }
      if i > 0 {
        assert spaced[i] == " " + q;
      }
    }
  }

  /** Round trip: when decoding undoes encoding and encoded text is plain, the
      stored pairs list back as the map of names to values, a later duplicate
      name overwriting an earlier one. */
  lemma ListRoundTrip(ps: seq<(string, string)>, c: Codec)
    requires |ps| > 0 && Inverse(c) && EncodesPlain(c)
    ensures List(CookieHeader(ps, c), c) == Ok(Some(Assign(map[], ps)))
  {
    var qs := Pairs(ps, c);
    HeaderIsSemicolonJoin(ps, c);
    SpacedPiecesFree(ps, c);
    SplitJoin(Spaced(ps, c), ';');
    assert CookieHeader(ps, c) != "" by {
      PairsAt(ps, c, 0);
      JoinStartsWithFirst(qs, "; ");
    }
    ParsePair("", ps[0], c);
    assert qs[0] == "" + Pair(ps[0], c);
    assert qs[1..] == Pairs(ps[1..], c);
    ParseIndented(ps[1..], map[][ps[0].0 := ps[0].1], c);
  }

  /** A join begins with its first part. */
  lemma JoinStartsWithFirst(parts: seq<string>, sep: string)
    requires |parts| > 0
    ensures |parts[0]| <= |Join(parts, sep)| && Join(parts, sep)[..|parts[0]|] == parts[0]
  {
  }

  lemma {:induction false} PairsAt(ps: seq<(string, string)>, c: Codec, k: nat)
    requires k < |ps|
    ensures Pairs(ps, c)[k] == Pair(ps[k], c)
    decreases k
  {
    if k > 0 {
      PairsAt(ps[1..], c, k - 1);
    }
  }

  /** `get` after storing pairs: a name's last value when it is not empty. */
  lemma GetAfterStore(ps: seq<(string, string)>, c: Codec, name: string)
    requires |ps| > 0 && Inverse(c) && EncodesPlain(c)
    requires name in Assign(map[], ps) && Assign(map[], ps)[name] != ""
    ensures Get(CookieHeader(ps, c), name, c) == Ok(Some(Assign(map[], ps)[name]))
  {
    ListRoundTrip(ps, c);
  }
}

=== FILE: interval_proxy.dfy ===
/** utilities/intervalProxy.js: a table of periodic tasks, each run through
    `setTimeout`, addressed by handles 0, 1, 2, ... that are never reused. The
    timer ids `setTimeout` gives out come from a counter in the table value;
    the rescheduling after each run is outside the model. */
module IntervalProxy {
  import opened JsValues

  /** A task package: its current timer id, interval and task. */
  datatype Entry = Entry(timeout: nat, ms: JsNum, task: JsVal)

  /** `_tasks`: the live packages by handle, the `length` counter, and the next
      timer id the browser hands out. */
  datatype Table = Table(entries: map<int, Entry>, length: nat, nextTimeout: nat)

  /** Every live handle was given out already. */
  predicate Valid(t: Table)
  {
    forall h :: h in t.entries ==> 0 <= h < t.length
  }

  const Empty := Table(map[], 0, 1)

  /** `exist(h)`: whether a package is stored under `h`. */
  predicate Exist(t: Table, h: int)
  {
    h in t.entries
  }

  /** The argument check of `set`: a function, and a number above zero. */
  predicate Acceptable(task: JsVal, ms: JsVal)
  {
    TypeOf(task) == "function" && TypeOf(ms) == "number"
    && ((ms.n.Fin? && ms.n.r > 0.0) || ms.n == Inf(true))
  }

  /** `set(task, millisec)`: with acceptable arguments the package goes under the
      current length, which is returned as the handle, and the length grows by
      one; otherwise it returns false and the table is unchanged. */
  function Set(t: Table, task: JsVal, ms: JsVal): (r: (Table, JsVal))
    requires Valid(t)
    ensures Valid(r.0)
    ensures !Acceptable(task, ms) ==> r == (t, Bool(false))
    ensures Acceptable(task, ms) ==>
              && r.1 == Num(Fin(t.length as real))
              && r.0.length == t.length + 1
              && !Exist(t, t.length) && Exist(r.0, t.length)
              && r.0.entries[t.length].ms == ms.n && r.0.entries[t.length].task == task
              && forall h :: h != t.length ==> (Exist(r.0, h) <==> Exist(t, h)) && (Exist(t, h) ==> r.0.entries[h] == t.entries[h])
  {
    if Acceptable(task, ms) then
      var h := t.length;
      (Table(t.entries[h := Entry(t.nextTimeout, ms.n, task)], t.length + 1, t.nextTimeout + 1), Num(Fin(h as real)))
    else
      (t, Bool(false))
  }

  /** `clear(h)`: for a live handle, cancels its timer (returned as the second
      component), removes only that package and answers true; otherwise answers
      false and changes nothing. The length never goes down. */
  function Clear(t: Table, h: int): (r: (Table, int, bool))
    requires Valid(t)
    ensures Valid(r.0) && r.0.length == t.length
    ensures !Exist(t, h) ==> r == (t, -1, false)
    ensures Exist(t, h) ==>
              && r.2 && !Exist(r.0, h) && r.1 == t.entries[h].timeout
              && forall g :: g != h ==> (Exist(r.0, g) <==> Exist(t, g)) && (Exist(t, g) ==> r.0.entries[g] == t.entries[g])
  {
    if Exist(t, h) then (t.(entries := t.entries - {h}), t.entries[h].timeout as int, true)
    else (t, -1, false)
  }

  /** A call on the proxy. */
  datatype Call = SetCall(task: JsVal, ms: JsVal) | ClearCall(handle: int)

  /** Runs calls in order; collects the handles the successful `set`s return. */
  function Run(t: Table, calls: seq<Call>): (r: (Table, seq<nat>))
    requires Valid(t)
    ensures Valid(r.0) && r.0.length >= t.length
    ensures forall i :: 0 <= i < |r.1| ==> t.length <= r.1[i] < r.0.length
    decreases |calls|
  {
    if calls == [] then (t, [])
    else
      match calls[0]
      case SetCall(task, ms) =>
        var (t', v) := Set(t, task, ms);
        var (t'', hs) := Run(t', calls[1..]);
        if Acceptable(task, ms) then (t'', [t.length] + hs) else (t'', hs)
      case ClearCall(h) =>
        Run(Clear(t, h).0, calls[1..])
  }

  predicate StrictlyIncreasing(s: seq<int>)
  {
    forall i, j :: 0 <= i < j < |s| ==> s[i] < s[j]
  }

  /** Handles are never reused: over any run the handles `set` returns strictly
      increase, even when packages are cleared in between. */
  lemma {:induction false} HandlesIncrease(t: Table, calls: seq<Call>)
    requires Valid(t)
    ensures StrictlyIncreasing(Run(t, calls).1)
    decreases |calls|
  {
    if calls != [] {
      match calls[0]
      case SetCall(task, ms) =>
        var t' := Set(t, task, ms).0;
        HandlesIncrease(t', calls[1..]);
        if Acceptable(task, ms) {
          var rest := Run(t', calls[1..]).1;
          var hs := Run(t, calls).1;
          assert hs == [t.length] + rest;
          assert t'.length == t.length + 1;
          forall i, j | 0 <= i < j < |hs| ensures hs[i] < hs[j] {
            assert hs[j] == rest[j - 1];
            if i > 0 {
              assert hs[i] == rest[i - 1];
            }
          }
        }
      case ClearCall(h) =>
        HandlesIncrease(Clear(t, h).0, calls[1..]);
    }
  }

  /** `exist` is true right after `set` returns a handle and false right after
      `clear` of it. */
  lemma SetThenClear(t: Table, task: JsVal, ms: JsVal)
    requires Valid(t) && Acceptable(task, ms)
    ensures var (t1, v) := Set(t, task, ms);
            var h := t.length;
            && Exist(t1, h)
            && Clear(t1, h).2
            && !Exist(Clear(t1, h).0, h)
            && Clear(t1, h).0.entries == t.entries
  {
  }
}

=== FILE: js_strings.dfy ===
/** String operations of JavaScript that several utilities share: white space and
    trimming, search for a literal substring, `split` with a string separator,
    global and first-match `replace` with a literal pattern. */
module JsStrings {

  /** The characters the class `\s` matches and `String.prototype.trim` strips:
      WhiteSpace and LineTerminator of section 7.2-7.3 of ECMAScript 5.1 together
      with the Unicode space separators. */
  predicate IsSpace(c: char)
  {
    || c == ' ' || c == '\t' || c == '\n' || c == '\r' || c == '\U{000B}' || c == '\U{000C}'
    || c == '\U{00A0}' || c == '\U{1680}' || ('\U{2000}' <= c <= '\U{200A}')
    || c == '\U{2028}' || c == '\U{2029}' || c == '\U{202F}' || c == '\U{205F}'
    || c == '\U{3000}' || c == '\U{FEFF}'
  }

  predicate AllSpace(s: string)
  {
    forall i :: 0 <= i < |s| ==> IsSpace(s[i])
  }

  predicate NoSpace(s: string)
  {
    forall i :: 0 <= i < |s| ==> !IsSpace(s[i])
  }

  /** Length of the white-space run that starts `s`: what the patterns `^\s\s*` and `^\s+` match. */
  function LeadingSpaces(s: string): (n: nat)
    ensures n <= |s|
    ensures forall i :: 0 <= i < n ==> IsSpace(s[i])
    ensures n < |s| ==> !IsSpace(s[n])
  {
    SpaceRunEnd(s, 0)
  }

  /** End of the white-space run of `s` that starts at `i`. */
  function SpaceRunEnd(s: string, i: nat): (n: nat)
    requires i <= |s|
    ensures i <= n <= |s|
    ensures forall j :: i <= j < n ==> IsSpace(s[j])
    ensures n < |s| ==> !IsSpace(s[n])
    decreases |s| - i
  {
    if i < |s| && IsSpace(s[i]) then SpaceRunEnd(s, i + 1) else i
  }

  /** Index at which the white-space run that ends `s` begins: the index a scan
      stepping back from the end stops at. */
  function TrailingStart(s: string): (n: nat)
    ensures n <= |s|
    ensures forall i :: n <= i < |s| ==> IsSpace(s[i])
    ensures 0 < n ==> !IsSpace(s[n - 1])
  {
    SpaceRunStart(s, |s|)
  }

  /** Start of the white-space run of `s` that ends just before `i`. */
  function SpaceRunStart(s: string, i: nat): (n: nat)
    requires i <= |s|
    ensures n <= i
    ensures forall j :: n <= j < i ==> IsSpace(s[j])
    ensures 0 < n ==> !IsSpace(s[n - 1])
  {
    if 0 < i && IsSpace(s[i - 1]) then SpaceRunStart(s, i - 1) else i
  }

  /** Any boundary that has only white space before it and no white space right
      after it is the one `LeadingSpaces` finds. */
  lemma LeadingSpacesUnique(s: string, k: nat)
    requires k <= |s| && (forall i :: 0 <= i < k ==> IsSpace(s[i])) && (k < |s| ==> !IsSpace(s[k]))
    ensures LeadingSpaces(s) == k
  {
    SpaceRunEndUnique(s, 0, k);
  }

  lemma {:induction false} SpaceRunEndUnique(s: string, i: nat, k: nat)
    requires i <= k <= |s| && (forall j :: i <= j < k ==> IsSpace(s[j])) && (k < |s| ==> !IsSpace(s[k]))
    ensures SpaceRunEnd(s, i) == k
    decreases k - i
  {
    if i < k {
      SpaceRunEndUnique(s, i + 1, k);
    }
  }

  /** Any boundary with only white space after it and no white space right before
      it is the one `TrailingStart` finds. */
  lemma TrailingStartUnique(s: string, k: nat)
    requires k <= |s| && (forall i :: k <= i < |s| ==> IsSpace(s[i])) && (0 < k ==> !IsSpace(s[k - 1]))
    ensures TrailingStart(s) == k
  {
    SpaceRunStartUnique(s, |s|, k);
  }

  lemma {:induction false} SpaceRunStartUnique(s: string, i: nat, k: nat)
    requires k <= i <= |s| && (forall j :: k <= j < i ==> IsSpace(s[j])) && (0 < k ==> !IsSpace(s[k - 1]))
    ensures SpaceRunStart(s, i) == k
    decreases i
  {
    if k < i {
      SpaceRunStartUnique(s, i - 1, k);
    }
  }

  /** `String.prototype.trim`: the text between the leading and the trailing
      white-space runs. */
  function Trim(s: string): string
  {
    var t := s[LeadingSpaces(s)..];
    t[..TrailingStart(t)]
  }

  /** What `Trim` leaves: no white space at either end, the text right after the
      leading run, and only white space after it. */
  lemma TrimShape(s: string)
    ensures var r := Trim(s);
      && (|r| > 0 ==> !IsSpace(r[0]) && !IsSpace(r[|r| - 1]))
      && LeadingSpaces(s) + |r| <= |s|
      && r == s[LeadingSpaces(s)..LeadingSpaces(s) + |r|]
      && AllSpace(s[LeadingSpaces(s) + |r|..])
  {
    var a := LeadingSpaces(s);
    var t := s[a..];
    var n := TrailingStart(t);
    SliceOfDrop(s, a, a + n);
    SpaceAfterTrailingStart(s, a);
    if n > 0 {
      assert t[..n][0] == s[a];
      assert t[..n][n - 1] == t[n - 1];
    }
  }

  /** After the leading run is dropped, everything past the trailing start is space. */
  lemma SpaceAfterTrailingStart(s: string, a: nat)
    requires a <= |s|
    ensures AllSpace(s[a + TrailingStart(s[a..])..])
  {
    var t := s[a..];
    var n := TrailingStart(t);
    var u := s[a + n..];
    forall i | 0 <= i < |u| ensures IsSpace(u[i]) {
      assert u[i] == t[n + i];
    }
  }

  /** Surrounding a white-space-free-ended text with white space only is undone by `Trim`. */
  lemma {:induction false} TrimFrame(a: string, m: string, b: string)
    requires AllSpace(a) && AllSpace(b)
    requires |m| > 0 ==> !IsSpace(m[0]) && !IsSpace(m[|m| - 1])
    ensures Trim(a + m + b) == m
  {
    var s := a + m + b;
    if |m| == 0 {
      assert s == a + b;
      assert s[..|s|] == s;
      LeadingSpacesUnique(s, |s|);
      assert Trim(s) == s[|s|..|s|];
    } else {
      assert s[..|a|] == a;
      assert s[|a|] == m[0];
      LeadingSpacesUnique(s, |a|);
      var t := s[|a|..];
      assert t == m + b;
      assert t[|m|..] == b;
      assert t[|m| - 1] == m[|m| - 1];
      TrailingStartUnique(t, |m|);
      assert t[..|m|] == m;
    }
  }

  /** Trimming twice trims no more than trimming once. */
  lemma TrimIdempotent(s: string)
    ensures Trim(Trim(s)) == Trim(s)
  {
    TrimShape(s);
    TrimKeeps(Trim(s));
  }

  /** A string with no white space at either end is its own trim. */
  lemma TrimKeeps(m: string)
    requires |m| > 0 ==> !IsSpace(m[0]) && !IsSpace(m[|m| - 1])
    ensures Trim(m) == m
  {
    assert m == [] + m + [];
    TrimFrame([], m, []);
  }

  /** The trim loop of the cookie parser and of the `String.prototype.trim` polyfills
      in js_libs/ and utilities/: drop the leading run with a regular expression,
      then step an index back from the end while `\s` matches `charAt(--i)`. */
  method TrimByScan(s: string) returns (r: string)
    ensures r == Trim(s)
  {
    var str := s[LeadingSpaces(s)..];
    var i := |str| - 1;
    while 0 <= i && IsSpace(str[i])
      invariant -1 <= i < |str|
      invariant AllSpace(str[i + 1..])
    {
      i := i - 1;
    }
    TrailingStartUnique(str, i + 1);
    r := str[..i + 1];
  }

  /** The polyfill `this.replace(/^\s+|\s+$/g, '')` of browserCompat/: the global
      replacement removes the leading run and, when it does not overlap that match,
      the trailing run, both located in the untouched string. */
  function RegexTrim(s: string): string
  {
    var a := LeadingSpaces(s);
    var b := TrailingStart(s);
    if a < b then s[a..b] else ""
  }

  /** Removing both runs at once agrees with removing one after the other. */
  lemma RegexTrimIsTrim(s: string)
    ensures RegexTrim(s) == Trim(s)
  {
    if LeadingSpaces(s) < TrailingStart(s) {
      RegexTrimInner(s);
    } else {
      RegexTrimBlank(s);
    }
  }

  /** Text between the runs: both matches apply and leave that text. */
  lemma RegexTrimInner(s: string)
    requires LeadingSpaces(s) < TrailingStart(s)
    ensures RegexTrim(s) == Trim(s)
  {
    var a := LeadingSpaces(s);
    var b := TrailingStart(s);
    TrailingStartAfterDrop(s, a);
    SliceOfDrop(s, a, b);
  }

  lemma SliceOfDrop(s: string, a: nat, b: nat)
    requires a <= b <= |s|
    ensures s[a..][..b - a] == s[a..b]
  {
  }

  /** Dropping a prefix that ends before the trailing run moves its start by as much. */
  lemma TrailingStartAfterDrop(s: string, a: nat)
    requires a < TrailingStart(s)
    ensures TrailingStart(s[a..]) == TrailingStart(s) - a
  {
    var b := TrailingStart(s);
    var t := s[a..];
    assert t[b - a..] == s[b..];
    assert t[b - a - 1] == s[b - 1];
    TrailingStartUnique(t, b - a);
  }

  /** White space only: the runs overlap and the whole string goes. */
  lemma RegexTrimBlank(s: string)
    requires LeadingSpaces(s) >= TrailingStart(s)
    ensures RegexTrim(s) == Trim(s)
  {
    TrailingStartPast(s, LeadingSpaces(s));
  }

  /** Past the start of the trailing run only white space is left. */
  lemma TrailingStartPast(s: string, a: nat)
    requires TrailingStart(s) <= a <= |s|
    ensures TrailingStart(s[a..]) == 0
  {
    var t := s[a..];
    forall i | 0 <= i < |t| ensures IsSpace(t[i]) {
      assert t[i] == s[a + i];
    }
    TrailingStartUnique(t, 0);
  }


  /** `p` occurs in `s` at index `j`. */
  predicate OccursAt(s: string, p: string, j: int)
  {
    0 <= j <= |s| - |p| && s[j..j + |p|] == p
  }

  /** `s.indexOf(p)` / `s.search(p)` for a pattern free of regular-expression
      metacharacters: the least index where `p` occurs, else -1. */
  function IndexOf(s: string, p: string): (k: int)
    ensures k == -1 || OccursAt(s, p, k)
    ensures k == -1 ==> forall j :: !OccursAt(s, p, j)
    ensures forall j :: 0 <= j < k ==> !OccursAt(s, p, j)
  {
    IndexFrom(s, p, 0)
  }

  /** The least index from `i` on where `p` occurs, else -1. */
  function IndexFrom(s: string, p: string, i: nat): (k: int)
    ensures k == -1 || (i <= k && OccursAt(s, p, k))
    ensures k == -1 ==> forall j :: i <= j ==> !OccursAt(s, p, j)
    ensures forall j :: i <= j < k ==> !OccursAt(s, p, j)
    decreases |s| + 1 - i
  {
    if i + |p| > |s| then -1
    else if OccursAt(s, p, i) then i
    else IndexFrom(s, p, i + 1)
  }

  predicate Contains(s: string, p: string)
  {
    IndexOf(s, p) >= 0
  }

  /** `s.split(sep)` for a non-empty string separator. */
  function Split(s: string, sep: string): (parts: seq<string>)
    requires |sep| > 0
    ensures |parts| >= 1
    decreases |s|
  {
    var k := IndexOf(s, sep);
    if k < 0 then [s] else [s[..k]] + Split(s[k + |sep|..], sep)
  }

  /** `parts.join(sep)`. */
  function Join(parts: seq<string>, sep: string): string
  {
    if |parts| == 0 then ""
    else if |parts| == 1 then parts[0]
    else parts[0] + sep + Join(parts[1..], sep)
  }

  /** `s.replace(new RegExp(p, "g"), r)` for a pattern free of metacharacters and a
      replacement free of `$` patterns: every non-overlapping match, scanned left to
      right, is replaced. */
  function ReplaceAll(s: string, p: string, r: string): string
    requires |p| > 0
    decreases |s|
  {
    var k := IndexOf(s, p);
    if k < 0 then s else s[..k] + r + ReplaceAll(s[k + |p|..], p, r)
  }

  /** `s.replace(p, r)` with a string pattern: only the first match is replaced. */
  function ReplaceFirst(s: string, p: string, r: string): string
  {
    var k := IndexOf(s, p);
    if k < 0 then s else s[..k] + r + s[k + |p|..]
  }

  /** Splitting on a separator and joining with it gives the string back. */
  lemma {:induction false} JoinSplit(s: string, sep: string)
    requires |sep| > 0
    ensures Join(Split(s, sep), sep) == s
    decreases |s|
  {
    var k := IndexOf(s, sep);
    if k >= 0 {
      SplitStep(s, sep, k);
      var rest := s[k + |sep|..];
      JoinSplit(rest, sep);
      JoinCons(s[..k], Split(rest, sep), sep);
      Rejoin(s, sep, k);
    }
  }

  /** One step of `Split` at the first occurrence `k` of the separator. */
  lemma SplitStep(s: string, sep: string, k: nat)
    requires |sep| > 0 && IndexOf(s, sep) == k
    ensures k + |sep| <= |s|
    ensures Split(s, sep) == [s[..k]] + Split(s[k + |sep|..], sep)
  {
    assert OccursAt(s, sep, k);
  }

  lemma JoinCons(x: string, tail: seq<string>, sep: string)
    requires |tail| > 0
    ensures Join([x] + tail, sep) == x + sep + Join(tail, sep)
  {
    assert ([x] + tail)[1..] == tail;
  }

  /** Cutting a string around an occurrence of `p` and gluing it back. */
  lemma Rejoin(s: string, p: string, k: int)
    requires OccursAt(s, p, k)
    ensures s[..k] + p + s[k + |p|..] == s
  {
  }

  /** No piece of a split contains the separator. */
  lemma {:induction false} SplitPiecesFree(s: string, sep: string)
    requires |sep| > 0
    ensures forall i :: 0 <= i < |Split(s, sep)| ==> !Contains(Split(s, sep)[i], sep)
    decreases |s|
  {
    var k := IndexOf(s, sep);
    if k >= 0 {
      SplitPiecesFree(s[k + |sep|..], sep);
      assert !Contains(s[..k], sep) by {
        if Contains(s[..k], sep) {
          var j := IndexOf(s[..k], sep);
          assert s[..k][j..j + |sep|] == s[j..j + |sep|];
          assert OccursAt(s, sep, j);
        }
      }
    }
  }

  /** A global replacement is a split on the pattern joined with the replacement. */
  lemma {:induction false} ReplaceAllIsJoinOfSplit(s: string, p: string, r: string)
    requires |p| > 0
    ensures ReplaceAll(s, p, r) == Join(Split(s, p), r)
    decreases |s|
  {
    var k := IndexOf(s, p);
    if k >= 0 {
      var rest := s[k + |p|..];
      var t := Split(rest, p);
      ReplaceAllIsJoinOfSplit(rest, p, r);
      assert Split(s, p) == [s[..k]] + t;
      assert ([s[..k]] + t)[1..] == t;
    }
  }

  /** Where a one-character separator first occurs after a piece free of it. */
  lemma IndexOfAfterFreePrefix(x: string, c: char, y: string)
    requires forall i :: 0 <= i < |x| ==> x[i] != c
    ensures IndexOf(x + [c] + y, [c]) == |x|
  {
    var s := x + [c] + y;
    assert s[|x|..|x| + 1] == [c];
    assert OccursAt(s, [c], |x|);
    forall j | 0 <= j < |x|
      ensures !OccursAt(s, [c], j)
    {
      assert s[j..j + 1] == [s[j]];
      assert s[j] == x[j];
    }
  }

  /** Joining pieces free of a one-character separator and splitting on it again
      gives the pieces back. */
  lemma {:induction false} SplitJoin(parts: seq<string>, c: char)
    requires |parts| > 0
    requires forall i, j :: 0 <= i < |parts| && 0 <= j < |parts[i]| ==> parts[i][j] != c
    ensures Split(Join(parts, [c]), [c]) == parts
  {
    if |parts| == 1 {
      var s := parts[0];
      forall j ensures !OccursAt(s, [c], j) {
        if 0 <= j < |s| {
          assert s[j..j + 1] == [s[j]];
          assert parts[0][j] != c;
        }
      }
    } else {
      var rest := Join(parts[1..], [c]);
      assert Join(parts, [c]) == parts[0] + [c] + rest;
      IndexOfAfterFreePrefix(parts[0], c, rest);
      SplitJoin(parts[1..], c);
      var s := parts[0] + [c] + rest;
      assert s[..|parts[0]|] == parts[0];
      assert s[|parts[0]| + 1..] == rest;
      assert parts == [parts[0]] + parts[1..];
    }
  }

  /** The least occurrence is what `IndexOf` finds. */
  lemma IndexOfIsLeast(s: string, p: string, k: int)
    requires OccursAt(s, p, k) && forall j :: 0 <= j < k ==> !OccursAt(s, p, j)
    ensures IndexOf(s, p) == k
  {
    IndexFromIsLeast(s, p, 0, k);
  }

  lemma {:induction false} IndexFromIsLeast(s: string, p: string, i: nat, k: int)
    requires i <= k && OccursAt(s, p, k) && forall j :: i <= j < k ==> !OccursAt(s, p, j)
    ensures IndexFrom(s, p, i) == k
    decreases k - i
  {
    if i < k {
      IndexFromIsLeast(s, p, i + 1, k);
    }
  }

  /** An occurrence in a prefix is an occurrence in the whole string, found first
      when it is the first in the prefix. */
  lemma IndexOfExtend(a: string, x: string, p: string)
    requires IndexOf(a, p) >= 0
    ensures IndexOf(a + x, p) == IndexOf(a, p)
  {
    var k := IndexOf(a, p);
    assert (a + x)[k..k + |p|] == a[k..k + |p|];
    forall j | 0 <= j < k ensures !OccursAt(a + x, p, j) {
      assert !OccursAt(a, p, j);
      if j + |p| <= |a| + |x| {
        assert (a + x)[j..j + |p|] == a[j..j + |p|];
      }
    }
    IndexOfIsLeast(a + x, p, k);
  }

  /** Past a prefix without an occurrence, the search continues in the rest. */
  lemma IndexOfSkip(a: string, b: string, p: string)
    requires forall j :: 0 <= j < |a| ==> !OccursAt(a + b, p, j)
    ensures IndexOf(a + b, p) == (if IndexOf(b, p) < 0 then -1 else |a| + IndexOf(b, p))
  {
    var s := a + b;
    forall k | 0 <= k ensures OccursAt(s, p, |a| + k) <==> OccursAt(b, p, k) {
      if 0 <= k <= |b| - |p| {
        assert s[|a| + k..|a| + k + |p|] == b[k..k + |p|];
      }
    }
    var kb := IndexOf(b, p);
    if kb >= 0 {
      forall j | 0 <= j < |a| + kb ensures !OccursAt(s, p, j) {
        if j >= |a| {
          assert !OccursAt(b, p, j - |a|);
        }
      }
      IndexOfIsLeast(s, p, |a| + kb);
    } else {
      forall j ensures !OccursAt(s, p, j) {
        if j >= |a| {
          assert !OccursAt(b, p, j - |a|);
        }
      }
    }
  }

  /** When the first occurrence lies in the second part, replacing it leaves the
      first part alone. */
  lemma ReplaceFirstAfter(a: string, b: string, p: string, r: string)
    requires IndexOf(b, p) >= 0 && IndexOf(a + b, p) == |a| + IndexOf(b, p)
    ensures ReplaceFirst(a + b, p, r) == a + ReplaceFirst(b, p, r)
  {
    var k := IndexOf(b, p);
    ReplaceFirstAt(b, p, r, k);
    ReplaceFirstSpliced(a, b, p, r, k);
  }

  /** The first replacement, when it falls `k` characters into `b`, spliced after `a`. */
  lemma ReplaceFirstSpliced(a: string, b: string, p: string, r: string, k: nat)
    requires k + |p| <= |b| && IndexOf(a + b, p) == |a| + k
    ensures ReplaceFirst(a + b, p, r) == a + (b[..k] + r + b[k + |p|..])
  {
    ReplaceFirstAt(a + b, p, r, |a| + k);
    SpliceAfter(a, b, k, |p|, r, ReplaceFirst(a + b, p, r), b[..k] + r + b[k + |p|..]);
  }

  /** Replacing at the first occurrence `k` cuts `p` out at `k`. */
  lemma ReplaceFirstAt(s: string, p: string, r: string, k: nat)
    requires IndexOf(s, p) == k
    ensures k + |p| <= |s|
    ensures ReplaceFirst(s, p, r) == s[..k] + r + s[k + |p|..]
  {
    assert OccursAt(s, p, k);
  }

  /** A string that starts with the pattern has that start replaced. */
  lemma ReplaceFirstPrefix(p: string, t: string, r: string)
    ensures ReplaceFirst(p + t, p, r) == r + t
  {
    var s := p + t;
    assert IndexOf(s, p) == 0 by { assert s[..|p|] == p; }
    ReplaceFirstAt(s, p, r, 0);
    assert s[|p|..] == t;
    assert s[..0] == [];
  }

  /** Splicing into the second part of a concatenation. */
  lemma SpliceAfter(a: string, b: string, k: nat, n: nat, r: string, whole: string, part: string)
    requires k + n <= |b|
    requires whole == (a + b)[..|a| + k] + r + (a + b)[|a| + k + n..]
    requires part == b[..k] + r + b[k + n..]
    ensures whole == a + part
  {
    assert (a + b)[..|a| + k] == a + b[..k];
    assert (a + b)[|a| + k + n..] == b[k + n..];
  }

  /** Splitting on a one-character separator splits each side of one of its
      occurrences separately. */
  lemma {:induction false} SplitAround(a: string, c: char, b: string)
    ensures Split(a + [c] + b, [c]) == Split(a, [c]) + Split(b, [c])
    decreases |a|
  {
    var k := IndexOf(a, [c]);
    if k < 0 {
      SplitAroundFree(a, c, b);
    } else {
      assert k < |a| by { assert OccursAt(a, [c], k); }
      SplitAround(a[k + 1..], c, b);
      SplitAroundAt(a, c, b, k);
    }
  }

  /** The step of `SplitAround` past a separator inside the left side. */
  lemma SplitAroundAt(a: string, c: char, b: string, k: nat)
    requires IndexOf(a, [c]) == k && k < |a|
    requires Split(a[k + 1..] + [c] + b, [c]) == Split(a[k + 1..], [c]) + Split(b, [c])
    ensures Split(a + [c] + b, [c]) == Split(a, [c]) + Split(b, [c])
  {
    var s := a + [c] + b;
    PieceSlices(a, c, b, k);
    IndexOfExtend(a, [c] + b, [c]);
    SplitStep(s, [c], k);
    SplitStep(a, [c], k);
    AppendAssoc([a[..k]], Split(a[k + 1..], [c]), Split(b, [c]));
  }

  lemma PieceSlices(a: string, c: char, b: string, k: nat)
    requires k < |a|
    ensures a + [c] + b == a + ([c] + b)
    ensures (a + [c] + b)[..k] == a[..k]
    ensures (a + [c] + b)[k + 1..] == a[k + 1..] + [c] + b
  {
  }

  lemma AppendAssoc<T>(x: seq<T>, y: seq<T>, z: seq<T>)
    ensures x + (y + z) == x + y + z
  {
  }

  /** Around the first separator, when the left side has none. */
  lemma SplitAroundFree(a: string, c: char, b: string)
    requires IndexOf(a, [c]) < 0
    ensures Split(a + [c] + b, [c]) == [a] + Split(b, [c])
    ensures Split(a, [c]) == [a]
  {
    forall i | 0 <= i < |a| ensures a[i] != c {
      assert a[i..i + 1] == [a[i]];
      assert !OccursAt(a, [c], i);
    }
    IndexOfAfterFreePrefix(a, c, b);
    var s := a + [c] + b;
    assert s[..|a|] == a && s[|a| + 1..] == b;
  }

  /** An ASCII upper-case letter mapped to lower case, as `toLowerCase` does for it. */
  function LowerAscii(c: char): char
  {
    if 'A' <= c <= 'Z' then (c as int + 32) as char else c
  }

  /** `toLowerCase`, for the ASCII letters. */
  function ToLowerAscii(s: string): string
  {
    seq(|s|, i requires 0 <= i < |s| => LowerAscii(s[i]))
  }

  predicate IsDigit(c: char)
  {
    '0' <= c <= '9'
  }

  predicate AllDigits(s: string)
  {
    forall i :: 0 <= i < |s| ==> IsDigit(s[i])
  }

  /** The value of a string of decimal digits (0 for the empty string). */
  function DecimalValue(s: string): nat
    requires AllDigits(s)
  {
    PrefixValue(s, |s|)
  }

  /** The value of the first n digits of `s`. */
  function PrefixValue(s: string, n: nat): nat
    requires n <= |s| && AllDigits(s)
  {
    if n == 0 then 0 else 10 * PrefixValue(s, n - 1) + (s[n - 1] as int - '0' as int)
  }

  /** Strings that agree on their first n digits give those digits the same value. */
  lemma {:induction false} PrefixValueAgree(s: string, t: string, n: nat)
    requires n <= |s| && n <= |t| && AllDigits(s) && AllDigits(t)
    requires s[..n] == t[..n]
    ensures PrefixValue(s, n) == PrefixValue(t, n)
  {
    if n > 0 {
      assert s[n - 1] == s[..n][n - 1] == t[..n][n - 1] == t[n - 1];
      assert s[..n - 1] == s[..n][..n - 1];
      assert t[..n - 1] == t[..n][..n - 1];
      PrefixValueAgree(s, t, n - 1);
    }
  }

  /** The decimal numeral JavaScript prints for a non-negative integer. */
  function NatToString(n: nat): (r: string)
    ensures |r| > 0
  {
    var d := ['0', '1', '2', '3', '4', '5', '6', '7', '8', '9'][n % 10];
    if n < 10 then [d] else NatToString(n / 10) + [d]
  }
  /** A printed numeral is made of digits and reads back as the number. */
  lemma {:induction false} NatToStringValue(n: nat)
    ensures AllDigits(NatToString(n))
    ensures DecimalValue(NatToString(n)) == n
    decreases n
  {
    var t := NatToString(n);
    var d := ['0', '1', '2', '3', '4', '5', '6', '7', '8', '9'][n % 10];
    assert d as int - '0' as int == n % 10;
    if n >= 10 {
      var u := NatToString(n / 10);
      NatToStringValue(n / 10);
      assert t == u + [d];
      assert t[..|u|] == u[..|u|];
      PrefixValueAgree(t, u, |u|);
      assert DecimalValue(t) == 10 * PrefixValue(t, |u|) + (t[|u|] as int - '0' as int);
    } else {
      assert PrefixValue(t, 0) == 0;
    }
  }

  /** Different numbers print differently. */
  lemma NatToStringInjective(m: nat, n: nat)
    requires NatToString(m) == NatToString(n)
    ensures m == n
  {
    NatToStringValue(m);
    NatToStringValue(n);
  }

  /** Index names are distinct and start with a digit. */
  lemma IndexNames()
    ensures forall m: nat, n: nat :: NatToString(m) == NatToString(n) ==> m == n
    ensures forall n: nat :: IsDigit(NatToString(n)[0])
  {
    forall m: nat, n: nat | NatToString(m) == NatToString(n)
      ensures m == n
    {
      NatToStringInjective(m, n);
    }
    forall n: nat
      ensures IsDigit(NatToString(n)[0])
    {
      NatToStringValue(n);
    }
  }
}

=== FILE: js_values.dfy ===
/** The slice of JavaScript's value semantics the modelled utilities depend on:
    numbers with NaN and the infinities, `typeof`, truthiness and `===`. */
module JsValues {

  /** A JavaScript number. Finite values are exact reals; rounding is not modelled. */
  datatype JsNum = Fin(r: real) | Inf(positive: bool) | NaN

  /** A JavaScript value. Functions, arrays and objects carry an identity so that
      `===` can compare them by reference. */
  datatype JsVal =
    | Undefined
    | Null
    | Bool(b: bool)
    | Num(n: JsNum)
    | Str(s: string)
    | Fn(fid: nat)
    | Arr(aid: nat, elems: seq<JsVal>)
    | Obj(oid: nat, fields: map<string, JsVal>)

  /** What a `throw` ends a call with: reading a property of `undefined` or
      `null` throws a TypeError. */
  datatype Thrown = TypeError

  /** ToBoolean: what `if (v)`, `!!v` and `a || b` test. */
  predicate Truthy(v: JsVal)
  {
    match v
    case Undefined => false
    case Null => false
    case Bool(b) => b
    case Num(n) => (n.Fin? && n.r != 0.0) || n.Inf?
    case Str(s) => s != ""
    case _ => true
  }

  /** The string the `typeof` operator yields. */
  function TypeOf(v: JsVal): (t: string)
    ensures t == "undefined" <==> v.Undefined?
    ensures t == "boolean" <==> v.Bool?
    ensures t == "number" <==> v.Num?
    ensures t == "string" <==> v.Str?
    ensures t == "function" <==> v.Fn?
    ensures t == "object" <==> v.Null? || v.Arr? || v.Obj?
  {
    match v
    case Undefined => "undefined"
    case Null => "object"
    case Bool(_) => "boolean"
    case Num(_) => "number"
    case Str(_) => "string"
    case Fn(_) => "function"
    case Arr(_, _) => "object"
    case Obj(_, _) => "object"
  }

  /** `a === b`: NaN equals nothing, objects compare by identity. */
  predicate StrictEquals(a: JsVal, b: JsVal)
  {
    match (a, b)
    case (Undefined, Undefined) => true
    case (Null, Null) => true
    case (Bool(x), Bool(y)) => x == y
    case (Num(x), Num(y)) => x == y && !x.NaN?
    case (Str(x), Str(y)) => x == y
    case (Fn(x), Fn(y)) => x == y
    case (Arr(x, _), Arr(y, _)) => x == y
    case (Obj(x, _), Obj(y, _)) => x == y
    case _ => false
  }

  /** Property read `v[name]` on an object; anything absent reads as undefined. */
  function Get(v: JsVal, name: string): JsVal
  {
    if v.Obj? && name in v.fields then v.fields[name] else Undefined
  }

  /** `a || b`: the first operand when it is truthy, else the second. */
  function Or(a: JsVal, b: JsVal): JsVal
  {
    if Truthy(a) then a else b
  }

  /** The numeric value of a number value, when it is a finite one. */
  predicate IsFiniteNum(v: JsVal)
  {
    v.Num? && v.n.Fin?
  }
}

=== FILE: photo_camera.dfy ===
/** The pure rules of android_libs/PhotoCamera.java: choosing the preview or
    picture size closest to a request, the `CameraOrientation` enum's int
    conversions, and the angle arithmetic of `setOrientationAsScreen`. */
module PhotoCamera {
  import opened Wrappers
  import opened JsValues

  /** An entry of a camera's supported size list. */
  datatype Size = Size(width: int, height: int)

  datatype SizeError = IllegalSize(w: int, h: int) | EmptySizeList

  /** Java's `(float) a / (float) b` for ints: exact on reals when b is not zero,
      signed infinity for a non-zero a over zero, NaN for 0/0. */
  function Quotient(a: int, b: int): (q: JsNum)
    ensures b != 0 ==> q == Fin(a as real / b as real)
    ensures b == 0 ==> (q.NaN? <==> a == 0)
    ensures b == 0 && a != 0 ==> q == Inf(a > 0)
  {
    if b != 0 then Fin(a as real / b as real)
    else if a > 0 then Inf(true)
    else if a < 0 then Inf(false)
    else NaN
  }

  /** IEEE subtraction on the three kinds of float value. */
  function Minus(x: JsNum, y: JsNum): JsNum
  {
    match (x, y)
    case (Fin(a), Fin(b)) => Fin(a - b)
    case (Fin(_), Inf(p)) => Inf(!p)
    case (Inf(p), Fin(_)) => Inf(p)
    case (Inf(p), Inf(q)) => if p != q then Inf(p) else NaN
    case _ => NaN
  }

  /** `Math.abs(x) > t`: any infinity exceeds it, NaN never does. */
  predicate AbsExceeds(x: JsNum, t: real)
  {
    match x
    case Fin(r) => r > t || -r > t
    case Inf(_) => true
    case NaN => false
  }

  const RatioTolerance: real := 0.05

  /** The ratio filter: a size is skipped when its aspect ratio is more than the
      tolerance away from the requested one. */
  predicate RatioSkipped(s: Size, w: int, h: int)
  {
    AbsExceeds(Minus(Quotient(s.width, s.height), Quotient(w, h)), RatioTolerance)
  }

  /** With positive heights the filter is the plain real-number comparison. */
  lemma RatioSkippedOnReals(s: Size, w: int, h: int)
    requires s.height > 0 && h > 0
    ensures var d := s.width as real / s.height as real - w as real / h as real;
            RatioSkipped(s, w, h) <==> (d > RatioTolerance || -d > RatioTolerance)
  {
  }

  /** A 0 by 0 request has a NaN ratio, so no size is ever filtered out. */
  lemma ZeroRequestKeepsEverySize(s: Size)
    ensures !RatioSkipped(s, 0, 0)
  {
  }

  /** How far a size is from the request: `|(sw - w) + (sh - h)|`. */
  function Distance(s: Size, w: int, h: int): nat
  {
    var d := s.width - w + s.height - h;
    if d < 0 then -d else d
  }

  /** Whether size `i` takes part in a pass, with or without the ratio filter. */
  predicate Eligible(sizes: seq<Size>, i: int, w: int, h: int, filtered: bool)
    requires 0 <= i < |sizes|
  {
    !filtered || !RatioSkipped(sizes[i], w, h)
  }

  /** Reference definition of one pass's choice over the first `n` sizes: an
      eligible size of least distance, the lowest such index on a tie. */
  predicate FirstNearest(sizes: seq<Size>, w: int, h: int, filtered: bool, k: int, n: int)
    requires 0 <= n <= |sizes|
  {
    && 0 <= k < n
    && Eligible(sizes, k, w, h, filtered)
    && (forall j :: 0 <= j < n && Eligible(sizes, j, w, h, filtered) ==>
          Distance(sizes[k], w, h) <= Distance(sizes[j], w, h))
    && (forall j :: 0 <= j < k && Eligible(sizes, j, w, h, filtered) ==>
          Distance(sizes[k], w, h) < Distance(sizes[j], w, h))
  }

  /** The choice is unique: ties go to the lowest index. */
  lemma FirstNearestUnique(sizes: seq<Size>, w: int, h: int, filtered: bool, k1: int, k2: int)
    requires FirstNearest(sizes, w, h, filtered, k1, |sizes|)
    requires FirstNearest(sizes, w, h, filtered, k2, |sizes|)
    ensures k1 == k2
  {
  }

  predicate AnyRatioMatch(sizes: seq<Size>, w: int, h: int)
  {
    exists j :: 0 <= j < |sizes| && Eligible(sizes, j, w, h, true)
  }

  /** `getOptimalSize(w, h, sizes)`: a negative dimension and an empty list are
      errors; otherwise the nearest size among those passing the ratio filter,
      or, when none passes, the nearest of all sizes. `index` is the position
      picked (-1 on an error). */
  method GetOptimalSize(w: int, h: int, sizes: seq<Size>) returns (r: Result<Size, SizeError>, index: int)
    ensures w < 0 || h < 0 ==> r == Err(IllegalSize(w, h)) && index == -1
    ensures w >= 0 && h >= 0 && |sizes| == 0 ==> r == Err(EmptySizeList) && index == -1
    ensures w >= 0 && h >= 0 && |sizes| > 0 ==> r.Ok? && 0 <= index < |sizes| && r.value == sizes[index]
    ensures r.Ok? && AnyRatioMatch(sizes, w, h) ==> FirstNearest(sizes, w, h, true, index, |sizes|)
    ensures r.Ok? && !AnyRatioMatch(sizes, w, h) ==> FirstNearest(sizes, w, h, false, index, |sizes|)
  {
    if w < 0 || h < 0 {
      return Err(IllegalSize(w, h)), -1;
    }
    if |sizes| == 0 {
      return Err(EmptySizeList), -1;
    }
    index := NearestPass(sizes, w, h, true);
    if index < 0 {
      index := NearestPass(sizes, w, h, false);
      assert Eligible(sizes, 0, w, h, false);
    }
    r := Ok(sizes[index]);
  }

  /** One loop of `getOptimalSize`: the first size of least distance among those
      taking part, or -1 when none does. */
  method NearestPass(sizes: seq<Size>, w: int, h: int, filtered: bool) returns (index: int)
    ensures index == -1 <==> forall j :: 0 <= j < |sizes| ==> !Eligible(sizes, j, w, h, filtered)
    ensures index != -1 ==> FirstNearest(sizes, w, h, filtered, index, |sizes|)
  {
    // None stands for Float.MAX_VALUE, above every distance.
    var minDiff: Option<nat> := None;
    index := -1;
    var i := 0;
    while i < |sizes|
      invariant 0 <= i <= |sizes|
      invariant index == -1 <==> forall j :: 0 <= j < i ==> !Eligible(sizes, j, w, h, filtered)
      invariant index != -1 ==> FirstNearest(sizes, w, h, filtered, index, i)
      invariant index != -1 ==> minDiff == Some(Distance(sizes[index], w, h))
      invariant index == -1 ==> minDiff.None?
    {
      if Eligible(sizes, i, w, h, filtered) {
        var d := Distance(sizes[i], w, h);
        if minDiff.None? || d < minDiff.value {
          index := i;
          minDiff := Some(d);
        }
      }
      i := i + 1;
    }
  }

  /** The four orientations a camera can have. */
  datatype CameraOrientation = Degree0 | Degree90 | Degree180 | Degree270

  /** `CameraOrientation.fromInt`: null for anything but 0, 90, 180 and 270. */
  function FromInt(i: int): (r: Option<CameraOrientation>)
    ensures r.Some? <==> i in {0, 90, 180, 270}
  {
    match i
    case 0 => Some(Degree0)
    case 90 => Some(Degree90)
    case 180 => Some(Degree180)
    case 270 => Some(Degree270)
    case _ => None
  }

  /** `CameraOrientation.toInt`. */
  function ToInt(o: CameraOrientation): (r: int)
    ensures r in {0, 90, 180, 270}
  {
    match o
    case Degree0 => 0
    case Degree90 => 90
    case Degree180 => 180
    case Degree270 => 270
  }

  /** The two conversions are inverse to each other on the four angles. */
  lemma OrientationRoundTrip(o: CameraOrientation, i: int)
    ensures FromInt(ToInt(o)) == Some(o)
    ensures FromInt(i) == Some(o) <==> ToInt(o) == i
    ensures i in {0, 90, 180, 270} ==> FromInt(i).Some? && ToInt(FromInt(i).value) == i
  {
  }

  /** Java's `a % 360` on ints: the remainder takes the sign of the dividend. */
  function JavaRem360(a: int): (r: int)
    ensures a >= 0 ==> 0 <= r < 360
    ensures a < 0 ==> -360 < r <= 0
    ensures (a - r) % 360 == 0
  {
    if a >= 0 then a % 360 else -((-a) % 360)
  }

  /** `Surface.ROTATION_0` .. `ROTATION_270` are 0 .. 3 and become degrees; any
      other value is kept as it is. */
  function DisplayDegrees(rotation: int): (d: int)
    ensures 0 <= rotation <= 3 ==> d == 90 * rotation
    ensures !(0 <= rotation <= 3) ==> d == rotation
  {
    match rotation
    case 0 => 0
    case 1 => 90
    case 2 => 180
    case 3 => 270
    case _ => rotation
  }

  const CameraFacingFront := 1

  datatype OrientationError = NullOrientation(raw: int)

  /** What `setOrientationAsScreen` sets: the picture rotation written to the
      camera parameters, the tracked display orientation, and the orientation it
      returns. */
  datatype OrientationUpdate = OrientationUpdate(rotation: int, display: Option<CameraOrientation>, returned: CameraOrientation)

  /** The angle arithmetic of `setOrientationAsScreen` for display angle `dr` and
      camera orientation `co`: the picture rotation and the display angle. A front
      camera's display angle compensates the mirror. */
  function AdjustedAngles(dr: int, co: int, front: bool): (r: (int, int))
  {
    var deviceRotation := JavaRem360(360 - dr);
    if front then
      (JavaRem360(co - deviceRotation + 360), JavaRem360(360 - JavaRem360(co + dr)))
    else
      var a := JavaRem360(co + deviceRotation); (a, a)
  }

  /** For right-angle inputs both results are right angles. A back camera gets the
      same angle for both, the camera orientation less the display angle; a front
      camera's two angles are mirror images, the picture rotation being the
      camera orientation plus the display angle. */
  lemma AdjustedAnglesRightAngles(dr: int, co: int, front: bool)
    requires dr in {0, 90, 180, 270} && co in {0, 90, 180, 270}
    ensures var (rot, shown) := AdjustedAngles(dr, co, front);
      && rot in {0, 90, 180, 270} && shown in {0, 90, 180, 270}
      && (!front ==> shown == rot && (rot + dr - co) % 360 == 0)
      && (front ==> (shown + rot) % 360 == 0 && (rot - dr - co) % 360 == 0)
  {
    if front {
      FrontAngles(dr, co);
    } else {
      BackAngles(dr, co);
    }
  }

  lemma BackAngles(dr: int, co: int)
    requires dr in {0, 90, 180, 270} && co in {0, 90, 180, 270}
    ensures var (rot, shown) := AdjustedAngles(dr, co, false);
      && rot in {0, 90, 180, 270} && shown == rot && (rot + dr - co) % 360 == 0
  {
    var d := JavaRem360(360 - dr);
    RemRightAngle(360 - dr);
    RemRightAngle(co + d);
  }

  lemma FrontAngles(dr: int, co: int)
    requires dr in {0, 90, 180, 270} && co in {0, 90, 180, 270}
    ensures var (rot, shown) := AdjustedAngles(dr, co, true);
      && rot in {0, 90, 180, 270} && shown in {0, 90, 180, 270}
      && (shown + rot) % 360 == 0 && (rot - dr - co) % 360 == 0
  {
    var d := JavaRem360(360 - dr);
    RemRightAngle(360 - dr);
    RemRightAngle(co - d + 360);
    RemRightAngle(co + dr);
    RemRightAngle(360 - JavaRem360(co + dr));
  }

  /** Java's remainder by 360 of a non-negative multiple of 90 below two turns
      is a right angle. */
  lemma RemRightAngle(a: int)
    requires 0 <= a < 720 && a % 90 == 0
    ensures JavaRem360(a) in {0, 90, 180, 270}
  {
    var r := if a < 360 then a else a - 360;
    assert JavaRem360(a) == r;
    var k := r / 90;
    assert r == 90 * k && 0 <= k < 4;
  }

  /** `setOrientationAsScreen`, given the display's rotation constant, the
      camera's facing and its raw `CameraInfo.orientation`, and the display
      orientation tracked before. An unknown raw orientation makes `getOrientation`
      null and the call fails with a null dereference. A display angle `fromInt`
      rejects leaves the tracked display orientation as it was. */
  function SetOrientationAsScreen(rotation: int, facing: int, rawOrientation: int, display: Option<CameraOrientation>)
    : (r: Result<OrientationUpdate, OrientationError>)
    ensures r.Err? <==> FromInt(rawOrientation).None?
    ensures r.Ok? ==> r.value.returned == FromInt(rawOrientation).value
    ensures r.Ok? ==> var (rot, shown) := AdjustedAngles(DisplayDegrees(rotation), rawOrientation, facing == CameraFacingFront);
      r.value.rotation == rot && r.value.display == (if FromInt(shown).Some? then FromInt(shown) else display)
  {
    match FromInt(rawOrientation)
    case None => Err(NullOrientation(rawOrientation))
    case Some(o) =>
      var (adjusted, shown) := AdjustedAngles(DisplayDegrees(rotation), ToInt(o), facing == CameraFacingFront);
      var d' := if FromInt(shown).Some? then FromInt(shown) else display;
      Ok(OrientationUpdate(adjusted, d', o))
  }

  /** For the four display rotations Android reports and a known camera
      orientation, the display orientation is always updated, to the angle the
      arithmetic above gives. */
  lemma OrientationAngles(rotation: int, facing: int, o: CameraOrientation, display: Option<CameraOrientation>)
    requires 0 <= rotation <= 3
    ensures var r := SetOrientationAsScreen(rotation, facing, ToInt(o), display);
      && r.Ok?
      && r.value.rotation in {0, 90, 180, 270}
      && r.value.display.Some?
      && (facing != CameraFacingFront ==>
            ToInt(r.value.display.value) == r.value.rotation
            && (r.value.rotation + 90 * rotation - ToInt(o)) % 360 == 0)
      && (facing == CameraFacingFront ==>
            (ToInt(r.value.display.value) + r.value.rotation) % 360 == 0
            && (r.value.rotation - 90 * rotation - ToInt(o)) % 360 == 0)
  {
    var dr := DisplayDegrees(rotation);
    var front := facing == CameraFacingFront;
    assert dr == 90 * rotation;
    KnownOrientationUpdate(rotation, facing, o, display);
    AdjustedAnglesRightAngles(dr, ToInt(o), front);
    var (rot, shown) := AdjustedAngles(dr, ToInt(o), front);
    OrientationRoundTrip(o, shown);
    var r := SetOrientationAsScreen(rotation, facing, ToInt(o), display);
    assert r == Ok(OrientationUpdate(rot, FromInt(shown), o));
    assert ToInt(r.value.display.value) == shown;
  }

  /** For a known camera orientation the update holds the two adjusted angles. */
  lemma KnownOrientationUpdate(rotation: int, facing: int, o: CameraOrientation, display: Option<CameraOrientation>)
    ensures var (rot, shown) := AdjustedAngles(DisplayDegrees(rotation), ToInt(o), facing == CameraFacingFront);
      SetOrientationAsScreen(rotation, facing, ToInt(o), display)
        == Ok(OrientationUpdate(rot, if FromInt(shown).Some? then FromInt(shown) else display, o))
  {
    OrientationRoundTrip(o, ToInt(o));
  }
}

=== FILE: std_utils.dfy ===
/** `formaStr` and the debug-flag objects of js_libs/std.js. The class-list
    functions of the same file are in ClassList. */
module StdUtils {
  import opened Wrappers
  import opened JsValues
  import opened JsStrings

  /** The format item for argument `n`: "{n}". */
  function Placeholder(n: nat): (p: string)
    ensures |p| >= 3 && p[0] == '{' && p[|p| - 1] == '}'
    ensures forall i :: 0 < i < |p| - 1 ==> IsDigit(p[i])
  {
    NatToStringValue(n);
    "{" + NatToString(n) + "}"
  }

  predicate NoBrace(s: string)
  {
    forall i :: 0 <= i < |s| ==> s[i] != '{'
  }

  /** `formaStr(s, args[0], …, args[n-1])`: for i = 1 .. n in ascending order,
      every "{i-1}" of the current string becomes `args[i-1]`. The arguments
      are taken as the strings they convert to. */
  function FormaStr(s: string, args: seq<string>): string
    decreases |args|
  {
    if |args| == 0 then s
    else
      var n := |args| - 1;
      ReplaceAll(FormaStr(s, args[..n]), Placeholder(n), args[n])
  }

  /** The loop of `formaStr`, one regular-expression replacement per argument. */
  method FormaStrLoop(s: string, args: seq<string>) returns (r: string)
    ensures r == FormaStr(s, args)
  {
    r := s;
    var i := 0;
    while i < |args|
      invariant 0 <= i <= |args|
      invariant r == FormaStr(s, args[..i])
    {
      assert args[..i + 1][..i] == args[..i];
      r := ReplaceAll(r, Placeholder(i), args[i]);
      i := i + 1;
    }
    assert args[..|args|] == args;
  }

  /** A replacement finds nothing in a string free of the pattern. */
  lemma ReplaceAllAbsent(s: string, p: string, r: string)
    requires |p| > 0 && !Contains(s, p)
    ensures ReplaceAll(s, p, r) == s
  {
  }

  /** A string with none of the first `|args|` format items comes back unchanged. */
  lemma {:induction false} FormaStrAbsent(s: string, args: seq<string>)
    requires forall j :: 0 <= j < |args| ==> !Contains(s, Placeholder(j))
    ensures FormaStr(s, args) == s
    decreases |args|
  {
    if |args| > 0 {
      var n := |args| - 1;
      FormaStrAbsent(s, args[..n]);
      ReplaceAllAbsent(s, Placeholder(n), args[n]);
    }
  }

  /** A string without '{' contains no pattern that starts with one, in
      particular no format item. */
  lemma NoBraceNoPlaceholder(s: string, p: string)
    requires |p| > 0 && p[0] == '{' && NoBrace(s)
    ensures !Contains(s, p)
  {
    forall j | 0 <= j <= |s| - |p| ensures !OccursAt(s, p, j) {
      NotAtNonBrace(s, p, j);
    }
  }

  /** A string without '{' is left as it is whatever the arguments. */
  lemma FormaStrNoBrace(s: string, args: seq<string>)
    requires NoBrace(s)
    ensures FormaStr(s, args) == s
  {
    forall j | 0 <= j < |args| ensures !Contains(s, Placeholder(j)) {
      NoBraceNoPlaceholder(s, Placeholder(j));
    }
    FormaStrAbsent(s, args);
  }

  /** In `a + "{k}" + b` with no other '{', the only format item present is "{k}". */
  lemma OnlyPlaceholder(a: string, k: nat, b: string, j: nat)
    requires NoBrace(a) && NoBrace(b) && j != k
    ensures !Contains(a + Placeholder(k) + b, Placeholder(j))
  {
    var s := a + Placeholder(k) + b;
    var pj := Placeholder(j);
    forall t | 0 <= t <= |s| - |pj| ensures !OccursAt(s, pj, t) {
      if t == |a| {
        OtherPlaceholderAfter(a, k, b, j);
      } else {
        BraceOnlyAt(a, k, b, t);
        NotAtNonBrace(s, pj, t);
      }
    }
  }

  /** Where "{k}" starts, no other format item starts. */
  lemma OtherPlaceholderAfter(a: string, k: nat, b: string, j: nat)
    requires j != k
    ensures !OccursAt(a + Placeholder(k) + b, Placeholder(j), |a|)
  {
    var s := a + Placeholder(k) + b;
    var pj := Placeholder(j);
    if |a| + |pj| <= |s| {
      assert s[|a|..] == Placeholder(k) + b;
      OtherPlaceholderDiffers(Placeholder(k) + b, k, j);
      assert s[|a|..|a| + |pj|] == (Placeholder(k) + b)[..|pj|];
    }
  }

  /** A pattern that starts with '{' does not occur where there is none. */
  lemma NotAtNonBrace(s: string, p: string, t: nat)
    requires |p| > 0 && p[0] == '{' && (t < |s| ==> s[t] != '{')
    ensures !OccursAt(s, p, t)
  {
    if t + |p| <= |s| {
      assert s[t..t + |p|][0] == s[t];
    }
  }

  /** The only '{' of `a + "{k}" + b` is the one that opens "{k}". */
  lemma BraceOnlyAt(a: string, k: nat, b: string, t: nat)
    requires NoBrace(a) && NoBrace(b)
    requires t < |a + Placeholder(k) + b| && t != |a|
    ensures (a + Placeholder(k) + b)[t] != '{'
  {
    var p := Placeholder(k);
    if t < |a| {
      assert (a + p + b)[t] == a[t];
    } else if t < |a| + |p| {
      assert (a + p + b)[t] == p[t - |a|];
      assert t - |a| == |p| - 1 || IsDigit(p[t - |a|]);
    } else {
      assert (a + p + b)[t] == b[t - |a| - |p|];
    }
  }

  /** A string that starts with "{k}" does not start with "{j}" for another j. */
  lemma OtherPlaceholderDiffers(r: string, k: nat, j: nat)
    requires |r| >= |Placeholder(k)| && r[..|Placeholder(k)|] == Placeholder(k) && j != k
    requires |r| >= |Placeholder(j)|
    ensures r[..|Placeholder(j)|] != Placeholder(j)
  {
    var pk := Placeholder(k);
    var pj := Placeholder(j);
    if |pj| < |pk| {
      assert r[..|pj|][|pj| - 1] == pk[|pj| - 1];
    } else if |pj| > |pk| {
      assert r[..|pj|][|pk| - 1] == pk[|pk| - 1];
    } else {
      NatToStringValue(j);
      NatToStringValue(k);
      assert pj[1..|pj| - 1] == NatToString(j);
      assert pk[1..|pk| - 1] == NatToString(k);
    }
  }

  /** A format item with no argument stays in the result. */
  lemma UnmatchedPlaceholderRemains(a: string, k: nat, b: string, args: seq<string>)
    requires NoBrace(a) && NoBrace(b) && k >= |args|
    ensures FormaStr(a + Placeholder(k) + b, args) == a + Placeholder(k) + b
  {
    forall j | 0 <= j < |args| ensures !Contains(a + Placeholder(k) + b, Placeholder(j)) {
      OnlyPlaceholder(a, k, b, j);
    }
    FormaStrAbsent(a + Placeholder(k) + b, args);
  }

  /** Replacing the one format item of `a + p + b` splices the value in. */
  lemma ReplaceOnly(a: string, p: string, b: string, x: string)
    requires |p| > 0 && p[0] == '{' && NoBrace(a) && NoBrace(b)
    ensures ReplaceAll(a + p + b, p, x) == a + x + b
  {
    var s := a + p + b;
    assert OccursAt(s, p, |a|) by {
      assert s[|a|..|a| + |p|] == p;
    }
    forall j | 0 <= j < |a| ensures !OccursAt(s, p, j) {
      if j <= |s| - |p| {
        assert s[j..j + |p|][0] == a[j];
      }
    }
    IndexOfIsLeast(s, p, |a|);
    assert s[..|a|] == a;
    assert s[|a| + |p|..] == b;
    NoBraceNoPlaceholder(b, p);
    ReplaceAllAbsent(b, p, x);
  }

  /** One argument fills "{0}". */
  lemma FormaStrFill(a: string, b: string, x: string)
    requires NoBrace(a) && NoBrace(b)
    ensures FormaStr(a + Placeholder(0) + b, [x]) == a + x + b
  {
    var s := a + Placeholder(0) + b;
    assert [x][..0] == [];
    assert FormaStr(s, [x]) == ReplaceAll(s, Placeholder(0), x);
    ReplaceOnly(a, Placeholder(0), b, x);
  }

  /** Brace-free strings join into a brace-free string. */
  lemma NoBraceConcat(a: string, b: string)
    requires NoBrace(a) && NoBrace(b)
    ensures NoBrace(a + b)
  {
    forall i | 0 <= i < |a + b| ensures (a + b)[i] != '{' {
      if i < |a| {
        assert (a + b)[i] == a[i];
      } else {
        assert (a + b)[i] == b[i - |a|];
      }
    }
  }

  /** Replacing a pattern that opens with '{' after a brace-free prefix: the
      first match is the one right after the prefix. */
  lemma ReplaceAtFirst(a: string, p: string, rest: string, x: string)
    requires |p| > 0 && p[0] == '{' && NoBrace(a)
    ensures ReplaceAll(a + p + rest, p, x) == a + x + ReplaceAll(rest, p, x)
  {
    var s := a + p + rest;
    assert OccursAt(s, p, |a|) by {
      assert s[|a|..|a| + |p|] == p;
    }
    forall j | 0 <= j < |a| ensures !OccursAt(s, p, j) {
      if j <= |s| - |p| {
        assert s[j..j + |p|][0] == a[j];
      }
    }
    IndexOfIsLeast(s, p, |a|);
    assert s[..|a|] == a;
    assert s[|a| + |p|..] == rest;
  }

  /** Once a step of `formaStr` has left a brace-free string, the later
      arguments change nothing. */
  lemma {:induction false} FormaStrSettles(s: string, args: seq<string>, k: nat, t: string)
    requires k <= |args| && FormaStr(s, args[..k]) == t && NoBrace(t)
    ensures FormaStr(s, args) == t
    decreases |args|
  {
    if |args| == k {
      assert args[..k] == args;
    } else {
      var n := |args| - 1;
      assert args[..n][..k] == args[..k];
      FormaStrSettles(s, args[..n], k, t);
      ItemAbsentKeeps(t, n, args[n]);
    }
  }

  /** Replacing a format item in a brace-free string changes nothing. */
  lemma ItemAbsentKeeps(t: string, n: nat, x: string)
    requires NoBrace(t)
    ensures ReplaceAll(t, Placeholder(n), x) == t
  {
    NoBraceNoPlaceholder(t, Placeholder(n));
    ReplaceAllAbsent(t, Placeholder(n), x);
  }

  /** Argument k fills "{k}": with several arguments, a text `a + "{k}" + b`
      with no `{` in `a` or `b` gets `args[k]` in place of the item. The later
      arguments see no item, as long as `args[k]` brings no brace of its own. */
  lemma FormaStrFillAt(a: string, k: nat, b: string, args: seq<string>)
    requires NoBrace(a) && NoBrace(b) && k < |args| && NoBrace(args[k])
    ensures FormaStr(a + Placeholder(k) + b, args) == a + args[k] + b
  {
    var s := a + Placeholder(k) + b;
    var filled := a + args[k] + b;
    UnmatchedPlaceholderRemains(a, k, b, args[..k]);
    assert args[..k + 1][..k] == args[..k];
    assert FormaStr(s, args[..k + 1]) == ReplaceAll(s, Placeholder(k), args[k]);
    ReplaceOnly(a, Placeholder(k), b, args[k]);
    NoBraceConcat(a, args[k]);
    NoBraceConcat(a + args[k], b);
    FormaStrSettles(s, args, k + 1, filled);
  }

  /** Two format items, as in "{0} can {1}.": each gets its own argument. */
  lemma FormaStrFillTwo(a: string, b: string, c: string, x: string, y: string)
    requires NoBrace(a) && NoBrace(b) && NoBrace(c) && NoBrace(x)
    ensures FormaStr(a + Placeholder(0) + b + Placeholder(1) + c, [x, y]) == a + x + b + y + c
  {
    var rest := b + Placeholder(1) + c;
    var s := a + Placeholder(0) + rest;
    assert a + Placeholder(0) + b + Placeholder(1) + c == s;
    assert [x, y][..1] == [x] && [x][..0] == [];
    assert FormaStr(s, [x]) == ReplaceAll(s, Placeholder(0), x);
    ReplaceAtFirst(a, Placeholder(0), rest, x);
    OnlyPlaceholder(b, 1, c, 0);
    ReplaceAllAbsent(rest, Placeholder(0), x);
    NoBraceConcat(a, x);
    NoBraceConcat(a + x, b);
    AppendAssoc(a + x, b + Placeholder(1), c);
    AppendAssoc(a + x, b, Placeholder(1));
    ReplaceOnly(a + x + b, Placeholder(1), c, y);
  }

  /** Substitution is sequential: when the first argument is "{1}", the second
      argument replaces it. */
  lemma FormaStrSequential(a: string, b: string, x: string)
    requires NoBrace(a) && NoBrace(b)
    ensures FormaStr(a + Placeholder(0) + b, [Placeholder(1), x]) == a + x + b
  {
    var s := a + Placeholder(0) + b;
    var args := [Placeholder(1), x];
    assert args[..1] == [Placeholder(1)];
    FormaStrFill(a, b, Placeholder(1));
    assert FormaStr(s, args) == ReplaceAll(a + Placeholder(1) + b, Placeholder(1), x);
    ReplaceOnly(a, Placeholder(1), b, x);
  }

  /** The shared master flag: `undefined` when constructed with `undefined`,
      otherwise `!!dbg`. */
  function MasterFlag(dbg: JsVal): (m: Option<bool>)
  {
    if dbg == Undefined then None else Some(Truthy(dbg))
  }

  /** A local debug object: its own flag `!!dbg`. Its tag is the `tag`
      argument of `Logged`; `newLocDBG` passes none, so it is `undefined`. */
  function LocalFlag(dbg: JsVal): bool
  {
    Truthy(dbg)
  }

  /** `isDBG()`: a master flag that is set wins, otherwise the local flag. */
  function IsDbg(master: Option<bool>, local: bool): (on: bool)
    ensures master.Some? ==> on == master.value
    ensures master.None? ==> on == local
  {
    if master.Some? then master.value else local
  }

  /** The master flag as it stands after a sequence of `cls_Master_DBG` calls:
      each call overwrites it, and before any call it is `undefined`. */
  function MasterAfter(calls: seq<JsVal>): (m: Option<bool>)
  {
    if |calls| == 0 then None else MasterFlag(calls[|calls| - 1])
  }

  /** The debug mode of a local object: a master constructed with anything but
      `undefined` decides it, whatever the local flag. */
  lemma IsDbgResolution(calls: seq<JsVal>, local: JsVal)
    ensures |calls| == 0 || calls[|calls| - 1] == Undefined ==> IsDbg(MasterAfter(calls), LocalFlag(local)) == Truthy(local)
    ensures |calls| > 0 && calls[|calls| - 1] != Undefined ==>
              IsDbg(MasterAfter(calls), LocalFlag(local)) == Truthy(calls[|calls| - 1])
    ensures |calls| > 0 && calls[|calls| - 1] != Undefined ==>
              forall other :: IsDbg(MasterAfter(calls), LocalFlag(other)) == IsDbg(MasterAfter(calls), LocalFlag(local))
  {
  }

  /** The text `+` makes of a value; the conversion of objects, functions,
      numbers and booleans is the parameter `show`. */
  function ConcatText(v: JsVal, show: JsVal -> string): string
  {
    match v
    case Str(t) => t
    case Undefined => "undefined"
    case Null => "null"
    case _ => show(v)
  }

  /** The text of a local object's tag, `tag || null`. */
  function TagText(tag: JsVal, show: JsVal -> string): string
  {
    ConcatText(if Truthy(tag) then tag else Null, show)
  }

  /** `prependTag(arguments)` as written. `arguments` is never an `Array`, so it
      is replaced by `Array.prototype.slice(args)`: `slice` called on the empty
      `Array.prototype`, which yields `[]`. Writing `args[0]` then reads an
      undefined first element. */
  function PrependTagAsWritten(tag: JsVal, args: seq<JsVal>, show: JsVal -> string): seq<JsVal>
  {
    [Str(TagText(tag, show) + " :: " + ConcatText(Undefined, show))]
  }

  /** `prependTag` with the arguments copied by `Array.prototype.slice.call(args)`:
      the tag goes in front of the first argument. */
  function PrependTag(tag: JsVal, args: seq<JsVal>, show: JsVal -> string): seq<JsVal>
  {
    var first := if |args| > 0 then args[0] else Undefined;
    [Str(TagText(tag, show) + " :: " + ConcatText(first, show))] + (if |args| > 0 then args[1..] else [])
  }

  /** `log`, `warn` and `error` as written: in debug mode the sink receives the
      arguments `prependTag` returns, otherwise nothing is called. */
  function Logged(master: Option<bool>, local: bool, tag: JsVal, args: seq<JsVal>, show: JsVal -> string)
    : (out: Option<seq<JsVal>>)
    ensures out.Some? <==> (if master.Some? then master.value else local)
    ensures out.Some? ==> out.value == [Str(TagText(tag, show) + " :: " + "undefined")]
  {
    if IsDbg(master, local) then Some(PrependTagAsWritten(tag, args, show)) else None
  }

  /** `log`, `warn` and `error` with the corrected `prependTag`. */
  function LoggedCorrected(master: Option<bool>, local: bool, tag: JsVal, args: seq<JsVal>, show: JsVal -> string)
    : (out: Option<seq<JsVal>>)
    ensures out.Some? <==> (if master.Some? then master.value else local)
  {
    if IsDbg(master, local) then Some(PrependTag(tag, args, show)) else None
  }

  /** Whether a local object logs follows the master flag set by the last
      `cls_Master_DBG` call, when that was not `undefined`, and its own flag
      otherwise. */
  lemma LoggedAfterCalls(calls: seq<JsVal>, localDbg: JsVal, tag: JsVal, args: seq<JsVal>, show: JsVal -> string)
    ensures var on := if |calls| > 0 && calls[|calls| - 1] != Undefined then Truthy(calls[|calls| - 1]) else Truthy(localDbg);
      && (Logged(MasterAfter(calls), LocalFlag(localDbg), tag, args, show).Some? <==> on)
      && (LoggedCorrected(MasterAfter(calls), LocalFlag(localDbg), tag, args, show).Some? <==> on)
  {
    IsDbgResolution(calls, localDbg);
  }

  /** As written, the sink receives only "<tag> :: undefined". `newLocDBG`
      passes no tag, so `new cls_Master_DBG(true).newLocDBG().log("started")`
      logs "null :: undefined". */
  lemma LoggedDropsArguments(tag: JsVal, args: seq<JsVal>, show: JsVal -> string)
    ensures Logged(Some(true), false, Undefined, [Str("started")], show) == Some([Str("null :: undefined")])
    ensures forall master, local :: Logged(master, local, tag, args, show).Some? ==>
              |Logged(master, local, tag, args, show).value| == 1
  {
    assert TagText(Undefined, show) == "null";
    assert "null" + " :: " + "undefined" == "null :: undefined";
  }

  /** Corrected, the sink receives every argument, the first one behind the tag:
      the same call logs "null :: started". */
  lemma LoggedCorrectedKeepsArguments(master: Option<bool>, local: bool, tag: JsVal, args: seq<JsVal>,
                                      show: JsVal -> string)
    ensures LoggedCorrected(Some(true), false, Undefined, [Str("started")], show) == Some([Str("null :: started")])
    ensures var out := LoggedCorrected(master, local, tag, args, show);
      out.Some? && |args| > 0 ==>
        && |out.value| == |args|
        && out.value[0] == Str(TagText(tag, show) + " :: " + ConcatText(args[0], show))
        && out.value[1..] == args[1..]
  {
    var one := [Str("started")];
    assert one[1..] == [];
    assert TagText(Undefined, show) == "null";
    assert "null" + " :: " + "started" == "null :: started";
    var logged := [Str("null :: started")];
    assert PrependTag(Undefined, one, show) == logged + [] == logged;
    if |args| > 0 {
      var head := Str(TagText(tag, show) + " :: " + ConcatText(args[0], show));
      assert PrependTag(tag, args, show) == [head] + args[1..];
      assert ([head] + args[1..])[1..] == args[1..];
    }
  }

  /** `test(behavior)` as written: it compares `typeof behavior` with "funciton". */
  predicate TestRunsAsWritten(on: bool, behavior: JsVal)
  {
    on && TypeOf(behavior) == "funciton"
  }

  /** `test(behavior)` with the type name spelled "function". */
  predicate TestRunsCorrected(on: bool, behavior: JsVal)
  {
    on && TypeOf(behavior) == "function"
  }

  /** No value has type "funciton", so the behaviour never runs. */
  lemma TestNeverRuns(on: bool, behavior: JsVal)
    ensures !TestRunsAsWritten(on, behavior)
  {
    assert "funciton"[4] != "function"[4];
    match behavior
    case Fn(_) =>
      assert TypeOf(behavior) != "funciton" by {
        assert TypeOf(behavior)[4] == 't';
        assert "funciton"[4] == 'i';
      }
    case _ =>
  }

  /** Corrected, the behaviour runs exactly when debugging and it is a function. */
  lemma TestRunsOnFunctions(on: bool, behavior: JsVal)
    ensures TestRunsCorrected(on, behavior) <==> on && behavior.Fn?
  {
  }
}

=== FILE: stocks.dfy ===
/** The data side of stocks.js: the broker rows read from a table, the
    per-agency maps built from them, the monthly and weekly reports that merge
    them, and the ratio cells that compare a long-term and a short-term gap. */
module Stocks {
  import opened Wrappers
  import opened JsValues

  /** One parsed row of a broker table: agency name, shares bought and sold,
      their difference (the gap) and the average price. */
  datatype Stock = Stock(agency: string, buy: int, sell: int, gap: int, price: real)

  datatype Color = Red | Green

  /** A ratio cell: left as it is, or given a colour (possibly none) and the
      number written into it, `ratio * 100`. */
  datatype RatioCell = Untouched | Filled(color: Option<Color>, percent: JsNum)

  function Abs(x: real): real
  {
    if x < 0.0 then -x else x
  }

  /** `_formatRatioCell(tr, css, long, short)`. A missing gap (the " " placeholder)
      leaves the cell untouched. Same signs give the ratio short/long, opposite
      signs `-short / (long - short)`; the colour is red for positive and green
      for negative short-term gaps. A zero gap assigns neither, so the cell gets
      no colour and the number NaN. */
  function FormatRatioCell(long: Option<int>, short: Option<int>): (c: RatioCell)
    ensures c == Untouched <==> long.None? || short.None?
    ensures c.Filled? && (long.value == 0 || short.value == 0) ==> c.color.None? && c.percent == NaN
    ensures c.Filled? && long.value != 0 && short.value != 0 ==>
              c.color == Some(if short.value > 0 then Red else Green)
  {
    if long.None? || short.None? then Untouched
    else
      var l := long.value as real;
      var s := short.value as real;
      if l > 0.0 && s > 0.0 then Filled(Some(Red), Fin(s / l * 100.0))
      else if l > 0.0 && s < 0.0 then Filled(Some(Green), Fin(-1.0 * s / (l - s) * 100.0))
      else if l < 0.0 && s > 0.0 then Filled(Some(Red), Fin(-1.0 * s / (l - s) * 100.0))
      else if l < 0.0 && s < 0.0 then Filled(Some(Green), Fin(s / l * 100.0))
      else Filled(None, NaN)
  }

  /** Same signs: the cell shows |short| / |long| as a percentage, a positive number. */
  lemma RatioSameSign(long: int, short: int)
    requires (long > 0 && short > 0) || (long < 0 && short < 0)
    ensures var c := FormatRatioCell(Some(long), Some(short));
      && c.percent == Fin(Abs(short as real) / Abs(long as real) * 100.0)
      && c.percent.r > 0.0
  {
    var l := long as real;
    var s := short as real;
    if l < 0.0 {
      NegateBoth(s, l);
    }
    assert Abs(s) / Abs(l) > 0.0;
  }

  /** Negating dividend and divisor leaves a quotient unchanged. */
  lemma NegateBoth(a: real, b: real)
    requires b != 0.0
    ensures a / b == (-a) / (-b)
  {
    var q := a / b;
    assert q * b == a;
    assert q * (-b) == -a;
  }

  /** Opposite signs: the cell shows |short| / (|long| + |short|), strictly
      between 0 and 100 per cent. */
  lemma RatioOppositeSign(long: int, short: int)
    requires (long > 0 && short < 0) || (long < 0 && short > 0)
    ensures var c := FormatRatioCell(Some(long), Some(short));
      && c.percent == Fin(Abs(short as real) / (Abs(long as real) + Abs(short as real)) * 100.0)
      && 0.0 < c.percent.r < 100.0
  {
    var l := long as real;
    var s := short as real;
    var q := Abs(s) / (Abs(l) + Abs(s));
    if l > 0.0 {
      assert -1.0 * s / (l - s) == q;
    } else {
      assert -1.0 * s / (l - s) == s / (s - l) == q;
    }
    assert 0.0 < q < 1.0 by {
      assert Abs(s) < Abs(l) + Abs(s);
    }
  }

  /** The map `createMapFromArray` builds, as its entries in insertion order;
      each value is a row and its key is the row's agency. */
  type AgencyMap = seq<Stock>

  predicate DistinctAgencies(m: AgencyMap)
  {
    forall i, j :: 0 <= i < j < |m| ==> m[i].agency != m[j].agency
  }

  function Agencies(m: seq<Stock>): (keys: seq<string>)
    ensures |keys| == |m| && forall i :: 0 <= i < |m| ==> keys[i] == m[i].agency
  {
    seq(|m|, i requires 0 <= i < |m| => m[i].agency)
  }

  /** The position of an agency in the map, -1 when absent. */
  function Find(m: AgencyMap, a: string): (k: int)
    ensures -1 <= k < |m|
    ensures k == -1 <==> forall i :: 0 <= i < |m| ==> m[i].agency != a
    ensures k >= 0 ==> m[k].agency == a
  {
    if |m| == 0 then -1
    else if m[0].agency == a then 0
    else
      var k := Find(m[1..], a);
      if k < 0 then -1 else k + 1
  }

  /** `map.get(a)`, with `undefined` as None. */
  function Lookup(m: AgencyMap, a: string): (r: Option<Stock>)
    ensures r.Some? ==> r.value.agency == a && r.value in m
    ensures r.None? <==> a !in Agencies(m)
  {
    var k := Find(m, a);
    if k < 0 then None else Some(m[k])
  }

  /** `map.set(d.agency, d)`: a present key keeps its place and takes the new
      value, a new key goes last. */
  function MapSet(m: AgencyMap, d: Stock): (r: AgencyMap)
    requires DistinctAgencies(m)
    ensures DistinctAgencies(r)
  {
    var k := Find(m, d.agency);
    if k < 0 then m + [d] else m[k := d]
  }

  /** `createMapFromArray(data)`: every row set in turn. */
  function CreateMapFromArray(data: seq<Stock>): (m: AgencyMap)
    ensures DistinctAgencies(m)
  {
    if |data| == 0 then [] else MapSet(CreateMapFromArray(data[..|data| - 1]), data[|data| - 1])
  }

  /** The last row of `data` for an agency: the one a map built by repeated `set` keeps. */
  function LastWith(data: seq<Stock>, a: string): Option<Stock>
  {
    if |data| == 0 then None
    else if data[|data| - 1].agency == a then Some(data[|data| - 1])
    else LastWith(data[..|data| - 1], a)
  }

  /** Each name once, in the order it first appears. */
  function FirstOccurrences(xs: seq<string>): seq<string>
  {
    if |xs| == 0 then []
    else
      var p := FirstOccurrences(xs[..|xs| - 1]);
      if xs[|xs| - 1] in p then p else p + [xs[|xs| - 1]]
  }

  /** In a map with distinct keys the lookup finds the one entry with that key. */
  lemma LookupAt(m: AgencyMap, i: int)
    requires DistinctAgencies(m) && 0 <= i < |m|
    ensures Lookup(m, m[i].agency) == Some(m[i])
  {
    var k := Find(m, m[i].agency);
    assert k >= 0 && m[k].agency == m[i].agency;
  }

  /** Setting a row changes the lookup of its agency and nothing else. */
  lemma LookupSet(m: AgencyMap, d: Stock, a: string)
    requires DistinctAgencies(m)
    ensures Lookup(MapSet(m, d), a) == if a == d.agency then Some(d) else Lookup(m, a)
  {
    var r := MapSet(m, d);
    var k := Find(m, d.agency);
    if a == d.agency {
      if k < 0 {
        LookupAt(r, |m|);
      } else {
        LookupAt(r, k);
      }
    } else {
      var j := Find(m, a);
      if j >= 0 {
        LookupAt(m, j);
        LookupAt(r, j);
      } else {
        assert a !in Agencies(r) by {
          forall i | 0 <= i < |r| ensures r[i].agency != a {
            if i < |m| && i != k {
              assert r[i] == m[i];
            }
          }
        }
      }
    }
  }

  /** The last row for an agency wins. */
  lemma {:induction false} CreateMapLookup(data: seq<Stock>, a: string)
    ensures Lookup(CreateMapFromArray(data), a) == LastWith(data, a)
    decreases |data|
  {
    if |data| > 0 {
      var n := |data| - 1;
      CreateMapLookup(data[..n], a);
      LookupSet(CreateMapFromArray(data[..n]), data[n], a);
    }
  }

  /** An agency has a row in the map exactly when some input row names it. */
  lemma {:induction false} LastWithPresent(data: seq<Stock>, a: string)
    ensures LastWith(data, a).Some? <==> exists i :: 0 <= i < |data| && data[i].agency == a
    decreases |data|
  {
    if |data| > 0 {
      var n := |data| - 1;
      LastWithPresent(data[..n], a);
      if data[n].agency != a {
        assert (exists i :: 0 <= i < |data| && data[i].agency == a) <==>
               (exists i :: 0 <= i < n && data[..n][i].agency == a);
      }
    }
  }

  /** Setting a row keeps the key order, adding a new key at the end. */
  lemma AgenciesSet(m: AgencyMap, d: Stock)
    requires DistinctAgencies(m)
    ensures Agencies(MapSet(m, d)) ==
              if d.agency in Agencies(m) then Agencies(m) else Agencies(m) + [d.agency]
  {
  }

  /** The keys come in the order their agencies first appear in the input. */
  lemma {:induction false} CreateMapOrder(data: seq<Stock>)
    ensures Agencies(CreateMapFromArray(data)) == FirstOccurrences(Agencies(data))
    decreases |data|
  {
    if |data| > 0 {
      var n := |data| - 1;
      CreateMapOrder(data[..n]);
      AgenciesSet(CreateMapFromArray(data[..n]), data[n]);
      assert Agencies(data)[..n] == Agencies(data[..n]);
    }
  }

  /** The loop of `_parseSourceList`: at most 25 rows, and never the table's
      last row. The cell parsing is done by the caller. */
  method ParseSourceList(trs: seq<Stock>) returns (data: seq<Stock>)
    ensures |data| == if |trs| <= 1 then 0 else if |trs| - 1 < 25 then |trs| - 1 else 25
    ensures data == trs[..|data|]
    ensures |trs| > 0 ==> |data| < |trs|
  {
    data := [];
    var i, j := 0, 25;
    while i < |trs| - 1 && j > 0
      invariant 0 <= i && i + j == 25 && j >= 0
      invariant i <= |trs| - 1 || i == 0
      invariant data == trs[..i]
    {
      data := data + [trs[i]];
      i, j := i + 1, j - 1;
    }
  }

  /** `weeklyBuySide.get(a) || weeklySellSide.get(a)`: rows are objects, so a
      buy-side row is taken when there is one. */
  function BuyFirst(buy: AgencyMap, sell: AgencyMap, a: string): Option<Stock>
  {
    if Lookup(buy, a).Some? then Lookup(buy, a) else Lookup(sell, a)
  }

  function GapOf(d: Option<Stock>): Option<int>
  {
    if d.Some? then Some(d.value.gap) else None
  }

  function PriceOf(d: Option<Stock>): Option<real>
  {
    if d.Some? then Some(d.value.price) else None
  }

  /** A row of the monthly report, with the three ratio cells of `appendStock`:
      month against week, week against day and month against day. */
  datatype MonthlyRow = MonthlyRow(agency: string, monGap: int, monPrice: real,
                                   weekGap: Option<int>, weekPrice: Option<real>,
                                   dayGap: Option<int>, dayPrice: Option<real>,
                                   monWeek: RatioCell, weekDay: RatioCell, monDay: RatioCell)

  /** A row of the weekly report, with its week-against-day ratio cell. */
  datatype WeeklyRow = WeeklyRow(agency: string, weekGap: int, weekPrice: real,
                                 dayGap: Option<int>, dayPrice: Option<real>, weekDay: RatioCell)

  /** A report table: its side ("Buy" or "Sell") as the caption prefix, and its rows. */
  datatype Report<Row> = Report(side: string, rows: seq<Row>)

  function MonthlyRowOf(mon: Stock, wb: AgencyMap, ws: AgencyMap, db: AgencyMap, ds: AgencyMap): MonthlyRow
  {
    var week := BuyFirst(wb, ws, mon.agency);
    var day := BuyFirst(db, ds, mon.agency);
    MonthlyRow(mon.agency, mon.gap, mon.price, GapOf(week), PriceOf(week), GapOf(day), PriceOf(day),
               FormatRatioCell(Some(mon.gap), GapOf(week)),
               FormatRatioCell(GapOf(week), GapOf(day)),
               FormatRatioCell(Some(mon.gap), GapOf(day)))
  }

  function WeeklyRowOf(week: Stock, db: AgencyMap, ds: AgencyMap): WeeklyRow
  {
    var day := BuyFirst(db, ds, week.agency);
    WeeklyRow(week.agency, week.gap, week.price, GapOf(day), PriceOf(day),
              FormatRatioCell(Some(week.gap), GapOf(day)))
  }

  /** `generateMonthlyReport`: one row per monthly agency, in map order. Week and
      day figures come from the buy map, else the sell map, else stay blank. */
  function GenerateMonthlyReport(side: string, monthly: AgencyMap, wb: AgencyMap, ws: AgencyMap,
                                 db: AgencyMap, ds: AgencyMap): (r: Report<MonthlyRow>)
    ensures r.side == side && |r.rows| == |monthly|
    ensures forall i :: 0 <= i < |r.rows| ==>
              && r.rows[i].agency == monthly[i].agency
              && r.rows[i].monGap == monthly[i].gap && r.rows[i].monPrice == monthly[i].price
    ensures forall i :: 0 <= i < |r.rows| ==>
              (r.rows[i].weekGap.None? <==> monthly[i].agency !in Agencies(wb) && monthly[i].agency !in Agencies(ws))
    ensures forall i :: 0 <= i < |r.rows| ==>
              (r.rows[i].dayGap.None? <==> monthly[i].agency !in Agencies(db) && monthly[i].agency !in Agencies(ds))
    ensures forall i :: 0 <= i < |r.rows| && monthly[i].agency in Agencies(wb) ==>
              r.rows[i].weekGap == GapOf(Lookup(wb, monthly[i].agency))
    ensures forall i :: 0 <= i < |r.rows| ==>
              && (r.rows[i].monWeek == Untouched <==> r.rows[i].weekGap.None?)
              && (r.rows[i].weekDay == Untouched <==> r.rows[i].weekGap.None? || r.rows[i].dayGap.None?)
              && (r.rows[i].monDay == Untouched <==> r.rows[i].dayGap.None?)
    ensures forall i :: 0 <= i < |r.rows| ==>
              var a := monthly[i].agency;
              var week := if a in Agencies(wb) then Lookup(wb, a) else Lookup(ws, a);
              var day := if a in Agencies(db) then Lookup(db, a) else Lookup(ds, a);
              && r.rows[i].weekGap == GapOf(week) && r.rows[i].weekPrice == PriceOf(week)
              && r.rows[i].dayGap == GapOf(day) && r.rows[i].dayPrice == PriceOf(day)
    ensures forall i :: 0 <= i < |r.rows| ==>
              && r.rows[i].monWeek == FormatRatioCell(Some(r.rows[i].monGap), r.rows[i].weekGap)
              && r.rows[i].weekDay == FormatRatioCell(r.rows[i].weekGap, r.rows[i].dayGap)
              && r.rows[i].monDay == FormatRatioCell(Some(r.rows[i].monGap), r.rows[i].dayGap)
  {
    Report(side, seq(|monthly|, i requires 0 <= i < |monthly| => MonthlyRowOf(monthly[i], wb, ws, db, ds)))
  }

  /** `generateWeeklyReport`: one row per weekly agency, in map order, with daily
      figures taken buy-first, then sell, else blank. */
  function GenerateWeeklyReport(side: string, weekly: AgencyMap, db: AgencyMap, ds: AgencyMap): (r: Report<WeeklyRow>)
    ensures r.side == side && |r.rows| == |weekly|
    ensures forall i :: 0 <= i < |r.rows| ==>
              && r.rows[i].agency == weekly[i].agency
              && r.rows[i].weekGap == weekly[i].gap && r.rows[i].weekPrice == weekly[i].price
    ensures forall i :: 0 <= i < |r.rows| ==>
              (r.rows[i].dayGap.None? <==> weekly[i].agency !in Agencies(db) && weekly[i].agency !in Agencies(ds))
    ensures forall i :: 0 <= i < |r.rows| && weekly[i].agency in Agencies(db) ==>
              r.rows[i].dayGap == GapOf(Lookup(db, weekly[i].agency))
    ensures forall i :: 0 <= i < |r.rows| ==>
              (r.rows[i].weekDay == Untouched <==> r.rows[i].dayGap.None?)
    ensures forall i :: 0 <= i < |r.rows| ==>
              var a := weekly[i].agency;
              var day := if a in Agencies(db) then Lookup(db, a) else Lookup(ds, a);
              && r.rows[i].dayGap == GapOf(day) && r.rows[i].dayPrice == PriceOf(day)
              && r.rows[i].weekDay == FormatRatioCell(Some(r.rows[i].weekGap), r.rows[i].dayGap)
  {
    Report(side, seq(|weekly|, i requires 0 <= i < |weekly| => WeeklyRowOf(weekly[i], db, ds)))
  }

  /** The buy and sell lists of one period. */
  datatype Lists = Lists(buy: seq<Stock>, sell: seq<Stock>)

  /** The row a period contributes for an agency: its last buy row, else its
      last sell row. */
  function LatestRow(l: Lists, a: string): Option<Stock>
  {
    if LastWith(l.buy, a).Some? then LastWith(l.buy, a) else LastWith(l.sell, a)
  }

  /** Read through the maps `createMapFromArray` builds, a monthly row shows the
      gap and price of the agency's latest weekly and daily rows, blank when the
      period has none, and its cells compare month with week, week with day and
      month with day. */
  lemma MonthlyFiguresFromLists(side: string, monthly: AgencyMap, week: Lists, day: Lists, i: nat)
    requires i < |monthly|
    ensures var r := GenerateMonthlyReport(side, monthly, CreateMapFromArray(week.buy), CreateMapFromArray(week.sell),
                                           CreateMapFromArray(day.buy), CreateMapFromArray(day.sell));
      var row := r.rows[i];
      var w := LatestRow(week, monthly[i].agency);
      var d := LatestRow(day, monthly[i].agency);
      && row.weekGap == GapOf(w) && row.weekPrice == PriceOf(w)
      && row.dayGap == GapOf(d) && row.dayPrice == PriceOf(d)
      && row.monWeek == FormatRatioCell(Some(monthly[i].gap), GapOf(w))
      && row.weekDay == FormatRatioCell(GapOf(w), GapOf(d))
      && row.monDay == FormatRatioCell(Some(monthly[i].gap), GapOf(d))
  {
    var a := monthly[i].agency;
    ListsLookup(week, a);
    ListsLookup(day, a);
  }

  /** Read through the maps, a weekly row shows the gap and price of the
      agency's latest daily row, blank when there is none, and its cell compares
      week with day. */
  lemma WeeklyFiguresFromLists(side: string, weekly: AgencyMap, day: Lists, i: nat)
    requires i < |weekly|
    ensures var r := GenerateWeeklyReport(side, weekly, CreateMapFromArray(day.buy), CreateMapFromArray(day.sell));
      var row := r.rows[i];
      var d := LatestRow(day, weekly[i].agency);
      && row.dayGap == GapOf(d) && row.dayPrice == PriceOf(d)
      && row.weekDay == FormatRatioCell(Some(weekly[i].gap), GapOf(d))
  {
    ListsLookup(day, weekly[i].agency);
  }

  /** The buy-first lookup in a period's two maps finds its latest row. */
  lemma ListsLookup(l: Lists, a: string)
    ensures var b := CreateMapFromArray(l.buy);
      (if a in Agencies(b) then Lookup(b, a) else Lookup(CreateMapFromArray(l.sell), a)) == LatestRow(l, a)
  {
    CreateMapLookup(l.buy, a);
    CreateMapLookup(l.sell, a);
  }

  /** The lists `parseMon`, `parseWeek` and `parseDay` stored on the object;
      None while unset or after `autoAnalyze` cleared them. */
  datatype Stored = Stored(mon: Option<Lists>, week: Option<Lists>, day: Option<Lists>)

  /** The four tables `_analyze` appends, in order. */
  datatype Analysis = Analysis(monthlyBuy: Report<MonthlyRow>, weeklyBuy: Report<WeeklyRow>,
                               monthlySell: Report<MonthlyRow>, weeklySell: Report<WeeklyRow>)

  /** `_analyze`: six maps, then the monthly and weekly reports of the buy side
      and of the sell side. */
  function AnalyzeLists(mon: Lists, week: Lists, day: Lists): Analysis
  {
    var mb := CreateMapFromArray(mon.buy);
    var ms := CreateMapFromArray(mon.sell);
    var wb := CreateMapFromArray(week.buy);
    var ws := CreateMapFromArray(week.sell);
    var db := CreateMapFromArray(day.buy);
    var ds := CreateMapFromArray(day.sell);
    Analysis(GenerateMonthlyReport("Buy", mb, wb, ws, db, ds),
             GenerateWeeklyReport("Buy", wb, db, ds),
             GenerateMonthlyReport("Sell", ms, wb, ws, db, ds),
             GenerateWeeklyReport("Sell", ws, db, ds))
  }

  /** `analyze(monthly, weekly, daily)`: when all three are missing the stored
      lists are used; reading `.buy` of a list that is still missing throws. */
  function Analyze(mon: Option<Lists>, week: Option<Lists>, day: Option<Lists>, stored: Stored): (r: Result<Analysis, Thrown>)
    ensures mon.None? && week.None? && day.None? ==>
              (r.Ok? <==> stored.mon.Some? && stored.week.Some? && stored.day.Some?)
    ensures (mon.Some? || week.Some? || day.Some?) ==> (r.Ok? <==> mon.Some? && week.Some? && day.Some?)
  {
    var fallback := mon.None? && week.None? && day.None?;
    var m := if fallback then stored.mon else mon;
    var w := if fallback then stored.week else week;
    var d := if fallback then stored.day else day;
    if m.None? || w.None? || d.None? then Err(TypeError)
    else Ok(AnalyzeLists(m.value, w.value, d.value))
  }

  /** The stored lists are used only when no list is passed; passed lists are
      used as given, whatever is stored. */
  lemma AnalyzeFallback(mon: Option<Lists>, week: Option<Lists>, day: Option<Lists>, stored: Stored, stored': Stored)
    requires mon.Some? && week.Some? && day.Some?
    ensures Analyze(mon, week, day, stored) == Ok(AnalyzeLists(mon.value, week.value, day.value))
    ensures Analyze(mon, week, day, stored) == Analyze(mon, week, day, stored')
    ensures Analyze(None, None, None, Stored(mon, week, day)) == Analyze(mon, week, day, stored)
  {
  }

  /** The monthly buy table lists each agency of the monthly buy list once, in
      order of first appearance, with the gap of its last row. */
  lemma AnalyzeMonthlyBuyRows(mon: Lists, week: Lists, day: Lists, a: string)
    ensures var rows := AnalyzeLists(mon, week, day).monthlyBuy.rows;
      && Agencies(CreateMapFromArray(mon.buy)) == FirstOccurrences(Agencies(mon.buy))
      && |rows| == |FirstOccurrences(Agencies(mon.buy))|
      && (forall i :: 0 <= i < |rows| ==> rows[i].agency == FirstOccurrences(Agencies(mon.buy))[i])
      && (forall i :: 0 <= i < |rows| && rows[i].agency == a ==> Some(rows[i].monGap) == GapOf(LastWith(mon.buy, a)))
  {
    var m := CreateMapFromArray(mon.buy);
    CreateMapOrder(mon.buy);
    CreateMapLookup(mon.buy, a);
    var rows := AnalyzeLists(mon, week, day).monthlyBuy.rows;
    forall i | 0 <= i < |rows| && rows[i].agency == a ensures Some(rows[i].monGap) == GapOf(LastWith(mon.buy, a)) {
      LookupAt(m, i);
    }
  }
}

=== FILE: wrappers.dfy ===
/** Failure-carrying result types shared by every component of the model. */
module Wrappers {

  /** An optional value: `None` stands for JavaScript's null/undefined and Java's null. */
  datatype Option<+T> = None | Some(value: T)

  /** The outcome of an operation that may throw: `Err` carries the thrown error. */
  datatype Result<+T, +E> = Ok(value: T) | Err(error: E)
}
